=== FILE: README.md ===
# appointment-web client core, in Dafny

A verified functional model of the client-side logic of the appointment
booking web client (React + Redux Toolkit, TypeScript). Everything the
client decides on its own is modelled as pure functions over immutable
records and sequences:

- the two Redux slices (appointments, auth), as `(state, action) -> state`
  reducers;
- the list logic of the appointment pages: the upcoming/past tabs, the
  admin status and text filter, the admin date-range request with its
  date-fns formats, replace-by-id after a server answer, the status-gated
  admin actions and the status colours;
- the booking wizard and the edit form: service toggling with unique ids,
  duration and price totals, step validation, change detection and the
  create/update requests;
- the weekly work-schedule upsert keyed by day, the active-flag toggle,
  the Romanian day names and the exception time-range column;
- the form validators and handlers for services, profile and password,
  registration and login;
- the token cookies: the strings `setCookie`/`removeCookie` assign to
  `document.cookie`, the `getCookie` regular-expression lookup, and the
  browser's cookie jar between them (host-only cookies, following sections
  5.2 and 5.3 of RFC 6265: a write is cut at its first `;` and the
  name-value pair split at its first `=`).

JavaScript semantics are written out where the code relies on them: `""`,
`0`, `null` and `undefined` are falsy (`Domain.IsPresent`,
`Domain.IsSetId`); `trim` removes the ECMAScript white-space and
line-terminator characters; `toLowerCase` is the Unicode lowercase
mapping for the capital letters of Basic Latin, Latin-1, Latin
Extended-A, the Romanian comma-below letters and the other Latin
Extended-B pairs from U+0200 to U+0233, and basic Cyrillic
(`Text.IsUpper`), so `Ș` lowers to `ș`; `parseInt`
and `parseFloat` read a sign and the longest digit prefix (`parseInt`
also `0x` hex), giving NaN (`None`) when no digit follows;
`Array.prototype.findIndex` replaces the first match while `map`
replaces every match. Server calls are parameters: a handler takes the
server's answer (or its failure) as an argument and returns the new page
state plus the request it would send.

Modules follow the source: `Domain` (types and status predicates of
`types/appointment.ts` and `types/index.ts`), `AppointmentSlice`,
`AuthSlice`, `WorkScheduleManagement`, `ServiceSelection` (shared by the
two booking pages), `NewAppointment`, `EditAppointment`,
`AdminAppointments` (with `DateFormat` for its date-fns patterns),
`AppointmentsPage`, `AppointmentDetails`,
`ServiceManagement`, `Profile`, `AuthForms` (login and register forms) and
`Cookies`; `Base`, `Text` and `JsNumbers` hold the sequence, string and
number helpers they share.

## Model

| member | source | states |
|---|---|---|
| AppointmentSlice.Reduce | src/store/appointmentSlice.ts:120-266 | Each synchronous reducer resets exactly one field. Every pending case sets loading and clears the error, and every rejected case stores the message; neither touches the data fields. A list fetch replaces only the list, a fetch by id sets only the current appointment, and the slot fetch stores exactly the response's slots. Create appends the payload at the end and makes it current. Update replaces the first appointment with the payload's id and always sets the current one. Cancel replaces likewise but sets the current one only when the ids agree |
| AppointmentSlice.FindIndexById | src/store/appointmentSlice.ts:204 | `findIndex`: the index found is the first with that id, and none means no appointment has the id |
| AppointmentSlice.ReplaceFirstById | src/store/appointmentSlice.ts:204-207 | The list keeps its length; the first element with the payload's id becomes the payload and all others are unchanged, so a list without the id is returned as it was |
| AppointmentSlice.FailedRequestsKeepData | src/store/appointmentSlice.ts:137-148 | Any run of pending, rejected and error-reset actions leaves appointments, current appointment, services and slots as they were |
| AppointmentSlice.StartThenFail | src/store/appointmentSlice.ts:198-213 | A request that starts and then fails ends not loading, with the failure message, and with the data unchanged |
| AppointmentSlice.ReplacedStaysFirst | src/store/appointmentSlice.ts:202-207 | Replacing the first match at index i is the point update at i, and i is still the first index with that id afterwards |
| AppointmentSlice.UpdateIdempotent | src/store/appointmentSlice.ts:202-209 | Delivering the same fulfilled update twice gives the state a single delivery gives |
| AppointmentSlice.CreateThenUpdate | src/store/appointmentSlice.ts:186-209 | Creating an appointment with a new id and then updating it leaves the old list followed by the updated appointment, which is also current |
| AuthSlice.UserFromLogin | src/store/authSlice.ts:95-105 | The user stored on login carries the response's id, email, username and roles, empty names, country RO and is active |
| AuthSlice.Reduce | src/store/authSlice.ts:77-158 | resetAuthError clears only the error. login and register pending set loading and clear the error, and their rejections store the message. A fulfilled login authenticates with the user built from the response. A fulfilled register only stops loading. getCurrentUser pending keeps the error; fulfilled stores the user; rejected drops user and session. A fulfilled logout drops user and session, and a pending or failed logout changes nothing |
| AuthSlice.ReduceConsistent | src/store/authSlice.ts:92-156 | Every transition keeps "authenticated exactly when a user is stored" |
| AuthSlice.ReachableConsistent | src/store/authSlice.ts:77-158 | The invariant holds after any sequence of actions |
| AuthSlice.SessionPersists | src/store/authSlice.ts:137-156 | Only a rejected getCurrentUser or a fulfilled logout can end an authenticated session |
| WorkScheduleManagement.FindDay | src/pages/WorkScheduleManagementPage.tsx:202-204 | The index found is the first entry for the day, and none means no entry has that day |
| WorkScheduleManagement.Upsert | src/pages/WorkScheduleManagementPage.tsx:201-214 | If the day is already present, its first entry is replaced in place and the length is kept. Otherwise the entry is appended and the length grows by one. Entries for other days are never changed or moved |
| WorkScheduleManagement.UpsertUniqueReplaces | src/pages/WorkScheduleManagementPage.tsx:207-210 | With one entry per day, saving an existing day is the point update at that day's index |
| WorkScheduleManagement.UpsertKeepsUniqueDays | src/pages/WorkScheduleManagementPage.tsx:201-214 | At most one entry per day before implies at most one after |
| WorkScheduleManagement.UpsertIdempotent | src/pages/WorkScheduleManagementPage.tsx:201-214 | Saving the same entry twice gives the list a single save gives |
| WorkScheduleManagement.SaveSchedule | src/pages/WorkScheduleManagementPage.tsx:194-220 | Nothing is sent without a selected provider; otherwise the request carries that provider and the upserted regular schedule, an absent schedule counting as empty |
| WorkScheduleManagement.ToggledList | src/pages/WorkScheduleManagementPage.tsx:466-487 | The saved list holds the row with its active flag flipped, grows by at most one, and keeps the other days' entries unchanged |
| WorkScheduleManagement.ToggleActive | src/pages/WorkScheduleManagementPage.tsx:460-492 | Nothing is sent without a selected provider; otherwise the request carries that provider and the list with the row's flag flipped, an absent schedule counting as empty |
| WorkScheduleManagement.ToggleIsSave | src/pages/WorkScheduleManagementPage.tsx:194-220 | Toggling a row sends exactly the request that saving the form filled with the row, its flag flipped, sends |
| WorkScheduleManagement.ToggleFlipsOnlyActive | src/pages/WorkScheduleManagementPage.tsx:466-487 | Toggling a row flips its active flag, keeps its id, provider, day, start and end, and leaves every other row as it was |
| WorkScheduleManagement.ToggleTwiceRestores | src/pages/WorkScheduleManagementPage.tsx:469 | Toggling the same row twice restores the schedule |
| WorkScheduleManagement.LookupDay | src/pages/WorkScheduleManagementPage.tsx:373 | A key lookup finds a pair of the table exactly when some pair has that key |
| WorkScheduleManagement.DayName | src/pages/WorkScheduleManagementPage.tsx:362-374 | The seven English day constants map to their Romanian names, and any other string is returned unchanged |
| WorkScheduleManagement.DayNamesDistinct | src/pages/WorkScheduleManagementPage.tsx:363-371 | Different days get different names |
| WorkScheduleManagement.ExceptionRangeText | src/pages/WorkScheduleManagementPage.tsx:576-579 | `N/A` exactly when the exception is not special hours or lacks a start or end; otherwise "start - end" |
| Domain.UpcomingPastPartition | src/pages/AppointmentsPage.tsx:91-100 | Every status is upcoming or past, never both |
| Domain.UpcomingTab | src/pages/AppointmentsPage.tsx:91-94 | The upcoming tab shows only pending and confirmed appointments |
| Domain.PastTab | src/pages/AppointmentsPage.tsx:96-100 | The past tab shows only completed, cancelled and no-show appointments |
| Domain.TabsPartition | src/pages/AppointmentsPage.tsx:91-100 | Together the two tabs hold every appointment exactly once: their multisets add up to the list's |
| Domain.TabsKeepOrder | src/pages/AppointmentsPage.tsx:91-100 | Each tab keeps the list's order: the tab of a concatenation is the concatenation of the tabs |
| Domain.ServiceIds | src/pages/NewAppointmentPage.tsx:172 | The request's service ids are the selected services' ids, in selection order |
| Domain.StatusColor | src/pages/AdminAppointmentsPage.tsx:179-194 | Pending is warning, confirmed is success, completed is primary, and cancelled and no-show are error. The default colour is never used. The upcoming statuses are exactly those coloured warning or success. The pages AppointmentsPage.tsx:132-147 and AppointmentDetailsPage.tsx:65-80 use the same mapping |
| Domain.StatusColorSeparates | src/pages/AppointmentDetailsPage.tsx:65-80 | Only cancelled and no-show share a colour |
| ServiceSelection.TotalDuration | src/pages/NewAppointmentPage.tsx:67 | With non-negative durations the total is non-negative; with positive durations it is positive exactly when a service is selected |
| ServiceSelection.TotalPrice | src/pages/NewAppointmentPage.tsx:68 | With non-negative prices the total is non-negative |
| ServiceSelection.TotalsConcat | src/pages/NewAppointmentPage.tsx:67-68 | The duration and price totals add up over a concatenation of selections |
| ServiceSelection.FindServiceIndex | src/pages/NewAppointmentPage.tsx:137 | The index found holds the service's id, and none means the id is not selected |
| ServiceSelection.WithoutId | src/pages/NewAppointmentPage.tsx:146 | No service with the removed id is left |
| ServiceSelection.Toggle | src/pages/NewAppointmentPage.tsx:135-153 | An unselected service is appended at the end. A selected one is removed, and the selection gets shorter |
| ServiceSelection.ToggleMembership | src/pages/EditAppointmentPage.tsx:150-161 | Afterwards the toggled id is selected exactly when it was not before, and every other id keeps its membership |
| ServiceSelection.ToggleKeepsUniqueIds | src/pages/NewAppointmentPage.tsx:137-146 | Toggling keeps service ids unique in the selection |
| ServiceSelection.ToggleTwiceRestores | src/pages/NewAppointmentPage.tsx:143-151 | Toggling an unselected service twice restores the selection |
| ServiceSelection.WithoutIdSplit | src/pages/NewAppointmentPage.tsx:146 | With unique ids, removing the id at index k is removing index k |
| ServiceSelection.RemoveTotals | src/pages/NewAppointmentPage.tsx:67-68 | Removing a selected service lowers the totals by its duration and price |
| ServiceSelection.ToggleTotals | src/pages/NewAppointmentPage.tsx:67-68 | Adding a service raises the totals by its duration and price; removing one lowers them by the removed service's |
| NewAppointment.ToggleService | src/pages/NewAppointmentPage.tsx:135-153 | The services follow `Toggle`. Adding the first service sets the provider from it, unless its provider id is 0. Removing the last service clears the provider, and any other change keeps it |
| NewAppointment.ToggleServiceTwice | src/pages/NewAppointmentPage.tsx:135-153 | From a selection whose provider is cleared when empty, toggling an unselected service twice restores both the services and the provider |
| NewAppointment.StepErrors | src/pages/NewAppointmentPage.tsx:94-109 | Step 0 reports missing services. Step 1 reports a missing date and a missing time, collected together. Step 2 reports nothing |
| NewAppointment.HandleNext | src/pages/NewAppointmentPage.tsx:94-127 | Errors are shown and the step kept exactly when the step has errors. Without errors the wizard advances by one below the last step and submits on it |
| NewAppointment.WizardStaysInRange | src/pages/NewAppointmentPage.tsx:121-132 | No sequence of Next and Back clicks takes the step past the last index, 2 |
| NewAppointment.AdvanceNeedsInput | src/pages/NewAppointmentPage.tsx:98-115 | Leaving step 0 needs a selected service, and leaving step 1 needs a date and a time slot |
| NewAppointment.OfferedSlots | src/pages/NewAppointmentPage.tsx:345-346 | Only available slots are offered |
| NewAppointment.OfferedSlotsExact | src/pages/NewAppointmentPage.tsx:345-346 | Every available slot is offered as often as it occurs, and no other slot is |
| NewAppointment.ToggleAllKeepsInvariant | src/pages/NewAppointmentPage.tsx:135-153 | Any run of service clicks keeps the selected ids unique and the provider cleared whenever the selection is empty |
| NewAppointment.ClickedRequestHasDistinctServices | src/pages/NewAppointmentPage.tsx:135-175 | A request built from a selection made by clicks from the empty selection carries a non-empty list of pairwise distinct service ids |
| NewAppointment.BuildCreateRequest | src/pages/NewAppointmentPage.tsx:161-175 | A request is built exactly when the user id, the time slot and the provider are all set, and a missing provider is reported. The request carries the client, provider, slot and service ids in selection order. Its notes are trimmed, or absent when blank |
| EditAppointment.IdSet | src/pages/EditAppointmentPage.tsx:137-138 | The set of ids holds exactly the ids that occur in the services |
| EditAppointment.UniqueIdSetSize | src/pages/EditAppointmentPage.tsx:136-139 | With unique ids, the id set has as many elements as the list |
| EditAppointment.ServicesChanged | src/pages/EditAppointmentPage.tsx:136-139 | The services count as unchanged exactly when the lengths agree and every selected id is booked |
| EditAppointment.HasChanges | src/pages/EditAppointmentPage.tsx:134-146 | A change of services, slot or notes is a change, and the form as loaded from the appointment shows none; with unique ids on both sides, there is a change exactly when the service-id sets, the slot or the notes differ |
| EditAppointment.SaveDisabled | src/pages/EditAppointmentPage.tsx:457 | Saving is disabled while loading and on the unchanged form, and enabled exactly when nothing loads and the form has changes |
| EditAppointment.EditEnablesSave | src/pages/EditAppointmentPage.tsx:134-146 | Save is disabled on the form as loaded; picking another slot, or a service set with different ids, enables it when nothing loads |
| EditAppointment.ServicesChangedIffIdsDiffer | src/pages/EditAppointmentPage.tsx:136-139 | With unique ids on both sides, "the lengths differ or some selected id is not booked" holds exactly when the selected and booked id sets differ |
| EditAppointment.BookedFromCatalog | src/pages/EditAppointmentPage.tsx:80-82 | Only catalog services that the appointment booked are preselected |
| EditAppointment.BookedFromCatalogIds | src/pages/EditAppointmentPage.tsx:80-82 | An id is preselected exactly when it is both in the catalog and booked |
| EditAppointment.Initialize | src/pages/EditAppointmentPage.tsx:77-94 | Nothing changes until both the appointment and a non-empty catalog are loaded. Then the slot is the appointment's start and the notes are its notes or empty, and an id is selected exactly when it is in the catalog and booked |
| EditAppointment.InitializedUnchangedIff | src/pages/EditAppointmentPage.tsx:77-146 | Right after initialisation the form shows no change exactly when every booked service is in the catalog |
| EditAppointment.Submit | src/pages/EditAppointmentPage.tsx:169-200 | Missing services and a missing slot are both reported in one pass, and no request is made while either is present. Without a loaded appointment nothing is sent. Otherwise the update carries the appointment id, the slot, the service ids in selection order, and the notes trimmed or absent when blank, with no status |
| EditAppointment.SubmitInitialized | src/pages/EditAppointmentPage.tsx:77-200 | Submitting the form right after initialisation, with every booked service in the catalog, sends exactly when the appointment has a start time, and then sends the appointment's own id and start, the booked ids as the service-id set, and its notes trimmed or absent |
| EditAppointment.OfferedSlots | src/pages/EditAppointmentPage.tsx:398-399 | Offered slots are available or start at the appointment's current time |
| EditAppointment.OfferedSlotsExact | src/pages/EditAppointmentPage.tsx:398-399 | Every available slot, and the slot at the current start even if unavailable, is offered as often as it occurs; nothing else is |
| DateFormat.Pad | src/pages/AdminAppointmentsPage.tsx:111-112 | date-fns zero padding: the text is all digits, reads back as the number, is at least as wide as asked, and a number below 100 padded to two is exactly two digits |
| DateFormat.EndIsLastSecondOfDay | src/pages/AdminAppointmentsPage.tsx:111-112 | The end pattern prints what the start pattern prints for the same day at 23:59:59, whatever the date's own time |
| DateFormat.StartRoundTrip | src/pages/AdminAppointmentsPage.tsx:111 | Every valid date printed with `yyyy-MM-dd'T'HH:mm:ss` reads back as that date |
| DateFormat.EndRoundTrip | src/pages/AdminAppointmentsPage.tsx:112 | Every valid date printed with `yyyy-MM-dd'T'23:59:59` reads back as that day at 23:59:59 |
| AdminAppointments.FetchAppointments | src/pages/AdminAppointmentsPage.tsx:104-112 | `fetchAppointments` requests exactly when both dates are set, with no user check; the start reads back as the start date and time, the end as the end date at 23:59:59 |
| AdminAppointments.MountFetch | src/pages/AdminAppointmentsPage.tsx:98-102 | The mount effect requests only when the user has a non-zero id and both dates are set |
| AdminAppointments.ButtonsRepeatMountRequest | src/pages/AdminAppointmentsPage.tsx:98-105 | For the same dates, the refresh and apply buttons send whatever request the mount effect sends; without a user id the effect sends nothing while the buttons still send the range request when both dates are set |
| AdminAppointments.LoadAnswer | src/pages/AdminAppointmentsPage.tsx:107-123 | A loaded list replaces the page's list and leaves no error; a failed load keeps the list and shows the load-failure message; loading stops either way and the dialog is untouched |
| AdminAppointments.LoadedListShown | src/pages/AdminAppointmentsPage.tsx:119-135 | After a successful load with no filter and no query, the page lists exactly what the server sent, in its order |
| Text.LowerChar | src/pages/AdminAppointmentsPage.tsx:136-140 | A capital letter lowers to a different character that is not a capital, every other character is kept, and ASCII capitals lower to ASCII small letters |
| Text.RomanianLettersLower | src/pages/AdminAppointmentsPage.tsx:136-140 | The Romanian capitals Ă, Â, Î, Ș, Ț and the cedilla forms Ş, Ţ lower to their small letters |
| AdminAppointments.MatchesSearch | src/pages/AdminAppointmentsPage.tsx:134-146 | An empty query matches; otherwise an appointment matches exactly when the lower-cased query occurs in the lower-cased client name, client email or some booked service's name |
| AdminAppointments.Matches | src/pages/AdminAppointmentsPage.tsx:128-149 | With status ALL only the search decides; with an empty query only the status decides; an appointment kept under a status filter has that status |
| AdminAppointments.RomanianNameFound | src/pages/AdminAppointmentsPage.tsx:136-137 | The client `Ștefan Pop` is found by the queries `ștefan` and `ȘTEFAN` |
| AdminAppointments.Filtered | src/pages/AdminAppointmentsPage.tsx:128-149 | Filtering only removes, and every appointment shown matches the status filter and the search |
| AdminAppointments.FilteredExact | src/pages/AdminAppointmentsPage.tsx:128-149 | Every matching appointment is kept as often as it occurs, and no other is |
| AdminAppointments.NoFilterShowsAll | src/pages/AdminAppointmentsPage.tsx:130-135 | With status ALL and an empty search, the list is shown unchanged |
| AdminAppointments.FilteredKeepsOrder | src/pages/AdminAppointmentsPage.tsx:128-149 | Filtering keeps order: the filter of a concatenation is the concatenation of the filters |
| AdminAppointments.SearchIgnoresQueryCase | src/pages/AdminAppointmentsPage.tsx:136 | The search does not depend on the query's letter case |
| AdminAppointments.VerbatimQueryMatches | src/pages/AdminAppointmentsPage.tsx:135-146 | A query that occurs verbatim in the client name, the client email or a service name always matches |
| AdminAppointments.StatusFilterEmptiesOtherTab | src/pages/AdminAppointmentsPage.tsx:128-161 | Filtering on an upcoming status leaves the past tab empty, and the reverse |
| AdminAppointments.ReplaceAllById | src/pages/AdminAppointmentsPage.tsx:221-223 | Every appointment with the id becomes the server result, and all others are unchanged |
| AdminAppointments.ReplaceAllAgreesWithStore | src/pages/AdminAppointmentsPage.tsx:242-244 | With unique ids, the page's replace-all agrees with the store's replace-first |
| AdminAppointments.ReplaceAllIdempotent | src/pages/AdminAppointmentsPage.tsx:221-223 | Applying the same answer twice gives the list applying it once gives |
| AdminAppointments.StatusUpdateRequest | src/pages/AdminAppointmentsPage.tsx:209-218 | No request without a selected appointment; otherwise the request carries only the id and the new status |
| AdminAppointments.ApplyAnswer | src/pages/AdminAppointmentsPage.tsx:221-230 | Either way loading stops. An answer replaces the list copies and becomes the selection. A failure sets the message and changes nothing else |
| AdminAppointments.HandleUpdateStatus | src/pages/AdminAppointmentsPage.tsx:209-232 | Without a selected appointment nothing changes. Otherwise the busy flag ends off and the load flag is kept. On success the list keeps its length, each entry with the id becomes the answer and every other entry stays, the dialog shows the answer and the error is kept. On failure list and dialog stay and the status-update message is shown |
| AdminAppointments.HandleCancel | src/pages/AdminAppointmentsPage.tsx:235-253 | With no guard on the selection: the busy flag ends off and the load flag is kept. On success each entry with the id becomes the answer, the others stay and the dialog shows the answer. On failure list and dialog stay and the cancel message is shown |
| AdminAppointments.CancelledLeavesUpcomingTab | src/pages/AdminAppointmentsPage.tsx:152-245 | Once the server confirms a cancellation, no appointment with that id remains on the upcoming tab |
| AdminAppointments.FailuresKeepList | src/pages/AdminAppointmentsPage.tsx:227-252 | A refused status change or cancellation changes only the error banner and the busy flag |
| AdminAppointments.AnswerReplacesEveryCopy | src/pages/AdminAppointmentsPage.tsx:221-223 | After an answer, each position holds the answer if its id matched and the old appointment otherwise |
| AdminAppointments.ActionTarget | src/pages/AdminAppointmentsPage.tsx:639-681 | Every action other than Edit names a target status |
| AdminAppointments.OfferedActions | src/pages/AdminAppointmentsPage.tsx:633-683 | Non-admins see no actions. Admins always see Edit. They see Confirm exactly from pending, and Complete, Cancel and No-show exactly from pending or confirmed |
| AdminAppointments.OfferedChangesMoveForward | src/pages/AdminAppointmentsPage.tsx:639-683 | Every offered status change starts from an upcoming status and goes to a different one; from a past status only Edit is offered |
| AppointmentsPage.CancelButtons | src/pages/AppointmentsPage.tsx:184-257 | Every cancel button belongs to an upcoming appointment of the list |
| AppointmentsPage.EveryUpcomingCancellable | src/pages/AppointmentsPage.tsx:91-257 | Every upcoming appointment has a cancel button, and a past one is only on the past tab |
| AppointmentsPage.CancelClick | src/pages/AppointmentsPage.tsx:113-116 | Clicking cancel opens the dialog on that appointment |
| AppointmentsPage.CloseDialog | src/pages/AppointmentsPage.tsx:126-129 | Closing the dialog closes it and clears the selection |
| AppointmentsPage.CancelConfirm | src/pages/AppointmentsPage.tsx:118-124 | A cancellation is sent exactly when a non-zero id is selected, and the dialog then closes; otherwise nothing changes |
| AppointmentsPage.ClickThenConfirm | src/pages/AppointmentsPage.tsx:113-124 | Clicking cancel on a non-zero id and confirming cancels that id and closes the dialog; id 0 sends nothing |
| AppointmentsPage.ClickThenDismiss | src/pages/AppointmentsPage.tsx:113-129 | Clicking cancel and then closing the dialog never sends a cancellation |
| AppointmentDetails.CanModify | src/pages/AppointmentDetailsPage.tsx:83-85 | An appointment can be modified exactly when one is loaded with status pending or confirmed, so never when it is past |
| AppointmentDetails.CanModifyMatchesAdminCancel | src/pages/AppointmentDetailsPage.tsx:83-85 | An appointment can be modified exactly when it is loaded with status pending or confirmed, which are the statuses from which the admin page offers Cancel |
| AppointmentDetails.ButtonCancelsModifiable | src/pages/AppointmentDetailsPage.tsx:52-61 | The cancel button, shown only when the appointment can be modified (:227-242), cancels that appointment on confirmation, which the admin page would also offer to cancel; a declined confirmation sends nothing |
| AppointmentDetails.HandleCancel | src/pages/AppointmentDetailsPage.tsx:52-61 | A cancel is sent exactly when an appointment is loaded and the user confirms, and it is for that appointment. The reload happens only after a successful cancel, and for the same id |
| ServiceManagement.AddService | src/pages/ServiceManagementPage.tsx:70-75 | The add dialog opens in add mode, with no selected service and the blank form |
| ServiceManagement.EditService | src/pages/ServiceManagementPage.tsx:78-91 | The edit dialog holds the service, and its form shows the name, active flag, description and image or empty text. The price and duration texts read back by `parseInt` as the service's values |
| ServiceManagement.CloseDialog | src/pages/ServiceManagementPage.tsx:105-108 | Closing resets the form and keeps mode and selection |
| ServiceManagement.NameError | src/pages/ServiceManagementPage.tsx:114-116 | A name is required exactly when it is blank after trimming |
| ServiceManagement.PriceError | src/pages/ServiceManagementPage.tsx:118-122 | A price is required exactly when blank. Otherwise it is invalid exactly when `parseFloat` gives NaN or a number below zero, so 0 is accepted |
| ServiceManagement.DurationError | src/pages/ServiceManagementPage.tsx:124-128 | A duration is required exactly when blank. Otherwise it is invalid exactly when `parseInt` gives NaN or a number not above zero |
| ServiceManagement.Validate | src/pages/ServiceManagementPage.tsx:111-132 | Each field's error is absent exactly when that field passes its own check |
| ServiceManagement.ValidForm | src/pages/ServiceManagementPage.tsx:111-132 | A valid form has a price and a duration that parse, with a positive duration; a form with any blank field is not valid |
| ServiceManagement.ValidFormIff | src/pages/ServiceManagementPage.tsx:111-132 | The form validates exactly when the name is not blank, the price is a number not below zero and the duration is a positive integer |
| ServiceManagement.BlankFormInvalid | src/pages/ServiceManagementPage.tsx:94-102 | The reset form reports all three fields as required in one pass |
| ServiceManagement.NonEmptyOrAbsent | src/pages/ServiceManagementPage.tsx:141-145 | Empty text becomes absent, and any other text is kept |
| ServiceManagement.HandleSave | src/pages/ServiceManagementPage.tsx:135-155 | Nothing is sent while the form has errors. The add dialog creates and the edit dialog updates under the draft's own id. The draft takes the selected id (0 without one), the untrimmed name, the parsed price and duration, the active flag, and the description and image, absent when empty |
| ServiceManagement.AddedServiceHasIdZero | src/pages/ServiceManagementPage.tsx:138 | A valid form in the add dialog is created with id 0 |
| ServiceManagement.EditedServiceValidIff | src/pages/ServiceManagementPage.tsx:78-132 | An unedited edit form validates exactly when the service has a non-blank name, a price not below zero and a positive duration |
| ServiceManagement.PriceTextError | src/pages/ServiceManagementPage.tsx:85 | The printed price is never blank and is invalid exactly when negative |
| ServiceManagement.DurationTextError | src/pages/ServiceManagementPage.tsx:86 | The printed duration is never blank and is invalid exactly when not positive |
| ServiceManagement.IntTextNotBlank | src/pages/ServiceManagementPage.tsx:85-86 | A printed integer is never blank |
| ServiceManagement.PriceRoundTrip | src/pages/ServiceManagementPage.tsx:85-142 | A non-negative price printed by `toString` reads back by `parseFloat` as the same number |
| ServiceManagement.UnchangedEditRoundTrip | src/pages/ServiceManagementPage.tsx:78-155 | Saving an untouched edit of a valid service sends an update under its id with the same name, price, duration and active flag; an empty description or image becomes absent |
| JsNumbers.ParseInt | src/pages/ServiceManagementPage.tsx:126 | Blank text is NaN |
| JsNumbers.ParseFloat | src/pages/ServiceManagementPage.tsx:120 | Blank text is NaN |
| JsNumbers.IntToString | src/pages/ServiceManagementPage.tsx:85-86 | `toString` of an integer is its digits, preceded by `-` exactly when it is negative |
| JsNumbers.ParseOfSignedDigits | src/pages/ServiceManagementPage.tsx:118-128 | After leading white space and an optional sign, a non-empty run of plain digits reads as its signed decimal value with both parsers |
| JsNumbers.ParseOfNonNumeric | src/pages/ServiceManagementPage.tsx:118-128 | Text whose first character after the sign is no digit (nor `.` or `I`) is NaN for both parsers |
| JsNumbers.ParseIntToString | src/pages/ServiceManagementPage.tsx:85-86 | `parseInt` and `parseFloat` read the decimal text of any integer back as that integer |
| Profile.FormOf | src/pages/ProfilePage.tsx:104-113 | The profile form shows the profile's first and last name, email and phone |
| Profile.ToggleEdit | src/pages/ProfilePage.tsx:139-153 | Toggling flips the editing flag. Leaving edit mode with a profile loaded restores the form from the profile; otherwise the form is kept |
| Profile.CancelDiscardsEdits | src/pages/ProfilePage.tsx:139-153 | Cancelling an edit discards every edited field, and entering and leaving edit mode leaves a fresh form as it was |
| Profile.SaveProfile | src/pages/ProfilePage.tsx:155-165 | Nothing is saved without a profile. The saved copy shows exactly the form, and keeps the id, country, image and active flag |
| Profile.SaveUntouched | src/pages/ProfilePage.tsx:155-165 | Saving the untouched form sends the profile unchanged |
| Profile.SaveDeterminedByForm | src/pages/ProfilePage.tsx:158-164 | Two forms that save the same profile are equal: all four fields are carried over |
| Profile.ChangePassword | src/pages/ProfilePage.tsx:174-186 | A mismatch is reported exactly when the new password and its confirmation differ. "Too short" is reported exactly when they agree and have fewer than 8 characters. Otherwise the whole form is sent |
| Profile.AfterChange | src/pages/ProfilePage.tsx:186-196 | A successful change clears all three fields, and a failed one keeps them |
| Profile.ConfirmFlagged | src/pages/ProfilePage.tsx:556-557 | The confirmation field is flagged exactly when it is non-empty and the handler would report a mismatch |
| Profile.ButtonDisabled | src/pages/ProfilePage.tsx:570-577 | The button is disabled while loading, when any of the three fields is empty, when the new password is shorter than 8 or the confirmation is flagged; it is enabled exactly when nothing loads, an old password is typed and the handler would send the form |
| Profile.ButtonIffHandlerSends | src/pages/ProfilePage.tsx:556-577 | Both directions: the button is enabled exactly when nothing loads, an old password is typed and the handler would send; the confirmation is flagged exactly when it is filled in and the handler would report a mismatch |
| Profile.ButtonAgreesWithHandler | src/pages/ProfilePage.tsx:556-577 | An enabled button always leads to a request. A flagged confirm field always disables the button. Any form the handler would send, with an old password and no load in progress, enables it |
| Profile.ClearedFormRefused | src/pages/ProfilePage.tsx:186-196 | After a successful change the button is disabled and the handler would answer "too short" |
| AuthForms.HandleLogin | src/components/auth/LoginForm.tsx:40-58 | Email is checked first: it is required exactly when blank after trimming. The password is required exactly when the email passes and the password is empty, with no trimming. Otherwise the untrimmed email and password are sent |
| AuthForms.HandleRegister | src/components/auth/RegisterForm.tsx:52-83 | The checks run in order: required fields (email and names non-blank, password non-empty, phone unchecked), then match, then length 8. Exactly the first failure is reported. A passing form is sent with email, password, names, country and phone |
| AuthForms.AfterRegister | src/components/auth/RegisterForm.tsx:85-94 | Success resets every text field and keeps the selected country; failure keeps the form |
| AuthForms.RegisteredCredentialsPassLogin | src/components/auth/RegisterForm.tsx:60-83 | Credentials the register form accepts pass the login form's checks unchanged |
| AuthForms.ResetFormRefused | src/components/auth/RegisterForm.tsx:85-94 | Resubmitting the reset form is refused for missing fields |
| AuthForms.SamePasswordRuleAsProfile | src/components/auth/RegisterForm.tsx:65-73 | Once the required fields are present, registration's mismatch and length checks agree with the profile's password change |
| Cookies.SetCookieString | src/utils/tokenUtils.ts:8-12 | The written string is `name=value;expires=<date>;path=/;SameSite=Strict`, stated piece by piece with its exact length |
| Cookies.RemoveIsExpiredSet | src/utils/tokenUtils.ts:21-23 | Removing writes an empty value that expired at the start of the epoch |
| Cookies.ParseWrite | src/utils/tokenUtils.ts:11 | The browser cuts a write at its first `;` and splits the pair at its first `=`: the name holds neither `;` nor `=`, the value no `;`; a pair without `=` is an empty name with the whole pair as value |
| Cookies.SemicolonEndsPair | src/utils/tokenUtils.ts:11 | An `=` after the first `;` belongs to the attributes, not to the name: `a;b=c` is the nameless cookie `a` |
| Cookies.SetCookieParsesBack | src/utils/tokenUtils.ts:11 | The browser reads the write back as the same name and value when the name has neither `=` nor `;` and the value no `;` |
| Cookies.Lookup | src/utils/tokenUtils.ts:15-18 | A jar lookup returns a value stored under the name, and nothing exactly when no cookie has the name |
| Cookies.Expire | src/utils/tokenUtils.ts:21-23 | An expired write removes the name from the jar |
| Cookies.ExpireKeepsOthers | src/utils/tokenUtils.ts:46-50 | Expiring one name leaves every other name's value as it was |
| Cookies.Store | src/utils/tokenUtils.ts:8-12 | Storing keeps the jar well formed |
| Cookies.StoreLookup | src/utils/tokenUtils.ts:8-12 | After storing, the name reads the stored value and other names read as before |
| Cookies.GetCookie | src/utils/tokenUtils.ts:15-18 | Null exactly when `name=` never occurs at the start or after a space with a non-`;` character following. Otherwise the value is the maximal non-`;` run after the leftmost such occurrence |
| Cookies.GetCookieAtFirst | src/utils/tokenUtils.ts:16-17 | The value returned is the run after the leftmost valid occurrence |
| Cookies.GetCookieFindsJarValue | src/utils/tokenUtils.ts:15-18 | On the string the browser serialises from a well-formed jar, `getCookie` returns exactly the jar's value for the name |
| Cookies.SetThenRead | src/utils/tokenUtils.ts:8-18 | After `setCookie`, `getCookie` returns the value written, and other names read as before |
| Cookies.RemoveParsesName | src/utils/tokenUtils.ts:21-23 | The removal string names the cookie it removes |
| Cookies.Serialize | src/utils/tokenUtils.ts:16 | `document.cookie` is empty exactly when the jar is, and otherwise starts with the first cookie's `name=value` |
| Cookies.ClearTokens | src/utils/tokenUtils.ts:46-50 | After `clearTokens` neither token name is in the jar, and every other name reads as before |
| Cookies.ClearTokensClears | src/utils/tokenUtils.ts:46-50 | After `clearTokens` both token getters return null and every other cookie reads as before |
| Cookies.TokenNamesPlain | src/utils/tokenUtils.ts:4-5 | The two token names are distinct and free of space, `;` and `=` |
| Cookies.TokenRoundTrips | src/utils/tokenUtils.ts:26-43 | Each token getter reads the token its setter wrote, and setting one token leaves the other unchanged |
| Cookies.LongerNameNotMatched | src/utils/tokenUtils.ts:16 | A cookie whose name merely ends with the requested name is not matched |
| Cookies.EmptyValueReadsNull | src/utils/tokenUtils.ts:16-22 | A cookie written as `name=;`, as `removeCookie` writes it, reads as null |

## Left out

- Network calls, thunks and navigation: each handler takes the server's answer, or its failure, as a parameter. The async thunks' `rejectWithValue` messages and the axios interceptor are not modelled.
- Dates and clocks: the admin page's initial range (seven days back to thirty days ahead of today) needs the clock; the range request takes the two picker dates as parameters. The `expires` date is an opaque string, and a cookie jar holds only live cookies. The token lifetimes (0.01 days for the access token, which the code's comment calls 15 minutes though it is 14.4; 30 days for the refresh token) are therefore not modelled, nor is cookie expiry by time.
- `refreshAccessToken` and the rest of the token-refresh flow: they are HTTP calls.
- The cookie writes of the auth slice: the `setAccessToken`/`setRefreshToken` calls in the `login.fulfilled` case (`authSlice.ts` lines 108-109), the `clearTokens` call in the `getCurrentUser.rejected` case (line 148) and those of the logout thunk. The reducer is modelled on the state alone; the cookie functions themselves are modelled in `Cookies`.
- The edit page's refetch of slots when the date changes (`EditAppointmentPage.tsx` lines 109-131) and every other fetch-on-mount effect: these are network calls.
- `handleToggleActive` on the service page: it only calls the API and refreshes the list.
- Profile image upload and removal: file I/O and network.
- Snackbars, dialogs' visual state and the other rendering details.
- Cookies.GetCookie: the cookie name is matched literally. Names containing regular-expression metacharacters are not modelled; the two token names contain none.
- Cookies.Store: host-only cookies with the path `/` only. Domain and path matching, and the ordering by path length in section 5.4 of RFC 6265, are not modelled.
- JsNumbers.ParseInt: its own contract states only that blank text is NaN; what it reads from digits is stated by `ParseOfSignedDigits` and `ParseOfNonNumeric`, and a digit prefix followed by other text is not stated as a lemma.
- JsNumbers.ParseFloat: likewise, its own contract states only the blank case; the fraction part `.ddd` and `Infinity` are in the function but in no lemma. The exponent part and binary rounding are not modelled: `1e5` reads as 1, and a value below the smallest double keeps its exact sign and magnitude where JavaScript rounds it to ±0. A number is kept as sign, digits and decimal scale, so NaN, sign and zero are decided exactly only for text without an exponent and without underflow.
- JsNumbers.ParseIntToString: holds in JavaScript only for |n| < 10^21. From 10^21 on `toString` prints an exponent (`1e+21`), which `parseInt` reads back as 1, and above 2^53 an integer is not even exact in a double; the model's integers are unbounded. Hexadecimal is read only by `parseInt`.
- JsNumbers.IntToString: prints plain digits for every integer, which is JavaScript's form only below 10^21 in magnitude; the exponent form is not modelled.
- ServiceManagement.EditService: the price and duration texts read back by `parseInt` as the service's values only below 10^21, for the reason given under `JsNumbers.ParseIntToString`.
- ServiceManagement.UnchangedEditRoundTrip: likewise holds in JavaScript only for a price and duration below 10^21.
- ServiceManagement.PriceError: a price whose value underflows a double is judged on its exact value, so `-1e-400` is reported invalid while the page reads it as -0 and accepts it; the exponent part is not read at all (see `JsNumbers.ParseFloat`).
- ServiceManagement.HandleSave: a price written with an exponent is sent as its mantissa (`1e5` as 1), since `JsNumbers.ParseFloat` does not read exponents.
- ServiceSelection.TotalsConcat: service prices are integers. A JavaScript number with a fractional price is not modelled.
- Text.LowerChar: capitals outside Basic Latin, Latin-1, Latin Extended-A, U+0200 to U+0233 and basic Cyrillic (Greek with its final sigma, Armenian, Georgian and the rest) are kept as they are, and U+0130, whose lowercase is two code units, is kept too; `toLowerCase` lowers all of them.
- AdminAppointments.MatchesSearch: case-insensitive only up to the mapping of `Text.LowerChar`; a query differing from a name only in a letter that mapping leaves out is not found, while the page finds it.
- AdminAppointments.Filtered: its search filter holds only up to the mapping of `Text.LowerChar`, as for `MatchesSearch`.
- AdminAppointments.SearchIgnoresQueryCase: proved for the letters `Text.LowerChar` maps, not for the whole of Unicode.
- DateFormat.ParseDateTime: years are non-negative and read back from four or more digits; date-fns's handling of years before 1 and the calendar check of day against month are not modelled.
- The `disabled={isLoading}` state of the refresh and apply buttons: rendering.
- Text lengths count characters, while JavaScript counts UTF-16 code units. The 8-character password rule agrees with the code only on text without astral characters.
- WorkScheduleManagement.DayName: a day equal to an inherited object key such as `constructor` would yield that key's value in JavaScript. The model returns the day unchanged.
- The register request sends `phoneNumber` although the `RegisterRequest` type in `types/index.ts` has no such field. The model follows the form's code.

=== FILE: admin_appointments.dfy ===
/** The administration page of `pages/AdminAppointmentsPage.tsx`: the
    status and text filters, the upcoming/past tabs, the local list update
    after a status change or cancellation, and the actions the detail
    dialog offers. */
module AdminAppointments {
  import opened Base
  import opened Text
  import opened Domain
  import opened DateFormat
  import AppointmentSlice

  /** `user?.roles?.includes('ROLE_ADMIN')`. */
  predicate IsAdmin(user: Option<User>)
  {
    user.Some? && "ROLE_ADMIN" in user.value.roles
  }

  datatype StatusFilter = AllStatuses | Only(status: Status)

  /** The texts the search looks in: the client's name and email, then
      the name of every booked service. */
  function SearchFields(a: Appointment): (r: seq<string>)
    ensures |r| == 2 + |a.services|
    ensures r[0] == a.clientName && r[1] == a.clientEmail
    ensures forall k :: 0 <= k < |a.services| ==> r[k + 2] == a.services[k].name
  {
    [a.clientName, a.clientEmail] + seq(|a.services|, k requires 0 <= k < |a.services| => a.services[k].name)
  }

  /** The free-text search: an empty query matches everything; otherwise
      the lower-cased query must occur in the lower-cased client name,
      client email or the name of one of the booked services. */
  function MatchesSearch(a: Appointment, query: string): (r: bool)
    ensures query == [] ==> r
    ensures r <==>
      || query == []
      || exists k :: 0 <= k < |SearchFields(a)| && Includes(Lower(SearchFields(a)[k]), Lower(query))
  {
    var q := Lower(query);
    var fields := SearchFields(a);
    assert (exists k :: 0 <= k < |a.services| && Includes(Lower(a.services[k].name), q)) <==>
           (exists k :: 2 <= k < |fields| && Includes(Lower(fields[k]), q)) by {
      if exists k :: 2 <= k < |fields| && Includes(Lower(fields[k]), q) {
        var k :| 2 <= k < |fields| && Includes(Lower(fields[k]), q);
        assert fields[(k - 2) + 2] == a.services[k - 2].name;
      }
    }
    || query == []
    || Includes(Lower(a.clientName), q)
    || Includes(Lower(a.clientEmail), q)
    || exists k :: 0 <= k < |a.services| && Includes(Lower(a.services[k].name), q)
  }

  /** Both filters of the list: the status filter (`'ALL'` lets every
      status through) and the search. */
  function Matches(a: Appointment, filter: StatusFilter, query: string): (r: bool)
    ensures filter.AllStatuses? ==> (r <==> MatchesSearch(a, query))
    ensures query == [] ==> (r <==> filter.AllStatuses? || a.status == filter.status)
    ensures r && filter.Only? ==> a.status == filter.status
  {
    (filter.AllStatuses? || a.status == filter.status) && MatchesSearch(a, query)
  }

  /** The two ends of the date-range request. */
  datatype RangeRequest = RangeRequest(start: string, end: string)

  /** `fetchAppointments`: nothing is requested unless both dates are set;
      the start is sent with its time of day and the end as the last
      second of its day, both in a form that reads back as those dates. */
  function FetchAppointments(start: Option<DateTime>, end: Option<DateTime>): (r: Option<RangeRequest>)
    ensures r.Some? <==> start.Some? && end.Some?
    ensures r.Some? && ValidDateTime(start.value) ==> ParseDateTime(r.value.start) == Some(start.value)
    ensures r.Some? && ValidDateTime(end.value) ==>
      ParseDateTime(r.value.end) == Some(end.value.(hour := 23, minute := 59, second := 59))
  {
    if start.None? || end.None? then None
    else
      RangeRoundTrips(start.value, end.value);
      Some(RangeRequest(FormatStart(start.value), FormatEnd(end.value)))
  }

  lemma RangeRoundTrips(start: DateTime, end: DateTime)
    ensures ValidDateTime(start) ==> ParseDateTime(FormatStart(start)) == Some(start)
    ensures ValidDateTime(end) ==> ParseDateTime(FormatEnd(end)) == Some(end.(hour := 23, minute := 59, second := 59))
  {
    if ValidDateTime(start) {
      StartRoundTrip(start);
    }
    if ValidDateTime(end) {
      EndRoundTrip(end);
    }
  }

  /** The effect run when the page mounts or the user changes: it fetches
      only once the user has a non-zero id. */
  function MountFetch(userId: Option<int>, start: Option<DateTime>, end: Option<DateTime>): (r: Option<RangeRequest>)
    ensures r.Some? ==> IsSetId(userId) && start.Some? && end.Some?
  {
    if IsSetId(userId) then FetchAppointments(start, end) else None
  }

  /** The refresh and apply buttons call `fetchAppointments` directly: for
      the same dates they send the request the mount effect sent, and
      they send it even when no user id is known. */
  lemma ButtonsRepeatMountRequest(userId: Option<int>, start: Option<DateTime>, end: Option<DateTime>)
    ensures MountFetch(userId, start, end).Some? ==> FetchAppointments(start, end) == MountFetch(userId, start, end)
    ensures IsSetId(userId) ==> MountFetch(userId, start, end) == FetchAppointments(start, end)
    ensures !IsSetId(userId) ==>
      MountFetch(userId, start, end).None? && (FetchAppointments(start, end).Some? <==> start.Some? && end.Some?)
  {
  }

  /** `filteredAppointments`, in the order the list was loaded. */
  function Filtered(list: seq<Appointment>, filter: StatusFilter, query: string): (r: seq<Appointment>)
    ensures |r| <= |list|
    ensures forall k :: 0 <= k < |r| ==> Matches(r[k], filter, query)
  {
    Filter(list, (a: Appointment) => Matches(a, filter, query))
  }

  /** An appointment is shown, as often as it was loaded, exactly when it
      passes both filters. */
  lemma FilteredExact(list: seq<Appointment>, filter: StatusFilter, query: string, a: Appointment)
    ensures multiset(Filtered(list, filter, query))[a] ==
      if Matches(a, filter, query) then multiset(list)[a] else 0
  {
    FilterCount(list, (x: Appointment) => Matches(x, filter, query), a);
  }

  /** With no status filter and an empty query the whole list is shown. */
  lemma NoFilterShowsAll(list: seq<Appointment>)
    ensures Filtered(list, AllStatuses, []) == list
  {
    FilterKeepsAll(list, (x: Appointment) => Matches(x, AllStatuses, []));
  }

  /** Filtering keeps the loaded order: the filter of a list split in two
      is the filter of the first part followed by that of the second. */
  lemma FilteredKeepsOrder(a: seq<Appointment>, b: seq<Appointment>, filter: StatusFilter, query: string)
    ensures Filtered(a + b, filter, query) == Filtered(a, filter, query) + Filtered(b, filter, query)
  {
    FilterConcat(a, b, (x: Appointment) => Matches(x, filter, query));
  }

  /** Lowering a string commutes with taking a slice of it. */
  lemma LowerSlice(s: string, i: nat, j: nat)
    requires i <= j <= |s|
    ensures Lower(s)[i..j] == Lower(s[i..j])
  {
  }

  /** A query occurring verbatim in a string occurs in it after both are
      lower-cased. */
  lemma OccursLowered(s: string, q: string, i: nat)
    requires OccursAt(s, q, i)
    ensures Includes(Lower(s), Lower(q))
  {
    LowerSlice(s, i, i + |q|);
    assert OccursAt(Lower(s), Lower(q), i);
  }

  /** The search ignores the case of the query. */
  lemma SearchIgnoresQueryCase(a: Appointment, query: string)
    ensures MatchesSearch(a, query) == MatchesSearch(a, Lower(query))
  {
    LowerIdempotent(query);
  }

  /** A Romanian name is found whatever the case of its diacritics: the
      client `Ștefan Pop` is found by `ștefan` and by `ȘTEFAN`. */
  lemma RomanianNameFound(a: Appointment)
    requires a.clientName == "\U{0218}tefan Pop"
    ensures MatchesSearch(a, "\U{0219}tefan") && MatchesSearch(a, "\U{0218}TEFAN")
  {
    var small := "\U{0219}tefan";
    RomanianLettersLower();
    assert Lower(small) == small;
    assert Lower("\U{0218}TEFAN") == small;
    assert Lower(a.clientName)[0..6] == small;
    assert OccursAt(Lower(a.clientName), small, 0);
  }

  /** A query typed exactly as it appears in the client's name or email or
      in a booked service's name finds the appointment. */
  lemma VerbatimQueryMatches(a: Appointment, query: string)
    requires || (exists i: nat :: OccursAt(a.clientName, query, i))
             || (exists i: nat :: OccursAt(a.clientEmail, query, i))
             || (exists k: nat, i: nat :: k < |a.services| && OccursAt(a.services[k].name, query, i))
    ensures MatchesSearch(a, query)
  {
    if exists i: nat :: OccursAt(a.clientName, query, i) {
      var i: nat :| OccursAt(a.clientName, query, i);
      OccursLowered(a.clientName, query, i);
    } else if exists i: nat :: OccursAt(a.clientEmail, query, i) {
      var i: nat :| OccursAt(a.clientEmail, query, i);
      OccursLowered(a.clientEmail, query, i);
    } else {
      var k: nat, i: nat :| k < |a.services| && OccursAt(a.services[k].name, query, i);
      OccursLowered(a.services[k].name, query, i);
    }
  }

  /** Filtering on an upcoming status leaves the past tab empty, and on a
      past status the upcoming tab. */
  lemma StatusFilterEmptiesOtherTab(list: seq<Appointment>, s: Status, query: string)
    ensures IsUpcoming(s) ==> PastTab(Filtered(list, Only(s), query)) == []
    ensures IsPast(s) ==> UpcomingTab(Filtered(list, Only(s), query)) == []
  {
    var shown := Filtered(list, Only(s), query);
    UpcomingPastPartition(s);
    if IsUpcoming(s) {
      if PastTab(shown) != [] {
        FilterMembership(shown, (a: Appointment) => IsPast(a.status), PastTab(shown)[0]);
      }
    } else {
      if UpcomingTab(shown) != [] {
        FilterMembership(shown, (a: Appointment) => IsUpcoming(a.status), UpcomingTab(shown)[0]);
      }
    }
  }

  /** `prev.map(apt => apt.id === id ? result : apt)`: every entry with the
      id is replaced by the server's answer. */
  function ReplaceAllById(list: seq<Appointment>, id: int, result: Appointment): (r: seq<Appointment>)
    ensures |r| == |list|
    ensures forall k :: 0 <= k < |list| ==> r[k] == (if list[k].id == id then result else list[k])
  {
    seq(|list|, k requires 0 <= k < |list| => if list[k].id == id then result else list[k])
  }

  predicate UniqueAppointmentIds(list: seq<Appointment>)
  {
    forall j, k :: 0 <= j < k < |list| ==> list[j].id != list[k].id
  }

  /** On a list without repeated ids the page's replace-every-match agrees
      with the store's replace-the-first-match. */
  lemma ReplaceAllAgreesWithStore(list: seq<Appointment>, result: Appointment)
    requires UniqueAppointmentIds(list)
    ensures ReplaceAllById(list, result.id, result) == AppointmentSlice.ReplaceFirstById(list, result)
  {
    var r := ReplaceAllById(list, result.id, result);
    var s := AppointmentSlice.ReplaceFirstById(list, result);
    forall k | 0 <= k < |list| ensures r[k] == s[k] {
      if list[k].id == result.id {
        assert AppointmentSlice.IsFirstWithId(list, result.id, k);
      }
    }
  }

  /** Replacing with the server's answer twice changes nothing the second
      time, provided the answer keeps the id. */
  lemma ReplaceAllIdempotent(list: seq<Appointment>, result: Appointment)
    ensures ReplaceAllById(ReplaceAllById(list, result.id, result), result.id, result) ==
            ReplaceAllById(list, result.id, result)
  {
  }

  /** The page's own state: the loaded list, the appointment open in the
      detail dialog, the error banner and the two busy flags. */
  datatype Page = Page(appointments: seq<Appointment>, selected: Option<Appointment>,
                       error: Option<string>, isLoading: bool, statusUpdateLoading: bool)

  const LoadFailed := "Nu s-au putut încărca programările. Încercați din nou."
  const StatusUpdateFailed := "Eroare la actualizarea statusului."
  const CancelFailed := "Eroare la anularea programării."

  /** The page once the range request answered (`None` for a failure):
      the list becomes the answer and the error is cleared, or the list is
      kept and the error set; loading stops either way and the dialog is
      not touched. */
  function LoadAnswer(page: Page, answer: Option<seq<Appointment>>): (r: Page)
    ensures !r.isLoading && r.selected == page.selected && r.statusUpdateLoading == page.statusUpdateLoading
    ensures answer.Some? ==> r.appointments == answer.value && r.error.None?
    ensures answer.None? ==> r.appointments == page.appointments && r.error == Some(LoadFailed)
  {
    match answer
    case Some(data) => page.(appointments := data, error := None, isLoading := false)
    case None => page.(error := Some(LoadFailed), isLoading := false)
  }

  /** After a successful load, with no status filter and no query, the
      page lists exactly what the server sent, in its order. */
  lemma LoadedListShown(page: Page, data: seq<Appointment>)
    ensures Filtered(LoadAnswer(page, Some(data)).appointments, AllStatuses, []) == data
  {
    NoFilterShowsAll(data);
  }

  /** The request `handleUpdateStatus` sends: only the id and the new
      status; nothing is sent when no appointment is selected. */
  function StatusUpdateRequest(page: Page, id: int, status: Status): (r: Option<UpdateAppointmentRequest>)
    ensures r.None? <==> page.selected.None?
    ensures r.Some? ==> r.value == UpdateAppointmentRequest(id, None, None, None, Some(status))
  {
    if page.selected.None? then None
    else Some(UpdateAppointmentRequest(id, None, None, None, Some(status)))
  }

  /** The page after the server answered a status change or cancellation
      (`None` for a failed request): on success every entry with the id and
      the selected appointment become the answer; on failure only the error
      is set. Either way the busy flag is cleared. */
  function ApplyAnswer(page: Page, id: int, answer: Option<Appointment>, failure: string): (r: Page)
    ensures !r.statusUpdateLoading
    ensures answer.Some? ==>
      && r.appointments == ReplaceAllById(page.appointments, id, answer.value)
      && r.selected == answer
      && r.error == page.error
    ensures answer.None? ==>
      r == page.(error := Some(failure), statusUpdateLoading := false)
  {
    match answer
    case Some(a) =>
      page.(appointments := ReplaceAllById(page.appointments, id, a), selected := Some(a), statusUpdateLoading := false)
    case None => page.(error := Some(failure), statusUpdateLoading := false)
  }

  /** `handleUpdateStatus`: ignored without a selected appointment;
      otherwise, on success every entry with the id and the dialog show
      the answer and the rest of the list stays, and on failure only the
      error banner changes. The busy flag is off afterwards. */
  function HandleUpdateStatus(page: Page, id: int, answer: Option<Appointment>): (r: Page)
    ensures page.selected.None? ==> r == page
    ensures page.selected.Some? ==> !r.statusUpdateLoading && r.isLoading == page.isLoading
    ensures page.selected.Some? && answer.Some? ==>
      && |r.appointments| == |page.appointments|
      && (forall k :: 0 <= k < |page.appointments| ==>
            r.appointments[k] == if page.appointments[k].id == id then answer.value else page.appointments[k])
      && r.selected == answer && r.error == page.error
    ensures page.selected.Some? && answer.None? ==>
      r.appointments == page.appointments && r.selected == page.selected && r.error == Some(StatusUpdateFailed)
  {
    if page.selected.None? then page else ApplyAnswer(page, id, answer, StatusUpdateFailed)
  }

  /** `handleCancelAppointment`: the same update as a status change, but
      with no guard on the selection and its own error message. */
  function HandleCancel(page: Page, id: int, answer: Option<Appointment>): (r: Page)
    ensures !r.statusUpdateLoading && r.isLoading == page.isLoading
    ensures answer.Some? ==>
      && |r.appointments| == |page.appointments|
      && (forall k :: 0 <= k < |page.appointments| ==>
            r.appointments[k] == if page.appointments[k].id == id then answer.value else page.appointments[k])
      && r.selected == answer && r.error == page.error
    ensures answer.None? ==>
      r.appointments == page.appointments && r.selected == page.selected && r.error == Some(CancelFailed)
  {
    ApplyAnswer(page, id, answer, CancelFailed)
  }

  /** Once the server confirms a cancellation, the upcoming tab holds no
      appointment with that id any more. */
  lemma CancelledLeavesUpcomingTab(page: Page, id: int, answer: Appointment)
    requires answer.status == Cancelled
    ensures var shown := UpcomingTab(HandleCancel(page, id, Some(answer)).appointments);
      forall k :: 0 <= k < |shown| ==> shown[k].id != id
  {
    var list := HandleCancel(page, id, Some(answer)).appointments;
    var shown := UpcomingTab(list);
    forall k | 0 <= k < |shown| ensures shown[k].id != id {
      FilterMembership(list, (a: Appointment) => IsUpcoming(a.status), shown[k]);
      var j :| 0 <= j < |list| && list[j] == shown[k];
    }
  }

  /** A status change the server refuses leaves the list and the dialog
      as they were, with only the error banner set; a refused
      cancellation likewise. */
  lemma FailuresKeepList(page: Page, id: int)
    requires page.selected.Some?
    ensures HandleUpdateStatus(page, id, None) == page.(error := Some(StatusUpdateFailed), statusUpdateLoading := false)
    ensures HandleCancel(page, id, None) == page.(error := Some(CancelFailed), statusUpdateLoading := false)
  {
  }

  /** A successful answer leaves no entry with the id other than the
      answer, and every other entry where it was. */
  lemma AnswerReplacesEveryCopy(page: Page, id: int, answer: Appointment, k: nat)
    requires k < |page.appointments|
    ensures var r := ApplyAnswer(page, id, Some(answer), StatusUpdateFailed).appointments;
      (page.appointments[k].id == id ==> r[k] == answer) &&
      (page.appointments[k].id != id ==> r[k] == page.appointments[k])
  {
  }

  datatype AdminAction = Confirm | Complete | Cancel | MarkNoShow | Edit

  /** The new status each action asks for; editing has none. */
  function ActionTarget(action: AdminAction): (r: Option<Status>)
    ensures r.None? <==> action == Edit
  {
    match action
    case Confirm => Some(Confirmed)
    case Complete => Some(Completed)
    case Cancel => Some(Cancelled)
    case MarkNoShow => Some(NoShow)
    case Edit => None
  }

  /** The buttons of the detail dialog: none for a non-administrator; for
      an administrator, Confirm on a pending appointment, Complete, Cancel
      and No-show on an upcoming one, and Edit always. */
  function OfferedActions(isAdmin: bool, status: Status): (r: set<AdminAction>)
    ensures !isAdmin ==> r == {}
    ensures isAdmin ==>
      && Edit in r
      && (Confirm in r <==> status == Pending)
      && (Complete in r <==> IsUpcoming(status))
      && (Cancel in r <==> IsUpcoming(status))
      && (MarkNoShow in r <==> IsUpcoming(status))
  {
    if !isAdmin then {}
    else
      (if status == Pending then {Confirm} else {})
      + (if IsUpcoming(status) then {Complete, Cancel, MarkNoShow} else {})
      + {Edit}
  }

  /** Every offered status change starts from an upcoming appointment and
      leads to a different status; a finished appointment only offers
      editing. */
  lemma OfferedChangesMoveForward(isAdmin: bool, status: Status, action: AdminAction)
    requires action in OfferedActions(isAdmin, status)
    ensures ActionTarget(action).Some? ==>
      IsUpcoming(status) && ActionTarget(action).value != status
    ensures IsPast(status) ==> action == Edit
  {
    UpcomingPastPartition(status);
  }
}

=== FILE: appointment_details.dfy ===
/** The detail page of one appointment, `pages/AppointmentDetailsPage.tsx`:
    when it offers editing and cancelling, and what a cancellation asks of
    the store. */
module AppointmentDetails {
  import opened Base
  import opened Domain
  import AdminAppointments

  /** `canModify`: an appointment is loaded and it is pending or
      confirmed. */
  function CanModify(current: Option<Appointment>): (r: bool)
    ensures r <==> current.Some? && (current.value.status == Pending || current.value.status == Confirmed)
    ensures r ==> !IsPast(current.value.status)
  {
    current.Some? && IsUpcoming(current.value.status)
  }

  /** The client may modify exactly the appointments on which an
      administrator is offered a cancellation. */
  lemma CanModifyMatchesAdminCancel(a: Appointment)
    ensures CanModify(Some(a)) <==> AdminAppointments.Cancel in AdminAppointments.OfferedActions(true, a.status)
  {
  }

  /** The store calls `handleCancelAppointment` makes: the cancellation of
      the loaded appointment once the user confirms, and a reload of it
      once the cancellation succeeded. */
  datatype CancelEffects = CancelEffects(cancel: Option<int>, reload: Option<int>)

  function HandleCancel(current: Option<Appointment>, confirmed: bool, succeeded: bool): (r: CancelEffects)
    ensures r.cancel.Some? <==> current.Some? && confirmed
    ensures r.cancel.Some? ==> r.cancel.value == current.value.id
    ensures r.reload.Some? <==> r.cancel.Some? && succeeded
    ensures r.reload.Some? ==> r.reload == r.cancel
  {
    if current.None? || !confirmed then CancelEffects(None, None)
    else CancelEffects(Some(current.value.id), if succeeded then Some(current.value.id) else None)
  }

  /** The cancel button is rendered only when `canModify` holds: a
      confirmed click cancels that appointment, which the administration
      page would also offer to cancel, and a declined one sends nothing. */
  lemma ButtonCancelsModifiable(current: Option<Appointment>, succeeded: bool)
    requires CanModify(current)
    ensures HandleCancel(current, true, succeeded).cancel == Some(current.value.id)
    ensures AdminAppointments.Cancel in AdminAppointments.OfferedActions(true, current.value.status)
    ensures HandleCancel(current, false, succeeded) == CancelEffects(None, None)
  {
    CanModifyMatchesAdminCancel(current.value);
  }
}

=== FILE: appointment_slice.dfy ===
/** The `appointments` Redux slice (`store/appointmentSlice.ts`) as a pure
    reducer. Each async thunk contributes a pending, a fulfilled and a
    rejected action; the thunk bodies themselves (HTTP calls) are not
    modelled, only the actions they dispatch. */
module AppointmentSlice {
  import opened Base
  import opened Domain

  datatype State = State(
    appointments: seq<Appointment>,
    currentAppointment: Option<Appointment>,
    services: seq<Service>,
    availableTimeSlots: seq<TimeSlot>,
    isLoading: bool,
    error: Option<string>)

  const Initial := State([], None, [], [], false, None)

  /** The async thunks of the slice. */
  datatype Thunk =
    | FetchClientAppointments
    | FetchProviderAppointments
    | FetchAppointmentById
    | CreateAppointment
    | UpdateAppointment
    | CancelAppointment
    | FetchAvailableTimeSlots
    | FetchServices

  datatype Action =
    // the three synchronous reducers
    | ResetAppointmentError
    | ResetCurrentAppointment
    | ClearAvailableTimeSlots
    // `<thunk>.pending`
    | Started(thunk: Thunk)
    // `<thunk>.rejected`, carrying the `rejectWithValue` message
    | Failed(thunk: Thunk, message: string)
    // `<thunk>.fulfilled`, one per thunk with its payload
    | ClientAppointmentsLoaded(list: seq<Appointment>)
    | ProviderAppointmentsLoaded(list: seq<Appointment>)
    | AppointmentLoaded(appointment: Appointment)
    | AppointmentCreated(appointment: Appointment)
    | AppointmentUpdated(appointment: Appointment)
    | AppointmentCancelled(appointment: Appointment)
    | TimeSlotsLoaded(response: AvailableTimeSlotsResponse)
    | ServicesLoaded(services: seq<Service>)

  /** A fulfilled action: the only kind that writes data fields. */
  predicate IsFulfilled(a: Action)
  {
    || a.ClientAppointmentsLoaded? || a.ProviderAppointmentsLoaded? || a.AppointmentLoaded?
    || a.AppointmentCreated? || a.AppointmentUpdated? || a.AppointmentCancelled?
    || a.TimeSlotsLoaded? || a.ServicesLoaded?
  }

  /** The four data fields agree. */
  predicate SameData(s: State, t: State)
  {
    && s.appointments == t.appointments
    && s.currentAppointment == t.currentAppointment
    && s.services == t.services
    && s.availableTimeSlots == t.availableTimeSlots
  }

  /** Index `k` holds the first appointment of the list with this id. */
  predicate IsFirstWithId(list: seq<Appointment>, id: int, k: int)
  {
    0 <= k < |list| && list[k].id == id && forall j :: 0 <= j < k ==> list[j].id != id
  }

  /** `findIndex(apt => apt.id === id)`, with `None` for -1. */
  function FindIndexById(list: seq<Appointment>, id: int): (r: Option<nat>)
    ensures r.Some? ==> IsFirstWithId(list, id, r.value)
    ensures r.None? ==> forall k :: 0 <= k < |list| ==> list[k].id != id
  {
    if |list| == 0 then None
    else if list[0].id == id then Some(0)
    else
      match FindIndexById(list[1..], id)
      case None => None
      case Some(i) => Some(i + 1)
  }

  /** The `findIndex` / `state.appointments[index] = payload` pair: the first
      appointment with the payload's id is replaced, every other position
      keeps its appointment, and without a match the list is unchanged. */
  function ReplaceFirstById(list: seq<Appointment>, a: Appointment): (r: seq<Appointment>)
    ensures |r| == |list|
    ensures forall k :: 0 <= k < |list| ==> r[k] == (if IsFirstWithId(list, a.id, k) then a else list[k])
  {
    match FindIndexById(list, a.id)
    case None => list
    case Some(i) =>
      assert forall k :: 0 <= k < |list| && k != i ==> !IsFirstWithId(list, a.id, k);
      list[i := a]
  }

  /** The slice reducer. */
  function Reduce(s: State, act: Action): (r: State)
    // synchronous reducers: exactly one field is reset
    ensures act.ResetAppointmentError? ==> r == s.(error := None)
    ensures act.ResetCurrentAppointment? ==> r == s.(currentAppointment := None)
    ensures act.ClearAvailableTimeSlots? ==> r == s.(availableTimeSlots := [])
    // every pending case: loading, error cleared, data untouched
    ensures act.Started? ==> r.isLoading && r.error == None && SameData(r, s)
    // every rejected case: not loading, error is the payload, data untouched
    ensures act.Failed? ==> !r.isLoading && r.error == Some(act.message) && SameData(r, s)
    // every fulfilled case stops loading and leaves the error alone
    ensures IsFulfilled(act) ==> !r.isLoading && r.error == s.error
    // fetching a list replaces the whole list and nothing else
    ensures act.ClientAppointmentsLoaded? || act.ProviderAppointmentsLoaded? ==>
      r == s.(isLoading := false, appointments := act.list)
    ensures act.AppointmentLoaded? ==>
      r == s.(isLoading := false, currentAppointment := Some(act.appointment))
    // create appends at the end and makes the payload current
    ensures act.AppointmentCreated? ==>
      && |r.appointments| == |s.appointments| + 1
      && r.appointments[..|s.appointments|] == s.appointments
      && r.appointments[|s.appointments|] == act.appointment
      && r.currentAppointment == Some(act.appointment)
      && r.services == s.services && r.availableTimeSlots == s.availableTimeSlots
    // update replaces the first appointment with the payload's id and always sets the current one
    ensures act.AppointmentUpdated? ==>
      && r.appointments == ReplaceFirstById(s.appointments, act.appointment)
      && r.currentAppointment == Some(act.appointment)
      && r.services == s.services && r.availableTimeSlots == s.availableTimeSlots
    // cancel replaces likewise but sets the current one only when the ids agree
    ensures act.AppointmentCancelled? ==>
      && r.appointments == ReplaceFirstById(s.appointments, act.appointment)
      && r.currentAppointment ==
           (if s.currentAppointment.Some? && s.currentAppointment.value.id == act.appointment.id
            then Some(act.appointment) else s.currentAppointment)
      && r.services == s.services && r.availableTimeSlots == s.availableTimeSlots
    ensures act.TimeSlotsLoaded? ==>
      r == s.(isLoading := false, availableTimeSlots := act.response.availableSlots)
    ensures act.ServicesLoaded? ==> r == s.(isLoading := false, services := act.services)
  {
    match act
    case ResetAppointmentError => s.(error := None)
    case ResetCurrentAppointment => s.(currentAppointment := None)
    case ClearAvailableTimeSlots => s.(availableTimeSlots := [])
    case Started(_) => s.(isLoading := true, error := None)
    case Failed(_, message) => s.(isLoading := false, error := Some(message))
    case ClientAppointmentsLoaded(list) => s.(isLoading := false, appointments := list)
    case ProviderAppointmentsLoaded(list) => s.(isLoading := false, appointments := list)
    case AppointmentLoaded(a) => s.(isLoading := false, currentAppointment := Some(a))
    case AppointmentCreated(a) =>
      s.(isLoading := false, appointments := s.appointments + [a], currentAppointment := Some(a))
    case AppointmentUpdated(a) =>
      s.(isLoading := false, appointments := ReplaceFirstById(s.appointments, a), currentAppointment := Some(a))
    case AppointmentCancelled(a) =>
      var current :=
        if s.currentAppointment.Some? && s.currentAppointment.value.id == a.id then Some(a)
        else s.currentAppointment;
      s.(isLoading := false, appointments := ReplaceFirstById(s.appointments, a), currentAppointment := current)
    case TimeSlotsLoaded(response) => s.(isLoading := false, availableTimeSlots := response.availableSlots)
    case ServicesLoaded(list) => s.(isLoading := false, services := list)
  }

  /** The state after dispatching a sequence of actions in order. */
  function ReduceAll(s: State, acts: seq<Action>): State
    decreases |acts|
  {
    if |acts| == 0 then s else ReduceAll(Reduce(s, acts[0]), acts[1..])
  }

  /** Pending, rejected and error-reset actions never touch the data: a run
      of requests that all fail leaves the appointments, the current
      appointment, the services and the slots as they were. */
  lemma {:induction false} FailedRequestsKeepData(s: State, acts: seq<Action>)
    requires forall k :: 0 <= k < |acts| ==> acts[k].Started? || acts[k].Failed? || acts[k].ResetAppointmentError?
    ensures SameData(ReduceAll(s, acts), s)
    decreases |acts|
  {
    if |acts| > 0 {
      FailedRequestsKeepData(Reduce(s, acts[0]), acts[1..]);
    }
  }

  /** A request that starts and then fails ends not loading, with the failure
      message as the error and the data untouched. */
  lemma StartThenFail(s: State, t: Thunk, message: string)
    ensures var r := Reduce(Reduce(s, Started(t)), Failed(t, message));
      !r.isLoading && r.error == Some(message) && SameData(r, s)
  {
  }

  /** After the replacement, the first appointment with that id sits where the
      replaced one was. */
  lemma {:induction false} ReplacedStaysFirst(list: seq<Appointment>, a: Appointment, i: nat)
    requires IsFirstWithId(list, a.id, i)
    ensures IsFirstWithId(ReplaceFirstById(list, a), a.id, i)
    ensures ReplaceFirstById(list, a) == list[i := a]
  {
    var r := ReplaceFirstById(list, a);
    assert forall k :: 0 <= k < |list| && k != i ==> !IsFirstWithId(list, a.id, k);
    assert r[i] == a;
    assert forall j :: 0 <= j < i ==> r[j] == list[j];
  }

  /** Receiving the same fulfilled update twice has the effect of receiving
      it once. */
  lemma UpdateIdempotent(s: State, a: Appointment)
    ensures Reduce(Reduce(s, AppointmentUpdated(a)), AppointmentUpdated(a)) == Reduce(s, AppointmentUpdated(a))
  {
    var list := s.appointments;
    match FindIndexById(list, a.id)
    case None =>
      assert ReplaceFirstById(list, a) == list;
    case Some(i) =>
      ReplacedStaysFirst(list, a, i);
      ReplacedStaysFirst(list[i := a], a, i);
  }

  /** An appointment created and then updated (with no earlier appointment
      sharing its id) ends as the last element of the list in its updated
      form, with every earlier element untouched. */
  lemma CreateThenUpdate(s: State, created: Appointment, updated: Appointment)
    requires updated.id == created.id
    requires forall k :: 0 <= k < |s.appointments| ==> s.appointments[k].id != created.id
    ensures var r := Reduce(Reduce(s, AppointmentCreated(created)), AppointmentUpdated(updated));
      && r.appointments == s.appointments + [updated]
      && r.currentAppointment == Some(updated)
  {
    var list := s.appointments + [created];
    assert IsFirstWithId(list, updated.id, |s.appointments|);
    ReplacedStaysFirst(list, updated, |s.appointments|);
    assert list[|s.appointments| := updated] == s.appointments + [updated];
  }
}

=== FILE: appointments_page.dfy ===
/** The client's list of appointments, `pages/AppointmentsPage.tsx`: the
    two tabs (`Domain.UpcomingTab`, `Domain.PastTab`) and the confirmation
    dialog guarding a cancellation. */
module AppointmentsPage {
  import opened Base
  import opened Domain

  /** The confirmation dialog: whether it is open and which appointment it
      is about. */
  datatype CancelDialog = CancelDialog(open: bool, selectedId: Option<int>)

  const Closed := CancelDialog(false, None)

  /** The ids carrying a cancel button: those of the upcoming tab. */
  function CancelButtons(appointments: seq<Appointment>): (r: seq<int>)
    ensures forall k :: 0 <= k < |r| ==>
      exists j :: 0 <= j < |appointments| && appointments[j].id == r[k] && IsUpcoming(appointments[j].status)
  {
    var up := UpcomingTab(appointments);
    assert forall k :: 0 <= k < |up| ==> up[k] in appointments by {
      forall k | 0 <= k < |up| ensures up[k] in appointments {
        FilterMembership(appointments, (a: Appointment) => IsUpcoming(a.status), up[k]);
      }
    }
    seq(|up|, k requires 0 <= k < |up| => up[k].id)
  }

  /** Conversely, every pending or confirmed appointment of the list has a
      cancel button; finished ones appear only on the past tab. */
  lemma EveryUpcomingCancellable(appointments: seq<Appointment>, a: Appointment)
    requires a in appointments
    ensures IsUpcoming(a.status) ==> a.id in CancelButtons(appointments)
    ensures IsPast(a.status) ==> a in PastTab(appointments) && a !in UpcomingTab(appointments)
  {
    var up := UpcomingTab(appointments);
    FilterMembership(appointments, (x: Appointment) => IsUpcoming(x.status), a);
    FilterMembership(appointments, (x: Appointment) => IsPast(x.status), a);
    if IsUpcoming(a.status) {
      var k :| 0 <= k < |up| && up[k] == a;
      assert CancelButtons(appointments)[k] == a.id;
    }
  }

  /** `handleCancelClick`: remember the appointment and open the dialog. */
  function CancelClick(d: CancelDialog, id: int): (r: CancelDialog)
    ensures r.open && r.selectedId == Some(id)
  {
    CancelDialog(true, Some(id))
  }

  /** `handleCancelDialogClose`: close and forget the appointment. */
  function CloseDialog(d: CancelDialog): (r: CancelDialog)
    ensures r == Closed
  {
    CancelDialog(false, None)
  }

  /** `handleCancelConfirm`: with a remembered non-zero id the cancellation
      of that id is requested and the dialog closes; otherwise nothing
      happens. The request's outcome does not affect the dialog. */
  function CancelConfirm(d: CancelDialog): (r: (Option<int>, CancelDialog))
    ensures r.0.Some? <==> IsSetId(d.selectedId)
    ensures r.0.Some? ==> r.0 == d.selectedId && r.1 == Closed
    ensures r.0.None? ==> r.1 == d
  {
    if IsSetId(d.selectedId) then (d.selectedId, CancelDialog(false, None)) else (None, d)
  }

  /** Clicking cancel and confirming requests the cancellation of exactly
      the clicked appointment and closes the dialog; an id of 0, which the
      page treats as missing, leaves the dialog open and requests nothing. */
  lemma ClickThenConfirm(d: CancelDialog, id: int)
    ensures id != 0 ==> CancelConfirm(CancelClick(d, id)) == (Some(id), Closed)
    ensures id == 0 ==> CancelConfirm(CancelClick(d, id)) == (None, CancelClick(d, id))
  {
  }

  /** Dismissing the dialog after a click requests nothing and a later
      confirmation has nothing to cancel. */
  lemma ClickThenDismiss(d: CancelDialog, id: int)
    ensures CancelConfirm(CloseDialog(CancelClick(d, id))).0 == None
  {
  }
}

=== FILE: auth_forms.dfy ===
/** The sign-in and registration forms of `components/auth/LoginForm.tsx`
    and `components/auth/RegisterForm.tsx`: their validation order and the
    request each sends. */
module AuthForms {
  import opened Text
  import opened Domain
  import Profile

  datatype LoginRequest = LoginRequest(email: string, password: string)

  datatype LoginOutcome = EmailRequired | PasswordRequired | SendLogin(request: LoginRequest)

  /** `LoginForm.handleSubmit`: a blank email is reported first, then an
      empty password (which is not trimmed); otherwise both are sent as
      typed. */
  function HandleLogin(email: string, password: string): (r: LoginOutcome)
    ensures r == EmailRequired <==> IsBlank(email)
    ensures r == PasswordRequired <==> !IsBlank(email) && password == []
    ensures r.SendLogin? ==> r.request == LoginRequest(email, password)
  {
    if Trim(email) == [] then EmailRequired
    else if password == [] then PasswordRequired
    else SendLogin(LoginRequest(email, password))
  }

  datatype RegisterFields = RegisterFields(email: string, password: string, confirmPassword: string,
                                           firstName: string, lastName: string, country: Country,
                                           phoneNumber: string)

  /** A fresh form: every text field empty, Romania selected. */
  const FreshRegister := RegisterFields([], [], [], [], [], RO, [])

  /** The body passed to `register`; the phone number travels with it. */
  datatype RegisterRequest = RegisterRequest(email: string, password: string, firstName: string,
                                             lastName: string, country: Country, phoneNumber: string)

  datatype RegisterOutcome = FieldsRequired | PasswordsDiffer | PasswordTooShort | SendRegister(request: RegisterRequest)

  /** The required check: email, first and last name not blank, password
      not empty. The phone number and the confirmation are not required. */
  predicate RequiredPresent(f: RegisterFields)
  {
    !IsBlank(f.email) && f.password != [] && !IsBlank(f.firstName) && !IsBlank(f.lastName)
  }

  /** `RegisterForm.handleSubmit`: missing fields first, then a differing
      confirmation, then a short password; otherwise the untrimmed fields
      are sent. */
  function HandleRegister(f: RegisterFields): (r: RegisterOutcome)
    ensures r == FieldsRequired <==> !RequiredPresent(f)
    ensures r == PasswordsDiffer <==> RequiredPresent(f) && f.password != f.confirmPassword
    ensures r == PasswordTooShort <==>
      RequiredPresent(f) && f.password == f.confirmPassword && |f.password| < MinPasswordLength
    ensures r.SendRegister? ==>
      r.request == RegisterRequest(f.email, f.password, f.firstName, f.lastName, f.country, f.phoneNumber)
  {
    if Trim(f.email) == [] || f.password == [] || Trim(f.firstName) == [] || Trim(f.lastName) == [] then
      FieldsRequired
    else if f.password != f.confirmPassword then PasswordsDiffer
    else if |f.password| < MinPasswordLength then PasswordTooShort
    else SendRegister(RegisterRequest(f.email, f.password, f.firstName, f.lastName, f.country, f.phoneNumber))
  }

  /** The form after `register` answered: on success every text field is
      emptied and the chosen country kept; on failure nothing changes. */
  function AfterRegister(f: RegisterFields, succeeded: bool): (r: RegisterFields)
    ensures succeeded ==> r == FreshRegister.(country := f.country)
    ensures !succeeded ==> r == f
  {
    if succeeded then RegisterFields([], [], [], [], [], f.country, []) else f
  }

  /** A registration that is sent carries credentials the sign-in form
      accepts unchanged. */
  lemma RegisteredCredentialsPassLogin(f: RegisterFields)
    requires HandleRegister(f).SendRegister?
    ensures HandleLogin(f.email, f.password) == SendLogin(LoginRequest(f.email, f.password))
  {
  }

  /** A form emptied after a successful registration is refused as
      incomplete, whatever country it keeps. */
  lemma ResetFormRefused(f: RegisterFields)
    ensures HandleRegister(AfterRegister(f, true)) == FieldsRequired
  {
    assert IsBlank(AfterRegister(f, true).email);
  }

  /** Once the required fields are present, registration applies the same
      password rule as the profile page's password change, in the same
      order. */
  lemma SamePasswordRuleAsProfile(f: RegisterFields, oldPassword: string)
    requires RequiredPresent(f)
    ensures var change := Profile.ChangePassword(Profile.PasswordForm(oldPassword, f.password, f.confirmPassword));
      && (HandleRegister(f) == PasswordsDiffer <==> change == Profile.Mismatch)
      && (HandleRegister(f) == PasswordTooShort <==> change == Profile.TooShort)
      && (HandleRegister(f).SendRegister? <==> change.SendChange?)
  {
  }
}

=== FILE: auth_slice.dfy ===
/** The `auth` Redux slice (`store/authSlice.ts`) as a pure reducer. The
    cookie writes the reducer performs on login and on a failed user fetch
    are side effects outside the state and are not part of it here. */
module AuthSlice {
  import opened Base
  import opened Domain

  datatype State = State(user: Option<User>, isAuthenticated: bool, isLoading: bool, error: Option<string>)

  const Initial := State(None, false, false, None)

  datatype Action =
    | ResetAuthError
    | LoginPending
    | LoginFulfilled(response: JwtResponse)
    | LoginRejected(message: string)
    | RegisterPending
    | RegisterFulfilled(registered: User)
    | RegisterRejected(message: string)
    | GetCurrentUserPending
    | GetCurrentUserFulfilled(user: User)
    | GetCurrentUserRejected(message: string)
    | LogoutPending
    | LogoutFulfilled
    | LogoutRejected(message: string)

  /** The provisional user built from a login response until the full
      profile is fetched. */
  function UserFromLogin(j: JwtResponse): (u: User)
    ensures u.id == j.id && u.email == j.email && u.username == j.username && u.roles == j.roles
    ensures u.firstName == [] && u.lastName == [] && u.country == RO && u.active
  {
    User(j.id, j.username, j.email, RO, [], [], true, j.roles)
  }

  function Reduce(s: State, act: Action): (r: State)
    ensures act.ResetAuthError? ==> r == s.(error := None)
    ensures act.LoginPending? || act.RegisterPending? ==> r == s.(isLoading := true, error := None)
    ensures act.LoginFulfilled? ==>
      && !r.isLoading && r.isAuthenticated && r.error == s.error
      && r.user == Some(UserFromLogin(act.response))
    ensures act.LoginRejected? || act.RegisterRejected? ==>
      r == s.(isLoading := false, error := Some(act.message))
    // registering never authenticates or stores a user
    ensures act.RegisterFulfilled? ==> r == s.(isLoading := false)
    // fetching the current user does not clear the error when it starts
    ensures act.GetCurrentUserPending? ==> r == s.(isLoading := true)
    ensures act.GetCurrentUserFulfilled? ==>
      r == s.(isLoading := false, isAuthenticated := true, user := Some(act.user))
    ensures act.GetCurrentUserRejected? ==>
      r == State(None, false, false, Some(act.message))
    ensures act.LogoutFulfilled? ==> r == s.(isAuthenticated := false, user := None)
    // no case handles the pending or rejected logout
    ensures act.LogoutPending? || act.LogoutRejected? ==> r == s
  {
    match act
    case ResetAuthError => s.(error := None)
    case LoginPending => s.(isLoading := true, error := None)
    case LoginFulfilled(j) => s.(isLoading := false, isAuthenticated := true, user := Some(UserFromLogin(j)))
    case LoginRejected(m) => s.(isLoading := false, error := Some(m))
    case RegisterPending => s.(isLoading := true, error := None)
    case RegisterFulfilled(_) => s.(isLoading := false)
    case RegisterRejected(m) => s.(isLoading := false, error := Some(m))
    case GetCurrentUserPending => s.(isLoading := true)
    case GetCurrentUserFulfilled(u) => s.(isLoading := false, isAuthenticated := true, user := Some(u))
    case GetCurrentUserRejected(m) => s.(isLoading := false, isAuthenticated := false, user := None, error := Some(m))
    case LogoutPending => s
    case LogoutFulfilled => s.(isAuthenticated := false, user := None)
    case LogoutRejected(_) => s
  }

  /** The slice's implicit invariant: authenticated exactly when a user is
      stored. */
  predicate Consistent(s: State)
  {
    s.isAuthenticated <==> s.user.Some?
  }

  function ReduceAll(s: State, acts: seq<Action>): State
    decreases |acts|
  {
    if |acts| == 0 then s else ReduceAll(Reduce(s, acts[0]), acts[1..])
  }

  /** Every action preserves the invariant, so every state reachable from the
      initial one satisfies it. */
  lemma {:induction false} ReachableConsistent(s: State, acts: seq<Action>)
    requires Consistent(s)
    ensures Consistent(ReduceAll(s, acts))
    decreases |acts|
  {
    if |acts| > 0 {
      ReduceConsistent(s, acts[0]);
      ReachableConsistent(Reduce(s, acts[0]), acts[1..]);
    }
  }

  lemma ReduceConsistent(s: State, act: Action)
    requires Consistent(s)
    ensures Consistent(Reduce(s, act))
  {
  }

  /** Once the user is authenticated, only a failed user fetch or a completed
      logout ends the session: a run of actions without those keeps it. */
  lemma {:induction false} SessionPersists(s: State, acts: seq<Action>)
    requires s.isAuthenticated
    requires forall k :: 0 <= k < |acts| ==> !acts[k].GetCurrentUserRejected? && !acts[k].LogoutFulfilled?
    ensures ReduceAll(s, acts).isAuthenticated
    decreases |acts|
  {
    if |acts| > 0 {
      SessionPersists(Reduce(s, acts[0]), acts[1..]);
    }
  }
}

=== FILE: base.dfy ===
/** Generic helpers shared by every module: an optional value (the
    TypeScript `T | null` / `T | undefined`) and the array operations the
    client code uses (`filter`, `some`, `findIndex`). */
module Base {

  /** `null` / `undefined` versus a present value. */
  datatype Option<T> = None | Some(value: T)

  /** `Array.prototype.filter`: keeps, in their original order, the elements
      that satisfy `p`. */
  function Filter<T>(s: seq<T>, p: T -> bool): (r: seq<T>)
    ensures |r| <= |s|
    ensures forall i :: 0 <= i < |r| ==> p(r[i])
  {
    if |s| == 0 then []
    else
      var rest := Filter(s[1..], p);
      assert s == [s[0]] + s[1..];
      if p(s[0]) then [s[0]] + rest else rest
  }

  /** An element satisfying `p` occurs in the filtered sequence exactly as
      often as in the input, and one failing `p` does not occur at all. */
  lemma {:induction false} FilterCount<T>(s: seq<T>, p: T -> bool, x: T)
    ensures multiset(Filter(s, p))[x] == if p(x) then multiset(s)[x] else 0
  {
    if |s| > 0 {
      FilterCount(s[1..], p, x);
      assert s == [s[0]] + s[1..];
    }
  }

  /** An element failing `p` makes the filtered sequence strictly shorter. */
  lemma {:induction false} FilterShorter<T>(s: seq<T>, p: T -> bool, i: nat)
    requires i < |s| && !p(s[i])
    ensures |Filter(s, p)| < |s|
  {
    if i > 0 {
      FilterShorter(s[1..], p, i - 1);
    }
  }

  /** Filtering distributes over concatenation: the relative order of the
      kept elements is the order they had in the input. */
  lemma {:induction false} FilterConcat<T>(a: seq<T>, b: seq<T>, p: T -> bool)
    ensures Filter(a + b, p) == Filter(a, p) + Filter(b, p)
  {
    if |a| == 0 {
      assert a + b == b;
    } else {
      assert (a + b)[0] == a[0];
      assert (a + b)[1..] == a[1..] + b;
      FilterConcat(a[1..], b, p);
    }
  }

  /** An element survives the filter exactly when it occurs in `s` and
      satisfies the predicate. */
  lemma FilterMembership<T>(s: seq<T>, p: T -> bool, x: T)
    ensures x in Filter(s, p) <==> x in s && p(x)
  {
    FilterCount(s, p, x);
    assert x in Filter(s, p) <==> x in multiset(Filter(s, p));
    assert x in s <==> x in multiset(s);
  }

  /** A filter whose predicate holds everywhere keeps the whole sequence. */
  lemma {:induction false} FilterKeepsAll<T>(s: seq<T>, p: T -> bool)
    requires forall i :: 0 <= i < |s| ==> p(s[i])
    ensures Filter(s, p) == s
  {
    if |s| > 0 {
      FilterKeepsAll(s[1..], p);
    }
  }

  /** A filter that rejects exactly one position removes that position. */
  lemma {:induction false} FilterRemovesAt<T>(s: seq<T>, p: T -> bool, k: nat)
    requires k < |s| && !p(s[k])
    requires forall j :: 0 <= j < |s| && j != k ==> p(s[j])
    ensures Filter(s, p) == s[..k] + s[k + 1..]
  {
    var t := s[1..];
    if k == 0 {
      assert forall j :: 0 <= j < |t| ==> p(t[j]) by {
        forall j | 0 <= j < |t| ensures p(t[j]) {
          assert t[j] == s[j + 1];
        }
      }
      FilterKeepsAll(t, p);
    } else {
      assert forall j :: 0 <= j < |t| && j != k - 1 ==> p(t[j]) by {
        forall j | 0 <= j < |t| && j != k - 1 ensures p(t[j]) {
          assert t[j] == s[j + 1];
        }
      }
      FilterRemovesAt(t, p, k - 1);
      assert t[..k - 1] == s[1..k] && t[k..] == s[k + 1..];
      assert [s[0]] + s[1..k] == s[..k];
    }
  }

  /** Two predicates that never agree on an element of `s` split `s` into
      two filters that together hold every element exactly once. */
  lemma {:induction false} FilterSplit<T>(s: seq<T>, p: T -> bool, q: T -> bool)
    requires forall i :: 0 <= i < |s| ==> p(s[i]) != q(s[i])
    ensures multiset(Filter(s, p)) + multiset(Filter(s, q)) == multiset(s)
    ensures |Filter(s, p)| + |Filter(s, q)| == |s|
  {
    if |s| > 0 {
      var t := s[1..];
      assert forall i :: 0 <= i < |t| ==> t[i] == s[i + 1];
      FilterSplit(t, p, q);
      assert s == [s[0]] + t;
      assert multiset(s) == multiset{s[0]} + multiset(t);
      if p(s[0]) {
        assert Filter(s, p) == [s[0]] + Filter(t, p);
        assert Filter(s, q) == Filter(t, q);
      } else {
        assert Filter(s, p) == Filter(t, p);
        assert Filter(s, q) == [s[0]] + Filter(t, q);
      }
    }
  }
}

=== FILE: cookies.dfy ===
/** The cookie-based token store of `utils/tokenUtils.ts`: the strings the
    page writes to `document.cookie`, the regular-expression lookup it reads
    tokens back with, and the browser's cookie jar those writes act on.
    The browser side follows the cookie storage model of RFC 6265 (sections
    5.2 and 5.3) for host-only cookies on one path: one cookie per name,
    serialised as `name=value` pairs joined by `"; "`. */
module Cookies {
  import opened Base
  import opened Text

  const AccessTokenName := "appointment_access_token"
  const RefreshTokenName := "appointment_refresh_token"

  /** The expiry `removeCookie` writes: the start of the Unix epoch. */
  const EpochExpiry := "Thu, 01 Jan 1970 00:00:00 GMT"

  /** The attributes every write ends with. */
  const Attributes := ";path=/;SameSite=Strict"

  /** `setCookie`'s assignment to `document.cookie`; `expires` is the
      `toUTCString()` of the computed expiry date. */
  function SetCookieString(name: string, value: string, expires: string): (r: string)
    ensures |r| == |name| + 1 + |value| + 9 + |expires| + |Attributes|
    ensures r[..|name| + 1] == name + "="
    ensures r[|name| + 1..|name| + 1 + |value|] == value
    ensures r[|name| + 1 + |value|..] == ";expires=" + expires + Attributes
  {
    name + "=" + value + ";expires=" + expires + Attributes
  }

  /** `removeCookie`'s assignment to `document.cookie`. */
  function RemoveCookieString(name: string): (r: string)
  {
    name + "=;expires=" + EpochExpiry + Attributes
  }

  /** Removing a cookie writes exactly what setting it to the empty value
      with the epoch as expiry would. */
  lemma RemoveIsExpiredSet(name: string)
    ensures RemoveCookieString(name) == SetCookieString(name, [], EpochExpiry)
  {
  }

  /** Index of the first occurrence of `c`, or `|s|` when there is none. */
  function IndexOf(s: string, c: char): (r: nat)
    ensures r <= |s|
    ensures forall j :: 0 <= j < r ==> s[j] != c
    ensures r < |s| ==> s[r] == c
  {
    if |s| == 0 then 0
    else if s[0] == c then 0
    else 1 + IndexOf(s[1..], c)
  }

  /** The index of a `c` with none before it is the first index of `c`. */
  lemma IndexOfIs(s: string, c: char, n: nat)
    requires n < |s| && s[n] == c
    requires forall j :: 0 <= j < n ==> s[j] != c
    ensures IndexOf(s, c) == n
  {
  }

  datatype Cookie = Cookie(name: string, value: string)

  /** How the browser reads an assignment to `document.cookie` (section
      5.2 of RFC 6265, whitespace trimming left out): the name-value pair
      is everything before the first `;`; its name is what precedes the
      pair's first `=` and its value what follows it. A pair without `=`
      has an empty name and is all value, as in the revision of RFC 6265
      browsers follow. */
  function ParseWrite(s: string): (c: Cookie)
    ensures IndexOf(s, '=') < IndexOf(s, ';') ==>
      c.name == s[..IndexOf(s, '=')] && c.value == s[IndexOf(s, '=') + 1..IndexOf(s, ';')]
    ensures IndexOf(s, ';') <= IndexOf(s, '=') ==> c == Cookie([], s[..IndexOf(s, ';')])
    ensures forall j :: 0 <= j < |c.name| ==> c.name[j] != ';' && c.name[j] != '='
    ensures forall j :: 0 <= j < |c.value| ==> c.value[j] != ';'
  {
    var pair := s[..IndexOf(s, ';')];
    var eq := IndexOf(pair, '=');
    PairIndex(s, pair);
    if eq == |pair| then Cookie([], pair) else Cookie(pair[..eq], pair[eq + 1..])
  }

  /** The first `=` of the part before the first `;` is the first `=` of
      the whole string when it comes before that `;`, and otherwise the
      part has none. */
  lemma PairIndex(s: string, pair: string)
    requires pair == s[..IndexOf(s, ';')]
    ensures IndexOf(s, '=') < IndexOf(s, ';') ==> IndexOf(pair, '=') == IndexOf(s, '=')
    ensures IndexOf(s, ';') <= IndexOf(s, '=') ==> IndexOf(pair, '=') == |pair|
  {
    var eq := IndexOf(s, '=');
    if eq < |pair| {
      IndexOfIs(pair, '=', eq);
    } else {
      assert forall j :: 0 <= j < |pair| ==> pair[j] == s[j] && s[j] != '=';
    }
  }

  /** The browser reads back the name and value `setCookie` wrote, as long
      as the name holds neither `=` nor `;` and the value no `;`. */
  lemma SetCookieParsesBack(name: string, value: string, expires: string)
    requires forall j :: 0 <= j < |name| ==> name[j] != '=' && name[j] != ';'
    requires forall j :: 0 <= j < |value| ==> value[j] != ';'
    ensures ParseWrite(SetCookieString(name, value, expires)) == Cookie(name, value)
  {
    var s := SetCookieString(name, value, expires);
    IndexOfIs(s, '=', |name|);
    IndexOfIs(s, ';', |name| + 1 + |value|);
  }

  /** A `;` in the name cuts the pair short: `a;b=c` sets no cookie named
      `a;b`, but one with an empty name and the value `a`. */
  lemma SemicolonEndsPair()
    ensures ParseWrite("a;b=c") == Cookie([], "a")
  {
    IndexOfIs("a;b=c", ';', 1);
    IndexOfIs("a;b=c", '=', 3);
  }

  /** A cookie name as the jar holds it: non-empty, and free of the
      separators ` `, `;` and `=`. */
  predicate PlainName(s: string)
  {
    |s| > 0 && forall j :: 0 <= j < |s| ==> s[j] != ' ' && s[j] != ';' && s[j] != '='
  }

  /** A token value: non-empty, without spaces or semicolons (the
      base64url-and-dot alphabet of a JWT qualifies). */
  predicate PlainValue(s: string)
  {
    |s| > 0 && forall j :: 0 <= j < |s| ==> s[j] != ' ' && s[j] != ';'
  }

  predicate WellFormedJar(jar: seq<Cookie>)
  {
    forall i :: 0 <= i < |jar| ==> PlainName(jar[i].name) && PlainValue(jar[i].value)
  }

  /** `name=value`, one pair of the `document.cookie` string. */
  function Entry(c: Cookie): string
  {
    c.name + "=" + c.value
  }

  /** What reading `document.cookie` returns: the pairs joined by `"; "`. */
  function Serialize(jar: seq<Cookie>): (r: string)
    ensures r == [] <==> |jar| == 0
    ensures |jar| > 0 ==> |Entry(jar[0])| <= |r| && r[..|Entry(jar[0])|] == Entry(jar[0])
    decreases |jar|
  {
    if |jar| == 0 then []
    else if |jar| == 1 then Entry(jar[0])
    else Entry(jar[0]) + "; " + Serialize(jar[1..])
  }

  /** The value of the first cookie with the name. */
  function Lookup(jar: seq<Cookie>, name: string): (r: Option<string>)
    ensures r.Some? ==> exists i :: 0 <= i < |jar| && jar[i] == Cookie(name, r.value)
    ensures r.None? <==> forall i :: 0 <= i < |jar| ==> jar[i].name != name
    decreases |jar|
  {
    if |jar| == 0 then None
    else if jar[0].name == name then Some(jar[0].value)
    else
      var r := Lookup(jar[1..], name);
      assert forall i :: 1 <= i < |jar| ==> jar[i] == jar[1..][i - 1];
      r
  }

  /** The jar without the cookies of that name: what an assignment with an
      expiry in the past does (section 5.3, step 12, of RFC 6265). */
  function Expire(jar: seq<Cookie>, name: string): (r: seq<Cookie>)
    ensures forall i :: 0 <= i < |r| ==> r[i].name != name
    ensures WellFormedJar(jar) ==> WellFormedJar(r)
    decreases |jar|
  {
    if |jar| == 0 then []
    else
      var rest := Expire(jar[1..], name);
      assert WellFormedJar(jar) ==> WellFormedJar(jar[1..]);
      if jar[0].name == name then rest else [jar[0]] + rest
  }

  /** Expiring one name leaves every other name's lookup as it was. */
  lemma {:induction false} ExpireKeepsOthers(jar: seq<Cookie>, name: string, other: string)
    requires other != name
    ensures Lookup(Expire(jar, name), other) == Lookup(jar, other)
    decreases |jar|
  {
    if |jar| > 0 {
      ExpireKeepsOthers(jar[1..], name, other);
    }
  }

  /** An assignment with a future expiry: the cookie takes the place of the
      old one of that name, or is added at the end when there is none. */
  function Store(jar: seq<Cookie>, c: Cookie): (r: seq<Cookie>)
    ensures WellFormedJar(jar) && PlainName(c.name) && PlainValue(c.value) ==> WellFormedJar(r)
    decreases |jar|
  {
    if |jar| == 0 then [c]
    else if jar[0].name == c.name then [c] + Expire(jar[1..], c.name)
    else
      assert WellFormedJar(jar) ==> WellFormedJar(jar[1..]);
      [jar[0]] + Store(jar[1..], c)
  }

  /** After storing, the name reads the new value and every other name
      reads what it read before. */
  lemma {:induction false} StoreLookup(jar: seq<Cookie>, c: Cookie, other: string)
    ensures Lookup(Store(jar, c), c.name) == Some(c.value)
    ensures other != c.name ==> Lookup(Store(jar, c), other) == Lookup(jar, other)
    decreases |jar|
  {
    if |jar| > 0 {
      if jar[0].name == c.name {
        if other != c.name {
          ExpireKeepsOthers(jar[1..], c.name, other);
        }
      } else {
        StoreLookup(jar[1..], c, other);
      }
    }
  }

  /** An assignment to `document.cookie`, parsed as the browser does;
      `expired` says whether its expiry date has already passed. */
  function BrowserWrite(jar: seq<Cookie>, s: string, expired: bool): seq<Cookie>
  {
    var c := ParseWrite(s);
    if expired then Expire(jar, c.name) else Store(jar, c)
  }

  /** The regular expression `(^| )name=([^;]+)` can start its capture of
      the name at index `k`: `k` is the start of the string or follows a
      space, `name=` occurs there, and at least one character other than
      `;` follows. */
  predicate CookieStart(s: string, name: string, k: nat)
  {
    && (k == 0 || (k <= |s| && s[k - 1] == ' '))
    && OccursAt(s, name + "=", k)
    && k + |name| + 1 < |s|
    && s[k + |name| + 1] != ';'
  }

  /** `k` is the leftmost such index, which is where the regular expression
      matches first. */
  predicate FirstCookieStart(s: string, name: string, k: nat)
  {
    CookieStart(s, name, k) && forall j: nat :: j < k ==> !CookieStart(s, name, j)
  }

  /** Length of the run of characters other than `;` starting at `i`. */
  function ValueRun(s: string, i: nat): (n: nat)
    requires i <= |s|
    ensures i + n <= |s|
    ensures forall j :: i <= j < i + n ==> s[j] != ';'
    ensures i + n == |s| || s[i + n] == ';'
    decreases |s| - i
  {
    if i < |s| && s[i] != ';' then 1 + ValueRun(s, i + 1) else 0
  }

  /** The run is the only one ending at the end or at a `;`. */
  lemma ValueRunUnique(s: string, i: nat, n: nat)
    requires i + n <= |s|
    requires forall j :: i <= j < i + n ==> s[j] != ';'
    requires i + n == |s| || s[i + n] == ';'
    ensures ValueRun(s, i) == n
  {
  }

  /** The capture group `([^;]+)` of a match whose name starts at `k`. */
  function ValueAt(s: string, name: string, k: nat): (v: string)
    requires k + |name| + 1 <= |s|
  {
    var i := k + |name| + 1;
    s[i..i + ValueRun(s, i)]
  }

  /** The leftmost match at or after `from`. */
  function FindCookieStart(s: string, name: string, from: nat): (r: Option<nat>)
    ensures r.Some? ==> from <= r.value && CookieStart(s, name, r.value)
    ensures r.Some? ==> forall j: nat :: from <= j < r.value ==> !CookieStart(s, name, j)
    ensures r.None? ==> forall j: nat :: from <= j ==> !CookieStart(s, name, j)
    decreases |s| + 1 - from
  {
    if from > |s| then None
    else if CookieStart(s, name, from) then Some(from)
    else FindCookieStart(s, name, from + 1)
  }

  /** `getCookie`: the captured value of the leftmost match, `None` for
      `null` when nothing matches. */
  function GetCookie(s: string, name: string): (r: Option<string>)
    ensures r.None? <==> forall j: nat :: !CookieStart(s, name, j)
    ensures r.Some? ==> exists k: nat :: FirstCookieStart(s, name, k) && r.value == ValueAt(s, name, k)
  {
    match FindCookieStart(s, name, 0)
    case None => None
    case Some(k) => Some(ValueAt(s, name, k))
  }

  /** The leftmost match decides the result. */
  lemma GetCookieAtFirst(s: string, name: string, k: nat)
    requires FirstCookieStart(s, name, k)
    ensures GetCookie(s, name) == Some(ValueAt(s, name, k))
  {
    var r := GetCookie(s, name);
    var k': nat :| FirstCookieStart(s, name, k') && r.value == ValueAt(s, name, k');
  }

  /** No pair of a well-formed jar contains a space. */
  lemma EntryHasNoSpace(c: Cookie, j: nat)
    requires PlainName(c.name) && PlainValue(c.value)
    requires j < |Entry(c)|
    ensures Entry(c)[j] != ' '
  {
    if j < |c.name| {
      assert Entry(c)[j] == c.name[j];
    } else if j > |c.name| {
      assert Entry(c)[j] == c.value[j - |c.name| - 1];
    }
  }

  /** Two names without `=` that both end where a string's first `=` is
      are the same name. */
  lemma SameNameBeforeEquals(s: string, name: string, other: string)
    requires forall j :: 0 <= j < |name| ==> name[j] != '='
    requires forall j :: 0 <= j < |other| ==> other[j] != '='
    requires OccursAt(s, name + "=", 0) && OccursAt(s, other + "=", 0)
    ensures name == other
  {
    assert s[..|name| + 1] == name + "=";
    assert s[..|other| + 1] == other + "=";
    assert forall j :: 0 <= j < |name| ==> s[j] == name[j];
    assert forall j :: 0 <= j < |other| ==> s[j] == other[j];
    IndexOfIs(s, '=', |name|);
    IndexOfIs(s, '=', |other|);
    assert name == s[..|name|];
  }

  /** At the start of a pair the regular expression matches exactly when
      the pair carries the name. */
  lemma StartOfEntry(c: Cookie, t: string, name: string)
    requires PlainName(c.name) && PlainValue(c.value) && PlainName(name)
    requires t == [] || t[0] == ';'
    ensures CookieStart(Entry(c) + t, name, 0) <==> name == c.name
  {
    var s := Entry(c) + t;
    var n := |c.name|;
    assert s[..n] == c.name && s[n] == '=';
    if name == c.name {
      assert s[..|name| + 1] == name + "=";
      assert s[n + 1] == c.value[0];
    }
    if OccursAt(s, name + "=", 0) {
      assert s[..n + 1] == c.name + "=";
      SameNameBeforeEquals(s, name, c.name);
    }
  }

  /** A prefix ending in a space shifts every match by its length. */
  lemma ShiftStart(p: string, t: string, name: string, k: nat)
    requires |p| > 0 && p[|p| - 1] == ' '
    ensures CookieStart(p + t, name, |p| + k) <==> CookieStart(t, name, k)
  {
    var s := p + t;
    var q := name + "=";
    if |p| + k + |q| <= |s| {
      assert s[|p| + k..|p| + k + |q|] == t[k..k + |q|];
    }
    if 0 < k <= |t| {
      assert s[|p| + k - 1] == t[k - 1];
    }
    if k + |name| + 1 < |t| {
      assert s[|p| + k + |name| + 1] == t[k + |name| + 1];
    }
  }

  /** ... and the captured value with it. */
  lemma ShiftValue(p: string, t: string, name: string, k: nat)
    requires k + |name| + 1 <= |t|
    ensures ValueAt(p + t, name, |p| + k) == ValueAt(t, name, k)
  {
    var s := p + t;
    var i := k + |name| + 1;
    var n := ValueRun(t, i);
    assert forall j :: |p| + i <= j < |p| + i + n ==> s[j] == t[j - |p|];
    assert |p| + i + n == |s| || s[|p| + i + n] == t[i + n];
    ValueRunUnique(s, |p| + i, n);
    assert s[|p| + i..|p| + i + n] == t[i..i + n];
  }

  /** The value of a pair that matches is the pair's whole value. */
  lemma ValueOfEntry(c: Cookie, t: string)
    requires PlainValue(c.value)
    requires t == [] || t[0] == ';'
    ensures |c.name| + 1 <= |Entry(c) + t|
    ensures ValueAt(Entry(c) + t, c.name, 0) == c.value
  {
    var s := Entry(c) + t;
    var i := |c.name| + 1;
    assert forall j :: i <= j < i + |c.value| ==> s[j] == c.value[j - i];
    ValueRunUnique(s, i, |c.value|);
    assert s[i..i + |c.value|] == c.value;
  }

  /** No match starts inside a pair or on the `;` after it. */
  lemma NoStartInsideEntry(c: Cookie, t: string, name: string, k: nat)
    requires PlainName(c.name) && PlainValue(c.value)
    requires t == [] || t[0] == ';'
    requires 1 <= k <= |Entry(c)| + 1
    ensures !CookieStart(Entry(c) + t, name, k)
  {
    var s := Entry(c) + t;
    if k <= |Entry(c)| {
      EntryHasNoSpace(c, k - 1);
      assert s[k - 1] == Entry(c)[k - 1];
    } else if k <= |s| {
      assert s[k - 1] == t[0];
    }
  }

  /** A string with no match before the end of a prefix ending in a space
      reads like the rest after the prefix. */
  lemma GetCookieAfterPrefix(p: string, u: string, name: string)
    requires |p| > 0 && p[|p| - 1] == ' '
    requires forall k: nat :: k < |p| ==> !CookieStart(p + u, name, k)
    ensures GetCookie(p + u, name) == GetCookie(u, name)
  {
    if GetCookie(u, name).None? {
      NoneAfterPrefix(p, u, name);
    } else {
      var k: nat :| FirstCookieStart(u, name, k) && GetCookie(u, name).value == ValueAt(u, name, k);
      FirstAfterPrefix(p, u, name, k);
      ShiftValue(p, u, name, k);
      GetCookieAtFirst(p + u, name, |p| + k);
    }
  }

  /** Without a match in the rest, there is none in the whole string. */
  lemma NoneAfterPrefix(p: string, u: string, name: string)
    requires |p| > 0 && p[|p| - 1] == ' '
    requires forall k: nat :: k < |p| ==> !CookieStart(p + u, name, k)
    requires forall k: nat :: !CookieStart(u, name, k)
    ensures GetCookie(p + u, name).None?
  {
    forall k: nat ensures !CookieStart(p + u, name, k) {
      if k >= |p| {
        ShiftStart(p, u, name, k - |p|);
      }
    }
  }

  /** The first match of the rest, shifted by the prefix, is the first
      match of the whole string. */
  lemma FirstAfterPrefix(p: string, u: string, name: string, k: nat)
    requires |p| > 0 && p[|p| - 1] == ' '
    requires forall j: nat :: j < |p| ==> !CookieStart(p + u, name, j)
    requires FirstCookieStart(u, name, k)
    ensures FirstCookieStart(p + u, name, |p| + k)
  {
    ShiftStart(p, u, name, k);
    forall j: nat | j < |p| + k ensures !CookieStart(p + u, name, j) {
      if j >= |p| {
        ShiftStart(p, u, name, j - |p|);
      }
    }
  }

  /** In the `document.cookie` string of a well-formed jar, `getCookie`
      finds the value of the first cookie with the name, and `null` when
      there is none. */
  lemma {:induction false} GetCookieFindsJarValue(jar: seq<Cookie>, name: string)
    requires WellFormedJar(jar) && PlainName(name)
    ensures GetCookie(Serialize(jar), name) == Lookup(jar, name)
    decreases |jar|
  {
    var s := Serialize(jar);
    if |jar| == 0 {
      assert forall j: nat :: !CookieStart(s, name, j);
    } else {
      var c := jar[0];
      var e := Entry(c);
      var t := if |jar| == 1 then [] else "; " + Serialize(jar[1..]);
      assert s == e + t;
      StartOfEntry(c, t, name);
      if name == c.name {
        ValueOfEntry(c, t);
        GetCookieAtFirst(s, name, 0);
      } else {
        forall k: nat | k <= |e| + 1 ensures !CookieStart(s, name, k) {
          if k > 0 { NoStartInsideEntry(c, t, name, k); }
        }
        if |jar| == 1 {
          assert forall k: nat :: !CookieStart(s, name, k);
        } else {
          var rest := jar[1..];
          assert WellFormedJar(rest);
          GetCookieFindsJarValue(rest, name);
          assert s == (e + "; ") + Serialize(rest);
          GetCookieAfterPrefix(e + "; ", Serialize(rest), name);
        }
      }
    }
  }

  /** `setCookie`'s effect on the jar: a write with an expiry still in the
      future; the expiry text comes from the clock. */
  function SetCookie(jar: seq<Cookie>, name: string, value: string, expires: string): seq<Cookie>
  {
    BrowserWrite(jar, SetCookieString(name, value, expires), false)
  }

  /** `removeCookie`'s effect on the jar: the write carries the epoch as
      expiry, so it has passed. */
  function RemoveCookie(jar: seq<Cookie>, name: string): seq<Cookie>
  {
    BrowserWrite(jar, RemoveCookieString(name), true)
  }

  /** `getCookie` on what `document.cookie` reads back. */
  function ReadCookie(jar: seq<Cookie>, name: string): Option<string>
  {
    GetCookie(Serialize(jar), name)
  }

  function SetAccessToken(jar: seq<Cookie>, token: string, expires: string): seq<Cookie>
  {
    SetCookie(jar, AccessTokenName, token, expires)
  }

  function SetRefreshToken(jar: seq<Cookie>, token: string, expires: string): seq<Cookie>
  {
    SetCookie(jar, RefreshTokenName, token, expires)
  }

  function GetAccessToken(jar: seq<Cookie>): Option<string>
  {
    ReadCookie(jar, AccessTokenName)
  }

  function GetRefreshToken(jar: seq<Cookie>): Option<string>
  {
    ReadCookie(jar, RefreshTokenName)
  }

  /** `clearTokens`: both token cookies removed. */
  function ClearTokens(jar: seq<Cookie>): (r: seq<Cookie>)
    ensures Lookup(r, AccessTokenName).None? && Lookup(r, RefreshTokenName).None?
    ensures forall other :: other != AccessTokenName && other != RefreshTokenName ==>
      Lookup(r, other) == Lookup(jar, other)
  {
    TokenNamesPlain();
    RemoveIsExpire(jar, AccessTokenName);
    var once := Expire(jar, AccessTokenName);
    RemoveIsExpire(once, RefreshTokenName);
    ExpireKeepsOthers(once, RefreshTokenName, AccessTokenName);
    ExpireTwiceKeepsOthers(jar, AccessTokenName, RefreshTokenName);
    Expire(once, RefreshTokenName)
  }

  /** The effect of `removeCookie` on the jar is to expire that name. */
  lemma RemoveIsExpire(jar: seq<Cookie>, name: string)
    requires PlainName(name)
    ensures RemoveCookie(jar, name) == Expire(jar, name)
  {
    RemoveParsesName(name);
  }

  /** Expiring two names leaves every third name's lookup as it was. */
  lemma ExpireTwiceKeepsOthers(jar: seq<Cookie>, a: string, b: string)
    ensures forall other :: other != a && other != b ==>
      Lookup(Expire(Expire(jar, a), b), other) == Lookup(jar, other)
  {
    forall other | other != a && other != b
      ensures Lookup(Expire(Expire(jar, a), b), other) == Lookup(jar, other)
    {
      ExpireKeepsOthers(jar, a, other);
      ExpireKeepsOthers(Expire(jar, a), b, other);
    }
  }

  lemma TokenNamesPlain()
    ensures PlainName(AccessTokenName) && PlainName(RefreshTokenName)
    ensures AccessTokenName != RefreshTokenName
  {
    assert AccessTokenName[12] != RefreshTokenName[12];
  }

  /** Storing a token and reading it back gives the token; every other
      cookie, the other token included, reads as before. */
  lemma SetThenRead(jar: seq<Cookie>, name: string, token: string, expires: string, other: string)
    requires WellFormedJar(jar) && PlainName(name) && PlainValue(token) && PlainName(other)
    ensures ReadCookie(SetCookie(jar, name, token, expires), name) == Some(token)
    ensures other != name ==> ReadCookie(SetCookie(jar, name, token, expires), other) == ReadCookie(jar, other)
  {
    SetCookieParsesBack(name, token, expires);
    var c := Cookie(name, token);
    var after := Store(jar, c);
    StoreLookup(jar, c, other);
    GetCookieFindsJarValue(after, name);
    GetCookieFindsJarValue(after, other);
    GetCookieFindsJarValue(jar, other);
  }

  /** The browser reads `removeCookie`'s write as a cookie of that name. */
  lemma RemoveParsesName(name: string)
    requires PlainName(name)
    ensures ParseWrite(RemoveCookieString(name)).name == name
  {
    RemoveIsExpiredSet(name);
    SetCookieParsesBack(name, [], EpochExpiry);
  }

  /** After `clearTokens` neither token can be read, and every other cookie
      reads as before. */
  lemma ClearTokensClears(jar: seq<Cookie>, other: string)
    requires WellFormedJar(jar) && PlainName(other)
    ensures GetAccessToken(ClearTokens(jar)) == None
    ensures GetRefreshToken(ClearTokens(jar)) == None
    ensures other != AccessTokenName && other != RefreshTokenName ==>
      ReadCookie(ClearTokens(jar), other) == ReadCookie(jar, other)
  {
    TokenNamesPlain();
    RemoveParsesName(AccessTokenName);
    RemoveParsesName(RefreshTokenName);
    var once := Expire(jar, AccessTokenName);
    var twice := Expire(once, RefreshTokenName);
    ExpireKeepsOthers(once, RefreshTokenName, AccessTokenName);
    GetCookieFindsJarValue(twice, AccessTokenName);
    GetCookieFindsJarValue(twice, RefreshTokenName);
    if other != AccessTokenName && other != RefreshTokenName {
      ExpireKeepsOthers(jar, AccessTokenName, other);
      ExpireKeepsOthers(once, RefreshTokenName, other);
      GetCookieFindsJarValue(twice, other);
      GetCookieFindsJarValue(jar, other);
    }
  }

  /** Each token setter is read back by its own getter and leaves the other
      token as it was. */
  lemma TokenRoundTrips(jar: seq<Cookie>, token: string, expires: string)
    requires WellFormedJar(jar) && PlainValue(token)
    ensures GetAccessToken(SetAccessToken(jar, token, expires)) == Some(token)
    ensures GetRefreshToken(SetAccessToken(jar, token, expires)) == GetRefreshToken(jar)
    ensures GetRefreshToken(SetRefreshToken(jar, token, expires)) == Some(token)
    ensures GetAccessToken(SetRefreshToken(jar, token, expires)) == GetAccessToken(jar)
  {
    TokenNamesPlain();
    SetThenRead(jar, AccessTokenName, token, expires, RefreshTokenName);
    SetThenRead(jar, RefreshTokenName, token, expires, AccessTokenName);
  }

  /** A cookie whose name only ends with the looked-up name is not found. */
  lemma LongerNameNotMatched(prefix: string, name: string, value: string)
    requires PlainName(prefix + name) && PlainName(name) && PlainValue(value)
    requires |prefix| > 0
    ensures GetCookie(Entry(Cookie(prefix + name, value)), name) == None
  {
    var jar := [Cookie(prefix + name, value)];
    GetCookieFindsJarValue(jar, name);
    assert jar[0].name != name;
  }

  /** A pair with an empty value is never matched: `name=;` reads as
      `null` when nothing in the string is a space. */
  lemma EmptyValueReadsNull(name: string, rest: string)
    requires PlainName(name)
    requires forall j :: 0 <= j < |rest| ==> rest[j] != ' '
    ensures GetCookie(name + "=;" + rest, name) == None
  {
    var s := name + "=;" + rest;
    forall k: nat ensures !CookieStart(s, name, k) {
      if 0 < k <= |s| {
        if k - 1 < |name| {
          assert s[k - 1] == name[k - 1];
        } else if k - 1 >= |name| + 2 {
          assert s[k - 1] == rest[k - 1 - |name| - 2];
        }
      }
      if k == 0 && |name| + 1 < |s| {
        assert s[|name| + 1] == ';';
      }
    }
  }
}

=== FILE: date_format.dfy ===
/** The date-fns `format` patterns the administration page puts in its
    date-range request: `yyyy-MM-dd'T'HH:mm:ss` for the start of the range
    and `yyyy-MM-dd'T'23:59:59` for its end. A date is the local calendar
    date and wall-clock time the date picker holds; each field is printed
    in decimal, padded with leading zeros to its width (four digits for
    the year, two for the others). */
module DateFormat {
  import opened Base
  import opened JsNumbers

  datatype DateTime = DateTime(year: nat, month: nat, day: nat, hour: nat, minute: nat, second: nat)

  /** A date a `Date` object can hold: every field below 100 except the
      year, and inside its calendar range. */
  predicate ValidDateTime(d: DateTime)
  {
    1 <= d.month <= 12 && 1 <= d.day <= 31 && d.hour < 24 && d.minute < 60 && d.second < 60
  }

  function Zeros(n: nat): (r: string)
    ensures |r| == n && AllDigits(r)
    ensures forall k :: 0 <= k < n ==> r[k] == '0'
  {
    seq(n, k => '0')
  }

  /** Leading zeros do not change the value of a digit string. */
  lemma {:induction false} LeadingZerosValue(z: string, d: string)
    requires AllDigits(d) && forall k :: 0 <= k < |z| ==> z[k] == '0'
    ensures AllDigits(z + d) && DigitsValue(z + d) == DigitsValue(d)
    decreases |z| + |d|
  {
    if d == [] {
      assert z + d == z;
      if z != [] {
        LeadingZerosValue(z[..|z| - 1], []);
        assert z[..|z| - 1] + [] == z[..|z| - 1];
      }
    } else {
      var n := |z + d| - 1;
      assert (z + d)[..n] == z + d[..|d| - 1];
      assert (z + d)[n] == d[|d| - 1];
      LeadingZerosValue(z, d[..|d| - 1]);
    }
  }

  /** A number below 100 has at most two decimal digits. */
  lemma ShortNat(n: nat)
    ensures n < 100 ==> |NatToString(n)| <= 2
  {
    if 10 <= n < 100 {
      assert NatToString(n) == NatToString(n / 10) + [DigitChar(n % 10)];
    }
  }

  /** `addLeadingZeros(n, width)`: the decimal digits of `n`, preceded by
      as many zeros as needed to reach `width` characters. */
  function Pad(n: nat, width: nat): (r: string)
    ensures AllDigits(r) && DigitsValue(r) == n
    ensures |r| >= width
    ensures n < 100 && width == 2 ==> |r| == 2
  {
    var digits := NatToString(n);
    var z := Zeros(if |digits| < width then width - |digits| else 0);
    LeadingZerosValue(z, digits);
    ShortNat(n);
    z + digits
  }

  /** `-MM-dd`, what both patterns print after the year. */
  function MonthDay(d: DateTime): string
  {
    "-" + Pad(d.month, 2) + "-" + Pad(d.day, 2)
  }

  /** `HH:mm:ss`. */
  function Clock(d: DateTime): string
  {
    Pad(d.hour, 2) + ":" + Pad(d.minute, 2) + ":" + Pad(d.second, 2)
  }

  /** What the start pattern prints after the year: `-MM-ddTHH:mm:ss`. */
  function TimeTail(d: DateTime): string
  {
    MonthDay(d) + "T" + Clock(d)
  }

  /** `format(date, "yyyy-MM-dd'T'HH:mm:ss")`. */
  function FormatStart(d: DateTime): string
  {
    Pad(d.year, 4) + TimeTail(d)
  }

  /** `format(date, "yyyy-MM-dd'T'23:59:59")`: the time of day is a
      literal, whatever the date's own time. */
  function FormatEnd(d: DateTime): string
  {
    Pad(d.year, 4) + MonthDay(d) + "T23:59:59"
  }

  /** The last second of a day prints as `23:59:59`. */
  lemma LastSecondClock(d: DateTime)
    requires d.hour == 23 && d.minute == 59 && d.second == 59
    ensures Clock(d) == "23:59:59"
  {
    assert NatToString(23) == NatToString(2) + [DigitChar(3)];
    assert NatToString(59) == NatToString(5) + [DigitChar(9)];
  }

  /** The end pattern prints the last second of the date's day: what the
      start pattern prints for that day at 23:59:59. */
  lemma EndIsLastSecondOfDay(d: DateTime)
    ensures FormatEnd(d) == FormatStart(d.(hour := 23, minute := 59, second := 59))
  {
    var last := d.(hour := 23, minute := 59, second := 59);
    LastSecondClock(last);
    assert MonthDay(last) == MonthDay(d);
    assert TimeTail(last) == MonthDay(d) + "T23:59:59";
  }

  /** A run of decimal digits, or nothing when `s` holds anything else. */
  function ReadDigits(s: string): (r: Option<nat>)
    ensures r.Some? <==> AllDigits(s)
    ensures r.Some? ==> r.value == DigitsValue(s)
  {
    if AllDigits(s) then Some(DigitsValue(s)) else None
  }

  /** The 15-character tail `-MM-ddTHH:mm:ss` of the start pattern, read
      back as month, day, hour, minute and second. */
  function ParseTail(t: string): (r: Option<(nat, nat, nat, nat, nat)>)
    ensures r.Some? ==> |t| == 15 && t[0] == '-' && t[6] == 'T'
  {
    if |t| != 15 || t[0] != '-' || t[3] != '-' || t[6] != 'T' || t[9] != ':' || t[12] != ':' then None
    else
      var month, day := ReadDigits(t[1..3]), ReadDigits(t[4..6]);
      var hour, minute, second := ReadDigits(t[7..9]), ReadDigits(t[10..12]), ReadDigits(t[13..15]);
      if month.None? || day.None? || hour.None? || minute.None? || second.None? then None
      else Some((month.value, day.value, hour.value, minute.value, second.value))
  }

  /** Reading back a string of the start pattern: everything before the
      fixed tail is the year, which has at least four digits. */
  function ParseDateTime(s: string): (r: Option<DateTime>)
    ensures r.Some? ==> |s| >= 19 && s[|s| - 15] == '-' && s[|s| - 9] == 'T'
  {
    if |s| < 19 then None
    else
      var year, tail := ReadDigits(s[..|s| - 15]), ParseTail(s[|s| - 15..]);
      if year.None? || tail.None? then None
      else
        var (mo, da, ho, mi, se) := tail.value;
        Some(DateTime(year.value, mo, da, ho, mi, se))
  }

  /** The tail printed from five two-digit fields reads back as their
      values. */
  lemma {:induction false} TailRoundTrip(mo: string, da: string, ho: string, mi: string, se: string)
    requires AllDigits(mo) && AllDigits(da) && AllDigits(ho) && AllDigits(mi) && AllDigits(se)
    requires |mo| == 2 && |da| == 2 && |ho| == 2 && |mi| == 2 && |se| == 2
    ensures ParseTail("-" + mo + "-" + da + "T" + ho + ":" + mi + ":" + se) ==
      Some((DigitsValue(mo), DigitsValue(da), DigitsValue(ho), DigitsValue(mi), DigitsValue(se)))
  {
    var t := "-" + mo + "-" + da + "T" + ho + ":" + mi + ":" + se;
    assert t[1..3] == mo && t[4..6] == da && t[7..9] == ho && t[10..12] == mi && t[13..15] == se;
  }

  /** A year of at least four digits followed by a tail that reads back
      reads back as that year and the tail's fields. */
  lemma YearThenTail(y: string, t: string)
    requires |y| >= 4 && AllDigits(y) && ParseTail(t).Some?
    ensures var (mo, da, ho, mi, se) := ParseTail(t).value;
      ParseDateTime(y + t) == Some(DateTime(DigitsValue(y), mo, da, ho, mi, se))
  {
    var s := y + t;
    assert s[..|s| - 15] == y && s[|s| - 15..] == t;
  }

  /** The start pattern prints every valid date so that it reads back as
      that date. */
  lemma StartRoundTrip(d: DateTime)
    requires ValidDateTime(d)
    ensures ParseDateTime(FormatStart(d)) == Some(d)
  {
    var mo, da, ho, mi, se := Pad(d.month, 2), Pad(d.day, 2), Pad(d.hour, 2), Pad(d.minute, 2), Pad(d.second, 2);
    assert TimeTail(d) == "-" + mo + "-" + da + "T" + ho + ":" + mi + ":" + se;
    TailRoundTrip(mo, da, ho, mi, se);
    YearThenTail(Pad(d.year, 4), TimeTail(d));
  }

  /** The end pattern reads back as the same day at 23:59:59. */
  lemma EndRoundTrip(d: DateTime)
    requires ValidDateTime(d)
    ensures ParseDateTime(FormatEnd(d)) == Some(d.(hour := 23, minute := 59, second := 59))
  {
    EndIsLastSecondOfDay(d);
    StartRoundTrip(d.(hour := 23, minute := 59, second := 59));
  }
}

=== FILE: domain.dfy ===
/** The records the client exchanges with the server (`types/appointment.ts`
    and `types/index.ts`), the status classification every page shares, and
    the status chip colour. Prices are JavaScript numbers restricted to
    integers; date-times are the ISO strings the server sends. */
module Domain {
  import opened Base

  datatype Status = Pending | Confirmed | Cancelled | Completed | NoShow

  datatype ExceptionType = DayOff | SpecialHours

  datatype Country = RO | MD

  datatype Service = Service(
    id: int,
    name: string,
    description: Option<string>,
    price: int,
    durationMinutes: int,
    active: bool,
    imageUrl: Option<string>,
    providerId: int,
    providerName: string)

  datatype Appointment = Appointment(
    id: int,
    clientId: int,
    clientName: string,
    clientEmail: string,
    clientPhone: Option<string>,
    providerId: int,
    providerName: string,
    providerEmail: string,
    startTime: string,
    endTime: string,
    status: Status,
    services: seq<Service>,
    notes: Option<string>,
    totalPrice: int)

  datatype CreateAppointmentRequest = CreateAppointmentRequest(
    clientId: int,
    providerId: int,
    startTime: string,
    serviceIds: seq<int>,
    notes: Option<string>)

  datatype UpdateAppointmentRequest = UpdateAppointmentRequest(
    id: int,
    startTime: Option<string>,
    serviceIds: Option<seq<int>>,
    notes: Option<string>,
    status: Option<Status>)

  datatype TimeSlot = TimeSlot(startTime: string, endTime: string, durationMinutes: int, available: bool)

  datatype AvailableTimeSlotsResponse = AvailableTimeSlotsResponse(
    providerId: int,
    date: string,
    availableSlots: seq<TimeSlot>)

  datatype WorkSchedule = WorkSchedule(
    id: Option<int>,
    providerId: int,
    dayOfWeek: string,
    startTime: string,
    endTime: string,
    active: bool)

  datatype ScheduleException = ScheduleException(
    id: Option<int>,
    providerId: int,
    exceptionDate: string,
    kind: ExceptionType,
    startTime: Option<string>,
    endTime: Option<string>,
    reason: Option<string>)

  datatype User = User(
    id: int,
    username: Option<string>,
    email: string,
    country: Country,
    firstName: string,
    lastName: string,
    active: bool,
    roles: seq<string>)

  datatype JwtResponse = JwtResponse(
    token: string,
    refreshToken: string,
    tokenType: string,
    id: int,
    username: Option<string>,
    email: string,
    roles: seq<string>)

  /** The shortest password the registration form and the profile page
      accept, counted in characters. */
  const MinPasswordLength := 8

  /** JavaScript truthiness of an optional string: absent and `''` are falsy. */
  predicate IsPresent(s: Option<string>)
  {
    s.Some? && s.value != []
  }

  /** JavaScript truthiness of an optional id: absent and `0` are falsy. */
  predicate IsSetId(id: Option<int>)
  {
    id.Some? && id.value != 0
  }

  /** `x || ''` for an optional string. */
  function OrEmpty(s: Option<string>): (r: string)
    ensures s.Some? ==> r == s.value
    ensures s.None? ==> r == []
  {
    if s.Some? then s.value else []
  }

  /** The "upcoming" tab: PENDING or CONFIRMED. */
  predicate IsUpcoming(s: Status)
  {
    s == Pending || s == Confirmed
  }

  /** The "past" tab: COMPLETED, CANCELLED or NO_SHOW. */
  predicate IsPast(s: Status)
  {
    s == Completed || s == Cancelled || s == NoShow
  }

  /** Every status is in exactly one of the two tabs. */
  lemma UpcomingPastPartition(s: Status)
    ensures IsUpcoming(s) != IsPast(s)
  {
  }

  /** The upcoming tab of the client and administration pages: pending
      and confirmed appointments. */
  function UpcomingTab(shown: seq<Appointment>): (r: seq<Appointment>)
    ensures forall k :: 0 <= k < |r| ==> IsUpcoming(r[k].status)
  {
    Filter(shown, (a: Appointment) => IsUpcoming(a.status))
  }

  /** The past (history) tab: completed, cancelled and no-show appointments. */
  function PastTab(shown: seq<Appointment>): (r: seq<Appointment>)
    ensures forall k :: 0 <= k < |r| ==> IsPast(r[k].status)
  {
    Filter(shown, (a: Appointment) => IsPast(a.status))
  }

  /** Every shown appointment lands in exactly one of the two tabs. */
  lemma TabsPartition(shown: seq<Appointment>)
    ensures multiset(UpcomingTab(shown)) + multiset(PastTab(shown)) == multiset(shown)
    ensures |UpcomingTab(shown)| + |PastTab(shown)| == |shown|
  {
    forall i | 0 <= i < |shown| ensures IsUpcoming(shown[i].status) != IsPast(shown[i].status) {
      UpcomingPastPartition(shown[i].status);
    }
    FilterSplit(shown, (a: Appointment) => IsUpcoming(a.status), (a: Appointment) => IsPast(a.status));
  }

  /** Both tabs keep the order of the list: the tab of a list split in two
      is the tab of the first part followed by the tab of the second. */
  lemma TabsKeepOrder(a: seq<Appointment>, b: seq<Appointment>)
    ensures UpcomingTab(a + b) == UpcomingTab(a) + UpcomingTab(b)
    ensures PastTab(a + b) == PastTab(a) + PastTab(b)
  {
    FilterConcat(a, b, (x: Appointment) => IsUpcoming(x.status));
    FilterConcat(a, b, (x: Appointment) => IsPast(x.status));
  }

  /** The ids of a list of services, in list order (`services.map(s => s.id)`). */
  function ServiceIds(services: seq<Service>): (r: seq<int>)
    ensures |r| == |services|
    ensures forall k :: 0 <= k < |services| ==> r[k] == services[k].id
  {
    seq(|services|, k requires 0 <= k < |services| => services[k].id)
  }

  /** No two services in the list share an id. */
  predicate UniqueIds(services: seq<Service>)
  {
    forall j, k :: 0 <= j < k < |services| ==> services[j].id != services[k].id
  }

  /** Some service in the list has this id (`services.some(s => s.id === id)`). */
  predicate HasServiceId(services: seq<Service>, id: int)
  {
    exists k :: 0 <= k < |services| && services[k].id == id
  }

  /** The MUI chip colours the status chips use. */
  datatype Color = Warning | Success | Error | Primary | DefaultColor

  /** `getStatusColor`, shared verbatim by the client, administration and
      detail pages. */
  function StatusColor(s: Status): (c: Color)
    ensures c != DefaultColor
    ensures c == Warning <==> s == Pending
    ensures c == Success <==> s == Confirmed
    ensures c == Primary <==> s == Completed
    ensures c == Error <==> s == Cancelled || s == NoShow
    ensures IsUpcoming(s) <==> c == Warning || c == Success
  {
    match s
    case Pending => Warning
    case Confirmed => Success
    case Cancelled => Error
    case Completed => Primary
    case NoShow => Error
  }

  /** Two statuses share a colour only when both are CANCELLED or NO_SHOW:
      the colour tells PENDING, CONFIRMED and COMPLETED apart from every
      other status. */
  lemma StatusColorSeparates(s: Status, t: Status)
    requires s != t && StatusColor(s) == StatusColor(t)
    ensures (s == Cancelled || s == NoShow) && (t == Cancelled || t == NoShow)
  {
  }
}

=== FILE: edit_appointment.dfy ===
/** The appointment editor of `pages/EditAppointmentPage.tsx`: the form
    filled from the stored appointment, the change detection that enables
    the Save button, the offered slots and the update request. The service
    toggle and the totals are those of `ServiceSelection`. */
module EditAppointment {
  import opened Base
  import opened Text
  import opened Domain
  import opened ServiceSelection

  /** The editable part of the page: selected services, chosen slot and
      the notes field. */
  datatype Form = Form(services: seq<Service>, timeSlot: Option<string>, notes: string)

  const EmptyForm := Form([], None, [])

  /** The set of ids occurring in a list of services. */
  function IdSet(services: seq<Service>): (r: set<int>)
    ensures forall x :: x in r <==> HasServiceId(services, x)
  {
    set k | 0 <= k < |services| :: services[k].id
  }

  /** A list with unique ids has as many distinct ids as entries. */
  lemma {:induction false} UniqueIdSetSize(services: seq<Service>)
    requires UniqueIds(services)
    ensures |IdSet(services)| == |services|
    decreases |services|
  {
    if |services| > 0 {
      var n := |services| - 1;
      var init := services[..n];
      assert UniqueIds(init);
      UniqueIdSetSize(init);
      IdSetSnoc(services);
    }
  }

  /** The ids of a list are those of all but its last entry plus the last
      one's, which with unique ids is new. */
  lemma IdSetSnoc(services: seq<Service>)
    requires UniqueIds(services) && |services| > 0
    ensures var n := |services| - 1;
      && services[n].id !in IdSet(services[..n])
      && IdSet(services) == IdSet(services[..n]) + {services[n].id}
  {
    var n := |services| - 1;
    var init := services[..n];
    assert forall k :: 0 <= k < n ==> init[k] == services[k];
    forall x ensures x in IdSet(services) <==> x in IdSet(init) + {services[n].id} {
      if x in IdSet(services) && x != services[n].id {
        var k :| 0 <= k < |services| && services[k].id == x;
        assert init[k].id == x;
      }
    }
  }

  /** A subset as large as its superset is the superset. */
  lemma SubsetOfSameSize(a: set<int>, b: set<int>)
    requires a <= b && |a| == |b|
    ensures a == b
  {
    assert |b - a| == |b| - |a|;
  }

  /** `servicesChanged`: the selection differs in length from the booked
      services, or one of its services is not booked. */
  function ServicesChanged(selected: seq<Service>, booked: seq<Service>): (r: bool)
    ensures !r <==> |selected| == |booked| && IdSet(selected) <= IdSet(booked)
  {
    || |selected| != |booked|
    || exists k :: 0 <= k < |selected| && !HasServiceId(booked, selected[k].id)
  }

  /** For lists without repeated ids, the length-and-membership test of the
      page detects exactly a change of the set of service ids. */
  lemma ServicesChangedIffIdsDiffer(selected: seq<Service>, booked: seq<Service>)
    requires UniqueIds(selected) && UniqueIds(booked)
    ensures ServicesChanged(selected, booked) <==> IdSet(selected) != IdSet(booked)
  {
    UniqueIdSetSize(selected);
    UniqueIdSetSize(booked);
    if !ServicesChanged(selected, booked) {
      assert IdSet(selected) <= IdSet(booked) by {
        forall x | x in IdSet(selected) ensures x in IdSet(booked) {
          var k :| 0 <= k < |selected| && selected[k].id == x;
        }
      }
      SubsetOfSameSize(IdSet(selected), IdSet(booked));
    }
  }

  lemma ServicesChangedWhenUnique(selected: seq<Service>, booked: seq<Service>)
    ensures UniqueIds(selected) && UniqueIds(booked) ==>
      (ServicesChanged(selected, booked) <==> IdSet(selected) != IdSet(booked))
  {
    if UniqueIds(selected) && UniqueIds(booked) {
      ServicesChangedIffIdsDiffer(selected, booked);
    }
  }

  /** The form holding exactly what is stored: the booked services, the
      start time and the notes (or ""). */
  function StoredForm(a: Appointment): Form
  {
    Form(a.services, Some(a.startTime), OrEmpty(a.notes))
  }

  /** `hasChanges`: the services, the slot or the notes differ from the
      stored appointment; notes compare against the stored notes or "". */
  function HasChanges(form: Form, appointment: Appointment): (r: bool)
    ensures ServicesChanged(form.services, appointment.services) ==> r
    ensures form.timeSlot != Some(appointment.startTime) ==> r
    ensures form.notes != OrEmpty(appointment.notes) ==> r
    ensures form == StoredForm(appointment) ==> !r
    ensures UniqueIds(form.services) && UniqueIds(appointment.services) ==>
      (r <==> || IdSet(form.services) != IdSet(appointment.services)
              || form.timeSlot != Some(appointment.startTime)
              || form.notes != OrEmpty(appointment.notes))
  {
    ServicesChangedWhenUnique(form.services, appointment.services);
    || ServicesChanged(form.services, appointment.services)
    || form.timeSlot != Some(appointment.startTime)
    || form.notes != OrEmpty(appointment.notes)
  }

  /** The Save button is disabled while loading or while nothing changed. */
  function SaveDisabled(isLoading: bool, form: Form, appointment: Appointment): (r: bool)
    ensures isLoading ==> r
    ensures form == StoredForm(appointment) ==> r
    ensures !r ==> HasChanges(form, appointment)
    ensures !isLoading && HasChanges(form, appointment) ==> !r
  {
    isLoading || !HasChanges(form, appointment)
  }

  /** Starting from the stored form, Save stays disabled until something is
      edited: picking another slot, or a service set with a different id,
      enables it unless a load is in progress. */
  lemma EditEnablesSave(a: Appointment, slot: string, services: seq<Service>)
    ensures SaveDisabled(false, StoredForm(a), a)
    ensures slot != a.startTime ==> !SaveDisabled(false, StoredForm(a).(timeSlot := Some(slot)), a)
    ensures UniqueIds(services) && UniqueIds(a.services) && IdSet(services) != IdSet(a.services) ==>
      !SaveDisabled(false, StoredForm(a).(services := services), a)
  {
  }

  /** The services of the active catalogue that the appointment books, in
      catalogue order. */
  function BookedFromCatalog(catalog: seq<Service>, booked: seq<Service>): (r: seq<Service>)
    ensures forall k :: 0 <= k < |r| ==> HasServiceId(booked, r[k].id)
  {
    Filter(catalog, (s: Service) => HasServiceId(booked, s.id))
  }

  /** An id is in the initial selection exactly when the catalogue holds it
      and the appointment books it. */
  lemma BookedFromCatalogIds(catalog: seq<Service>, booked: seq<Service>, id: int)
    ensures HasServiceId(BookedFromCatalog(catalog, booked), id) <==>
      HasServiceId(catalog, id) && HasServiceId(booked, id)
  {
    var p := (s: Service) => HasServiceId(booked, s.id);
    var r := BookedFromCatalog(catalog, booked);
    if HasServiceId(r, id) {
      var k :| 0 <= k < |r| && r[k].id == id;
      FilterMembership(catalog, p, r[k]);
      var j :| 0 <= j < |catalog| && catalog[j] == r[k];
    }
    if HasServiceId(catalog, id) && HasServiceId(booked, id) {
      var j :| 0 <= j < |catalog| && catalog[j].id == id;
      FilterMembership(catalog, p, catalog[j]);
      var k :| 0 <= k < |r| && r[k] == catalog[j];
    }
  }

  /** The initialising effect: once the appointment and a non-empty
      catalogue are loaded, the form holds the booked services found in the
      catalogue, the stored start time and the stored notes (or ""); until
      then the form is left as it is. */
  function Initialize(form: Form, appointment: Option<Appointment>, catalog: seq<Service>): (r: Form)
    ensures appointment.None? || catalog == [] ==> r == form
    ensures appointment.Some? && catalog != [] ==>
      && r.timeSlot == Some(appointment.value.startTime)
      && r.notes == OrEmpty(appointment.value.notes)
      && (forall id :: HasServiceId(r.services, id) <==>
            HasServiceId(catalog, id) && HasServiceId(appointment.value.services, id))
  {
    if appointment.Some? && |catalog| > 0 then
      var a := appointment.value;
      assert forall id :: HasServiceId(BookedFromCatalog(catalog, a.services), id) <==>
          HasServiceId(catalog, id) && HasServiceId(a.services, id) by {
        forall id { BookedFromCatalogIds(catalog, a.services, id); }
      }
      Form(BookedFromCatalog(catalog, a.services), Some(a.startTime), OrEmpty(a.notes))
    else form
  }

  /** Right after initialisation the page reports a change exactly when a
      booked service is missing from the active catalogue. */
  lemma InitializedUnchangedIff(form: Form, a: Appointment, catalog: seq<Service>)
    requires catalog != []
    requires UniqueIds(catalog) && UniqueIds(a.services)
    ensures !HasChanges(Initialize(form, Some(a), catalog), a) <==>
      forall k :: 0 <= k < |a.services| ==> HasServiceId(catalog, a.services[k].id)
  {
    var r := Initialize(form, Some(a), catalog);
    SubsequenceKeepsUnique(catalog, (s: Service) => HasServiceId(a.services, s.id));
    ServicesChangedIffIdsDiffer(r.services, a.services);
    if forall k :: 0 <= k < |a.services| ==> HasServiceId(catalog, a.services[k].id) {
      assert IdSet(r.services) == IdSet(a.services) by {
        forall x ensures x in IdSet(r.services) <==> x in IdSet(a.services) {
          if x in IdSet(a.services) {
            var k :| 0 <= k < |a.services| && a.services[k].id == x;
          }
        }
      }
    } else {
      var k :| 0 <= k < |a.services| && !HasServiceId(catalog, a.services[k].id);
      assert a.services[k].id !in IdSet(r.services);
      assert a.services[k].id in IdSet(a.services);
    }
  }

  datatype FormError = ServicesRequired | TimeRequired

  datatype SubmitOutcome = Invalid(errors: set<FormError>) | NotSent | Send(request: UpdateAppointmentRequest)

  /** `handleSubmit`: both missing parts are reported together; a valid
      form for a loaded appointment sends the id, the chosen slot, the
      selected service ids and the trimmed notes (absent when blank), and
      leaves the status out. */
  function Submit(form: Form, current: Option<Appointment>): (r: SubmitOutcome)
    ensures r.Invalid? <==> form.services == [] || !IsPresent(form.timeSlot)
    ensures r.Invalid? ==>
      && (ServicesRequired in r.errors <==> form.services == [])
      && (TimeRequired in r.errors <==> !IsPresent(form.timeSlot))
    ensures r.Send? <==> form.services != [] && IsPresent(form.timeSlot) && current.Some?
    ensures r.Send? ==>
      && r.request.id == current.value.id
      && r.request.startTime == form.timeSlot
      && r.request.serviceIds == Some(ServiceIds(form.services))
      && (r.request.notes.None? <==> IsBlank(form.notes))
      && (r.request.notes.Some? ==> r.request.notes.value == Trim(form.notes))
      && r.request.status == None
  {
    var errors := (if |form.services| == 0 then {ServicesRequired} else {})
      + (if !IsPresent(form.timeSlot) then {TimeRequired} else {});
    if errors != {} then Invalid(errors)
    else if current.None? then NotSent
    else
      Send(UpdateAppointmentRequest(current.value.id, form.timeSlot, Some(ServiceIds(form.services)),
                                    TrimmedOrAbsent(form.notes), None))
  }

  /** Submitting the form as the page initialised it, when every booked
      service is still in the catalogue, sends the appointment's own start
      time and services (as a set of ids) and its own notes; it is sent
      exactly when the stored start time is non-empty. The page itself does
      not offer this submission: such a form shows no change
      (`InitializedUnchangedIff`), so its Save button is disabled
      (`SaveDisabled`); the lemma says what `Submit` would send back. */
  lemma SubmitInitialized(form: Form, a: Appointment, catalog: seq<Service>)
    requires catalog != [] && a.services != []
    requires forall k :: 0 <= k < |a.services| ==> HasServiceId(catalog, a.services[k].id)
    ensures var r := Submit(Initialize(form, Some(a), catalog), Some(a));
      && (r.Send? <==> a.startTime != [])
      && (r.Send? ==>
            && r.request.id == a.id
            && r.request.startTime == Some(a.startTime)
            && r.request.serviceIds.Some?
            && (forall x :: x in r.request.serviceIds.value <==> HasServiceId(a.services, x))
            && r.request.notes == TrimmedOrAbsent(OrEmpty(a.notes)))
  {
    var f := Initialize(form, Some(a), catalog);
    assert HasServiceId(f.services, a.services[0].id);
    var ids := ServiceIds(f.services);
    forall x ensures x in ids <==> HasServiceId(a.services, x) {
      if x in ids {
        var k :| 0 <= k < |ids| && ids[k] == x;
        assert HasServiceId(f.services, x);
      }
      if HasServiceId(a.services, x) {
        var j :| 0 <= j < |a.services| && a.services[j].id == x;
        assert HasServiceId(f.services, x);
        var k :| 0 <= k < |f.services| && f.services[k].id == x;
        assert ids[k] == x;
      }
    }
  }

  /** The radio group offers the available slots and the appointment's own
      slot, which the provider's schedule reports as taken. */
  function OfferedSlots(slots: seq<TimeSlot>, currentStart: string): (r: seq<TimeSlot>)
    ensures forall k :: 0 <= k < |r| ==> r[k].available || r[k].startTime == currentStart
  {
    Filter(slots, (t: TimeSlot) => t.available || t.startTime == currentStart)
  }

  /** A slot is offered, as often as it occurs, exactly when it is
      available or starts at the appointment's current start time. */
  lemma OfferedSlotsExact(slots: seq<TimeSlot>, currentStart: string, t: TimeSlot)
    ensures multiset(OfferedSlots(slots, currentStart))[t] ==
      if t.available || t.startTime == currentStart then multiset(slots)[t] else 0
  {
    FilterCount(slots, (x: TimeSlot) => x.available || x.startTime == currentStart, t);
  }
}

=== FILE: js_numbers.dfy ===
/** The JavaScript number conversions the service form relies on:
    `parseInt` (no radix argument), `parseFloat` and `Number.prototype.toString`
    for integral values. A JavaScript number is represented exactly as a sign,
    a decimal mantissa and a decimal scale; binary rounding is not modelled. */
module JsNumbers {
  import opened Base
  import opened Text

  /** A `parseFloat` result that is not NaN: `(-1)^negative * mantissa / 10^scale`,
      or one of the two infinities. */
  datatype JsNumber = Finite(negative: bool, mantissa: nat, scale: nat) | Infinite(negative: bool)

  /** `x < 0` for a parsed number; `-0` is not below zero. */
  predicate IsBelowZero(x: JsNumber)
  {
    match x
    case Finite(neg, m, _) => neg && m > 0
    case Infinite(neg) => neg
  }

  predicate IsDigit(c: char) { '0' <= c <= '9' }

  predicate AllDigits(s: string)
  {
    forall k :: 0 <= k < |s| ==> IsDigit(s[k])
  }

  function DigitValue(c: char): nat
    requires IsDigit(c)
  {
    c as int - '0' as int
  }

  function DigitChar(d: nat): (c: char)
    requires d < 10
    ensures IsDigit(c) && DigitValue(c) == d
  {
    ('0' as int + d) as char
  }

  /** The value of a run of decimal digits, most significant first. */
  function DigitsValue(d: string): nat
    requires AllDigits(d)
  {
    if d == [] then 0 else DigitsValue(d[..|d| - 1]) * 10 + DigitValue(d[|d| - 1])
  }

  /** Length of the longest run of decimal digits at the start of `s`. */
  function DigitRun(s: string): (n: nat)
    ensures n <= |s| && AllDigits(s[..n])
    ensures n == |s| || !IsDigit(s[n])
  {
    if |s| > 0 && IsDigit(s[0]) then
      var n := 1 + DigitRun(s[1..]);
      assert s[..n] == [s[0]] + s[1..][..n - 1];
      n
    else 0
  }

  predicate IsHexDigit(c: char)
  {
    IsDigit(c) || 'a' <= c <= 'f' || 'A' <= c <= 'F'
  }

  predicate AllHexDigits(s: string)
  {
    forall k :: 0 <= k < |s| ==> IsHexDigit(s[k])
  }

  function HexDigitValue(c: char): nat
    requires IsHexDigit(c)
  {
    if IsDigit(c) then DigitValue(c)
    else if 'a' <= c <= 'f' then c as int - 'a' as int + 10
    else c as int - 'A' as int + 10
  }

  function HexValue(d: string): nat
    requires AllHexDigits(d)
  {
    if d == [] then 0 else HexValue(d[..|d| - 1]) * 16 + HexDigitValue(d[|d| - 1])
  }

  /** Length of the longest run of hexadecimal digits at the start of `s`. */
  function HexRun(s: string): (n: nat)
    ensures n <= |s| && AllHexDigits(s[..n])
    ensures n == |s| || !IsHexDigit(s[n])
  {
    if |s| > 0 && IsHexDigit(s[0]) then
      var n := 1 + HexRun(s[1..]);
      assert s[..n] == [s[0]] + s[1..][..n - 1];
      n
    else 0
  }

  function Signed(negative: bool, n: nat): int
  {
    if negative then -(n as int) else n
  }

  /** What is left after `trimStart` and one optional sign character, and
      whether that sign was `-`. */
  function SplitSign(s: string): (bool, string)
  {
    var t := TrimStart(s);
    if |t| > 0 && (t[0] == '-' || t[0] == '+') then (t[0] == '-', t[1..]) else (false, t)
  }

  /** A blank string has nothing left to read after the sign. */
  lemma BlankHasNoBody(s: string)
    ensures IsBlank(s) ==> SplitSign(s).1 == []
  {
  }

  /** `parseInt(s)` without a radix: a `0x`/`0X` prefix selects base 16,
      otherwise base 10; `None` is NaN. */
  function ParseInt(s: string): (r: Option<int>)
    ensures IsBlank(s) ==> r.None?
  {
    BlankHasNoBody(s);
    var (negative, body) := SplitSign(s);
    if |body| >= 2 && body[0] == '0' && (body[1] == 'x' || body[1] == 'X') then
      var digits := body[2..];
      var n := HexRun(digits);
      if n == 0 then None else Some(Signed(negative, HexValue(digits[..n])))
    else
      var n := DigitRun(body);
      if n == 0 then None else Some(Signed(negative, DigitsValue(body[..n])))
  }

  /** `parseFloat(s)`: the longest prefix of the form `Infinity`, `ddd`,
      `ddd.ddd`, `ddd.` or `.ddd` after an optional sign; `None` is NaN.
      An exponent part is not read, so `1e5` reads as 1, and a value too
      small for a double is kept exactly, where JavaScript rounds it to
      zero: `-1e-400` reads here as -1 and there as -0. */
  function ParseFloat(s: string): (r: Option<JsNumber>)
    ensures IsBlank(s) ==> r.None?
  {
    BlankHasNoBody(s);
    var (negative, body) := SplitSign(s);
    if |body| >= 8 && body[..8] == "Infinity" then Some(Infinite(negative))
    else
      var ip := DigitRun(body);
      if ip < |body| && body[ip] == '.' then
        var frac := body[ip + 1..];
        var fp := DigitRun(frac);
        if ip == 0 && fp == 0 then None
        else Some(Finite(negative, DigitsValue(body[..ip] + frac[..fp]), fp))
      else if ip == 0 then None
      else Some(Finite(negative, DigitsValue(body[..ip]), 0))
  }

  /** Decimal digits of a natural number, without leading zeros. */
  function NatToString(n: nat): (r: string)
    ensures r != [] && AllDigits(r)
    ensures DigitsValue(r) == n
    ensures r[0] == '0' ==> n == 0 && |r| == 1
  {
    if n < 10 then [DigitChar(n)]
    else
      var r := NatToString(n / 10) + [DigitChar(n % 10)];
      assert r[..|r| - 1] == NatToString(n / 10);
      r
  }

  /** `String(n)` for an integral number, in the plain decimal form
      JavaScript uses when |n| < 10^21; larger numbers, which JavaScript
      prints with an exponent, are printed here in plain digits too. */
  function IntToString(n: int): (r: string)
    ensures r != [] && (r[0] == '-' <==> n < 0)
    ensures n >= 0 ==> AllDigits(r) && DigitsValue(r) == n
    ensures n < 0 ==> AllDigits(r[1..]) && DigitsValue(r[1..]) == -n
  {
    if n < 0 then "-" + NatToString(-n) else NatToString(n)
  }

  /** The digit run of a digit string followed by nothing or a non-digit is
      that digit string. */
  lemma {:induction false} DigitRunOfDigits(d: string, rest: string)
    requires AllDigits(d)
    requires rest == [] || !IsDigit(rest[0])
    ensures DigitRun(d + rest) == |d|
  {
    if d != [] {
      assert (d + rest)[1..] == d[1..] + rest;
      DigitRunOfDigits(d[1..], rest);
    } else {
      assert d + rest == rest;
    }
  }

  /** A sign followed by a non-empty plain digit string parses to the signed
      decimal value of the digits with both parsers. */
  lemma ParseOfSignedDigits(s: string, negative: bool, d: string)
    requires SplitSign(s) == (negative, d)
    requires d != [] && AllDigits(d)
    ensures ParseInt(s) == Some(Signed(negative, DigitsValue(d)))
    ensures ParseFloat(s) == Some(Finite(negative, DigitsValue(d), 0))
  {
    WholeDigitRun(d);
    IntOfSignedDigits(s, negative, d);
    FloatOfSignedDigits(s, negative, d);
  }

  /** A plain digit string is one digit run. */
  lemma WholeDigitRun(d: string)
    requires AllDigits(d)
    ensures DigitRun(d) == |d| && d[..|d|] == d
  {
    DigitRunOfDigits(d, []);
    assert d + [] == d;
  }

  lemma IntOfSignedDigits(s: string, negative: bool, d: string)
    requires SplitSign(s) == (negative, d)
    requires d != [] && AllDigits(d) && DigitRun(d) == |d| && d[..|d|] == d
    ensures ParseInt(s) == Some(Signed(negative, DigitsValue(d)))
  {
  }

  lemma FloatOfSignedDigits(s: string, negative: bool, d: string)
    requires SplitSign(s) == (negative, d)
    requires d != [] && AllDigits(d) && DigitRun(d) == |d| && d[..|d|] == d
    ensures ParseFloat(s) == Some(Finite(negative, DigitsValue(d), 0))
  {
    assert IsDigit(d[0]);
    assert |d| >= 8 ==> d[..8] != "Infinity" by {
      if |d| >= 8 {
        assert d[..8][0] == d[0];
      }
    }
  }

  /** A non-empty plain digit string parses to its decimal value with both
      parsers. */
  lemma ParseOfDigits(d: string)
    requires d != [] && AllDigits(d)
    ensures ParseInt(d) == Some(DigitsValue(d))
    ensures ParseFloat(d) == Some(Finite(false, DigitsValue(d), 0))
  {
    assert TrimStart(d) == d;
    ParseOfSignedDigits(d, false, d);
  }

  /** `parseInt(String(n)) == n` and `parseFloat(String(n)) == n` for every
      integral `n`: the text a number is shown as reads back as that number. */
  lemma ParseIntToString(n: int)
    ensures ParseInt(IntToString(n)) == Some(n)
    ensures ParseFloat(IntToString(n)) == Some(Finite(n < 0, if n < 0 then -n else n, 0))
  {
    var s := IntToString(n);
    var m: nat := if n < 0 then -n else n;
    var d := NatToString(m);
    assert TrimStart(s) == s;
    if n < 0 {
      assert s[1..] == d;
      assert SplitSign(s) == (true, d);
    } else {
      assert SplitSign(s) == (false, d);
    }
    ParseOfSignedDigits(s, n < 0, d);
  }

  /** Text with no digit (and no `Infinity`, `.`) after its optional sign is
      NaN for both parsers. */
  lemma ParseOfNonNumeric(s: string)
    requires SplitSign(s).1 == [] || (!IsDigit(SplitSign(s).1[0]) && SplitSign(s).1[0] != '.' && SplitSign(s).1[0] != 'I')
    ensures ParseInt(s) == None
    ensures ParseFloat(s) == None
  {
  }
}

=== FILE: new_appointment.dfy ===
/** The booking wizard of `pages/NewAppointmentPage.tsx`: service selection
    with its totals, the three-step navigation with per-step validation, the
    offered slots and the create request. */
module NewAppointment {
  import opened Base
  import opened Text
  import opened Domain
  import opened ServiceSelection

  /** The selected services and the provider they come from. */
  datatype Selection = Selection(services: seq<Service>, provider: Option<int>)

  const NoSelection := Selection([], None)

  /** No provider is kept once the selection is empty. */
  predicate ProviderCleared(sel: Selection)
  {
    sel.services == [] ==> sel.provider == None
  }

  /** `handleServiceToggle`: the list is toggled; adding the first service
      makes its provider (when non-zero) the selection's provider, and
      emptying the list clears the provider. */
  function ToggleService(sel: Selection, service: Service): (r: Selection)
    ensures r.services == Toggle(sel.services, service)
    ensures !HasServiceId(sel.services, service.id) ==>
      r.provider == (if sel.services == [] && service.providerId != 0 then Some(service.providerId) else sel.provider)
    ensures HasServiceId(sel.services, service.id) ==>
      r.provider == (if r.services == [] then None else sel.provider)
  {
    var services := Toggle(sel.services, service);
    if !HasServiceId(sel.services, service.id) then
      var provider := if |sel.services| == 0 && service.providerId != 0 then Some(service.providerId) else sel.provider;
      Selection(services, provider)
    else
      Selection(services, if |services| == 0 then None else sel.provider)
  }

  /** Toggling a service that is not selected, and then toggling it again,
      restores the original selection, provider included. */
  lemma ToggleServiceTwice(sel: Selection, service: Service)
    requires ProviderCleared(sel)
    requires !HasServiceId(sel.services, service.id)
    ensures ToggleService(ToggleService(sel, service), service) == sel
  {
    ToggleTwiceRestores(sel.services, service);
    var once := ToggleService(sel, service);
    assert once.services[|sel.services|].id == service.id;
  }

  /** The wizard's three steps: services, date and time, confirmation. */
  const LastStep: nat := 2

  datatype StepError = ServicesRequired | DateRequired | TimeRequired

  /** The errors `handleNext` collects for the current step. */
  function StepErrors(step: nat, selectedCount: nat, hasDate: bool, timeSlot: Option<string>): (errors: set<StepError>)
    ensures ServicesRequired in errors <==> step == 0 && selectedCount == 0
    ensures DateRequired in errors <==> step == 1 && !hasDate
    ensures TimeRequired in errors <==> step == 1 && !IsPresent(timeSlot)
  {
    if step == 0 then (if selectedCount == 0 then {ServicesRequired} else {})
    else if step == 1 then
      (if !hasDate then {DateRequired} else {}) + (if !IsPresent(timeSlot) then {TimeRequired} else {})
    else {}
  }

  datatype NextOutcome = ShowErrors(errors: set<StepError>) | Advance(step: nat) | Submit

  /** `handleNext`: with errors the step stays and the errors are shown; on
      the last step the appointment is submitted; otherwise the step grows
      by one. */
  function HandleNext(step: nat, selectedCount: nat, hasDate: bool, timeSlot: Option<string>): (r: NextOutcome)
    ensures r.ShowErrors? <==> StepErrors(step, selectedCount, hasDate, timeSlot) != {}
    ensures r.ShowErrors? ==> r.errors == StepErrors(step, selectedCount, hasDate, timeSlot)
    ensures r.Advance? ==> step != LastStep && r.step == step + 1
    ensures r.Submit? ==> step == LastStep
  {
    var errors := StepErrors(step, selectedCount, hasDate, timeSlot);
    if errors != {} then ShowErrors(errors)
    else if step == LastStep then Submit
    else Advance(step + 1)
  }

  datatype WizardEvent = Next(selectedCount: nat, hasDate: bool, timeSlot: Option<string>) | Back

  /** One click on the wizard's buttons; Back is disabled on the first step. */
  function WizardStep(step: nat, ev: WizardEvent): nat
  {
    match ev
    case Back => if step == 0 then step else step - 1
    case Next(n, d, t) =>
      match HandleNext(step, n, d, t)
      case Advance(next) => next
      case _ => step
  }

  function WizardRun(step: nat, evs: seq<WizardEvent>): nat
    decreases |evs|
  {
    if |evs| == 0 then step else WizardRun(WizardStep(step, evs[0]), evs[1..])
  }

  /** From the first step, no sequence of clicks takes the wizard past the
      last step. */
  lemma {:induction false} WizardStaysInRange(step: nat, evs: seq<WizardEvent>)
    requires step <= LastStep
    ensures WizardRun(step, evs) <= LastStep
    decreases |evs|
  {
    if |evs| > 0 {
      WizardStaysInRange(WizardStep(step, evs[0]), evs[1..]);
    }
  }

  /** Passing the first step requires at least one selected service, and
      passing the second requires a date and a non-empty time slot. */
  lemma AdvanceNeedsInput(step: nat, n: nat, d: bool, t: Option<string>)
    requires HandleNext(step, n, d, t).Advance?
    ensures step == 0 ==> n > 0
    ensures step == 1 ==> d && IsPresent(t)
  {
  }

  /** The radio group offers only the slots marked available. */
  function OfferedSlots(slots: seq<TimeSlot>): (r: seq<TimeSlot>)
    ensures forall k :: 0 <= k < |r| ==> r[k].available
  {
    Filter(slots, (t: TimeSlot) => t.available)
  }

  /** Every available slot is offered, as often as it occurs, and nothing
      else is. */
  lemma OfferedSlotsExact(slots: seq<TimeSlot>, t: TimeSlot)
    ensures multiset(OfferedSlots(slots))[t] == if t.available then multiset(slots)[t] else 0
  {
    FilterCount(slots, (x: TimeSlot) => x.available, t);
  }

  datatype CreateOutcome = Send(request: CreateAppointmentRequest) | MissingProvider | NotSent

  /** `handleCreateAppointment`: a request needs a logged-in user with a
      non-zero id, a non-empty slot and a non-zero provider; a missing
      provider is reported. */
  function BuildCreateRequest(userId: Option<int>, timeSlot: Option<string>, provider: Option<int>,
                              services: seq<Service>, notes: string): (r: CreateOutcome)
    ensures r.Send? <==> IsSetId(userId) && IsPresent(timeSlot) && IsSetId(provider)
    ensures r.MissingProvider? <==> !IsSetId(provider)
    ensures r.Send? ==>
      && r.request.clientId == userId.value
      && r.request.providerId == provider.value
      && r.request.startTime == timeSlot.value
      && r.request.serviceIds == ServiceIds(services)
      && (r.request.notes.None? <==> IsBlank(notes))
      && (r.request.notes.Some? ==> r.request.notes.value == Trim(notes))
  {
    if !IsSetId(userId) || !IsPresent(timeSlot) || !IsSetId(provider) then
      if !IsSetId(provider) then MissingProvider else NotSent
    else
      Send(CreateAppointmentRequest(userId.value, provider.value, timeSlot.value, ServiceIds(services), TrimmedOrAbsent(notes)))
  }

  /** The selection after the user clicked the given services in turn,
      starting from the empty selection. */
  function ToggleAll(sel: Selection, picks: seq<Service>): Selection
    decreases |picks|
  {
    if |picks| == 0 then sel else ToggleAll(ToggleService(sel, picks[0]), picks[1..])
  }

  /** Any run of clicks keeps the selected ids unique and drops the
      provider once the selection is empty. */
  lemma {:induction false} ToggleAllKeepsInvariant(sel: Selection, picks: seq<Service>)
    requires UniqueIds(sel.services) && ProviderCleared(sel)
    ensures UniqueIds(ToggleAll(sel, picks).services) && ProviderCleared(ToggleAll(sel, picks))
    decreases |picks|
  {
    if |picks| > 0 {
      var next := ToggleService(sel, picks[0]);
      ToggleKeepsUniqueIds(sel.services, picks[0]);
      assert ProviderCleared(next);
      ToggleAllKeepsInvariant(next, picks[1..]);
    }
  }

  /** A request built from a selection the user clicked together names at
      least one service and no service twice. */
  lemma ClickedRequestHasDistinctServices(userId: Option<int>, timeSlot: Option<string>,
                                          picks: seq<Service>, notes: string)
    ensures var sel := ToggleAll(NoSelection, picks);
      var r := BuildCreateRequest(userId, timeSlot, sel.provider, sel.services, notes);
      r.Send? ==>
        && |r.request.serviceIds| > 0
        && forall j, k :: 0 <= j < k < |r.request.serviceIds| ==> r.request.serviceIds[j] != r.request.serviceIds[k]
  {
    ToggleAllKeepsInvariant(NoSelection, picks);
  }
}

=== FILE: profile.dfy ===
/** The profile page, `pages/ProfilePage.tsx`, over the profile record of
    `hooks/useProfile.ts`: editing the personal data and changing the
    password. */
module Profile {
  import opened Base
  import opened Domain

  datatype UserProfile = UserProfile(id: int, email: string, country: Country, firstName: string,
                                     lastName: string, phoneNumber: string,
                                     profileImageUrl: Option<string>, active: bool)

  /** The four editable fields. */
  datatype ProfileForm = ProfileForm(firstName: string, lastName: string, email: string, phoneNumber: string)

  /** The form filled from a profile, as the loading effect and the
      cancel button do. */
  function FormOf(p: UserProfile): (f: ProfileForm)
    ensures f.firstName == p.firstName && f.lastName == p.lastName
    ensures f.email == p.email && f.phoneNumber == p.phoneNumber
  {
    ProfileForm(p.firstName, p.lastName, p.email, p.phoneNumber)
  }

  datatype Editor = Editor(editing: bool, form: ProfileForm)

  /** `handleToggleEdit`: leaving edit mode restores the form from the
      loaded profile; entering it keeps the form. */
  function ToggleEdit(e: Editor, profile: Option<UserProfile>): (r: Editor)
    ensures r.editing == !e.editing
    ensures r.form == if e.editing && profile.Some? then FormOf(profile.value) else e.form
  {
    Editor(!e.editing, if e.editing && profile.Some? then FormOf(profile.value) else e.form)
  }

  /** Entering edit mode, changing any field and cancelling gives back the
      form of the loaded profile. */
  lemma CancelDiscardsEdits(p: UserProfile, edited: ProfileForm)
    ensures ToggleEdit(Editor(true, edited), Some(p)) == Editor(false, FormOf(p))
    ensures ToggleEdit(ToggleEdit(Editor(false, FormOf(p)), Some(p)), Some(p)) == Editor(false, FormOf(p))
  {
  }

  /** `handleSaveProfile`: the profile sent is the loaded one with the four
      fields taken from the form; nothing is sent without a profile. */
  function SaveProfile(profile: Option<UserProfile>, f: ProfileForm): (r: Option<UserProfile>)
    ensures r.None? <==> profile.None?
    ensures r.Some? ==> FormOf(r.value) == f
    ensures r.Some? ==>
      && r.value.id == profile.value.id
      && r.value.country == profile.value.country
      && r.value.profileImageUrl == profile.value.profileImageUrl
      && r.value.active == profile.value.active
  {
    match profile
    case None => None
    case Some(p) => Some(p.(firstName := f.firstName, lastName := f.lastName, email := f.email, phoneNumber := f.phoneNumber))
  }

  /** Saving the untouched form sends the profile unchanged. */
  lemma SaveUntouched(p: UserProfile)
    ensures SaveProfile(Some(p), FormOf(p)) == Some(p)
  {
  }

  /** The profile sent is determined by the loaded profile and the form:
      two saves that send the same profile had the same form. */
  lemma SaveDeterminedByForm(p: UserProfile, f: ProfileForm, g: ProfileForm)
    requires SaveProfile(Some(p), f) == SaveProfile(Some(p), g)
    ensures f == g
  {
    assert FormOf(SaveProfile(Some(p), f).value) == f;
  }

  datatype PasswordForm = PasswordForm(oldPassword: string, newPassword: string, confirmPassword: string)

  const ClearedPasswords := PasswordForm([], [], [])

  datatype PasswordOutcome = Mismatch | TooShort | SendChange(request: PasswordForm)

  /** `handleChangePassword`: a confirmation that differs is reported
      first, then a new password shorter than eight characters; otherwise
      the three fields are sent as they are. */
  function ChangePassword(pw: PasswordForm): (r: PasswordOutcome)
    ensures r == Mismatch <==> pw.newPassword != pw.confirmPassword
    ensures r == TooShort <==> pw.newPassword == pw.confirmPassword && |pw.newPassword| < MinPasswordLength
    ensures r.SendChange? ==> r.request == pw && |pw.newPassword| >= MinPasswordLength
  {
    if pw.newPassword != pw.confirmPassword then Mismatch
    else if |pw.newPassword| < MinPasswordLength then TooShort
    else SendChange(pw)
  }

  /** The fields after the server answered a sent change: cleared on
      success, kept on failure. */
  function AfterChange(pw: PasswordForm, succeeded: bool): (r: PasswordForm)
    ensures succeeded ==> r == ClearedPasswords
    ensures !succeeded ==> r == pw
  {
    if succeeded then ClearedPasswords else pw
  }

  /** The confirmation field is marked as an error: it is non-empty and
      differs from the new password. */
  function ConfirmFlagged(pw: PasswordForm): (r: bool)
    ensures r ==> ChangePassword(pw) == Mismatch
    ensures pw.confirmPassword == [] ==> !r
    ensures pw.confirmPassword != [] && ChangePassword(pw) == Mismatch ==> r
  {
    pw.confirmPassword != [] && pw.newPassword != pw.confirmPassword
  }

  /** The change button is disabled while loading, while a field is empty,
      while the new password is short, or while the confirmation differs. */
  function ButtonDisabled(isLoading: bool, pw: PasswordForm): (r: bool)
    ensures isLoading || ConfirmFlagged(pw) ==> r
    ensures pw.oldPassword == [] || pw.newPassword == [] || pw.confirmPassword == [] ==> r
    ensures |pw.newPassword| < MinPasswordLength ==> r
    ensures !r ==> ChangePassword(pw) == SendChange(pw)
    ensures !isLoading && pw.oldPassword != [] && ChangePassword(pw).SendChange? ==> !r
  {
    || isLoading
    || pw.oldPassword == [] || pw.newPassword == [] || pw.confirmPassword == []
    || |pw.newPassword| < MinPasswordLength
    || pw.newPassword != pw.confirmPassword
  }

  /** The button is enabled only when the handler will send the change,
      and a flagged confirmation always disables it. */
  lemma ButtonAgreesWithHandler(isLoading: bool, pw: PasswordForm)
    ensures !ButtonDisabled(isLoading, pw) ==> ChangePassword(pw) == SendChange(pw)
    ensures ConfirmFlagged(pw) ==> ButtonDisabled(isLoading, pw)
    ensures ChangePassword(pw).SendChange? && !isLoading && pw.oldPassword != [] ==> !ButtonDisabled(isLoading, pw)
  {
  }

  /** The button is enabled exactly for the forms the handler sends, once
      an old password is typed and nothing is loading; the confirmation
      field is flagged exactly when it is filled in and the handler would
      report a mismatch. */
  lemma ButtonIffHandlerSends(isLoading: bool, pw: PasswordForm)
    ensures !ButtonDisabled(isLoading, pw) <==>
      !isLoading && pw.oldPassword != [] && ChangePassword(pw).SendChange?
    ensures ConfirmFlagged(pw) <==> pw.confirmPassword != [] && ChangePassword(pw) == Mismatch
  {
  }

  /** A successful change leaves a form whose button is disabled and that
      the handler refuses as too short. */
  lemma ClearedFormRefused(isLoading: bool, pw: PasswordForm)
    ensures ButtonDisabled(isLoading, AfterChange(pw, true))
    ensures ChangePassword(AfterChange(pw, true)) == TooShort
  {
  }
}

=== FILE: service_management.dfy ===
/** The service catalogue editor, `pages/ServiceManagementPage.tsx`: the
    dialog form, its validation and the service record it saves. Field
    values are the raw text of the inputs. */
module ServiceManagement {
  import opened Base
  import opened Text
  import opened Domain
  import opened JsNumbers

  datatype ServiceForm = ServiceForm(name: string, description: string, price: string,
                                     duration: string, active: bool, imageUrl: string)

  /** `resetForm`: every text field empty, the service active. */
  const BlankForm := ServiceForm([], [], [], [], true, [])

  datatype DialogMode = AddMode | EditMode

  /** The dialog: open or closed, its mode, the service being edited and
      the form. */
  datatype Dialog = Dialog(open: bool, mode: DialogMode, selected: Option<Service>, form: ServiceForm)

  /** `handleAddService`: an add dialog over a blank form. */
  function AddService(d: Dialog): (r: Dialog)
    ensures r.open && r.mode == AddMode && r.selected.None? && r.form == BlankForm
  {
    Dialog(true, AddMode, None, BlankForm)
  }

  /** `handleEditService`: an edit dialog over the service's values, with
      absent description and image shown as empty text. */
  function EditService(d: Dialog, s: Service): (r: Dialog)
    ensures r.open && r.mode == EditMode && r.selected == Some(s)
    ensures r.form.name == s.name && r.form.active == s.active
    ensures r.form.description == OrEmpty(s.description)
    ensures r.form.imageUrl == OrEmpty(s.imageUrl)
    ensures ParseInt(r.form.price) == Some(s.price)
    ensures ParseInt(r.form.duration) == Some(s.durationMinutes)
  {
    ParseIntToString(s.price);
    ParseIntToString(s.durationMinutes);
    Dialog(true, EditMode, Some(s),
           ServiceForm(s.name, OrEmpty(s.description), IntToString(s.price),
                       IntToString(s.durationMinutes), s.active, OrEmpty(s.imageUrl)))
  }

  /** `handleCloseDialog`: closed, with the form reset; mode and selection
      stay as they were. */
  function CloseDialog(d: Dialog): (r: Dialog)
    ensures !r.open && r.form == BlankForm && r.mode == d.mode && r.selected == d.selected
  {
    d.(open := false, form := BlankForm)
  }

  /** Which message a field shows: the field is empty, or its value is
      not an acceptable number. */
  datatype FieldError = Required | Invalid

  /** `validateForm`'s error object, one entry per field. */
  datatype FormErrors = FormErrors(name: Option<FieldError>, price: Option<FieldError>, duration: Option<FieldError>)

  /** A blank name is required. */
  function NameError(name: string): (r: Option<FieldError>)
    ensures r.Some? <==> IsBlank(name)
    ensures r.Some? ==> r.value == Required
  {
    if Trim(name) == [] then Some(Required) else None
  }

  /** A blank price is required; one `parseFloat` reads as NaN or as a
      number below zero is invalid. */
  function PriceError(price: string): (r: Option<FieldError>)
    ensures r == Some(Required) <==> IsBlank(price)
    ensures r == Some(Invalid) <==>
      !IsBlank(price) && (ParseFloat(price).None? || IsBelowZero(ParseFloat(price).value))
  {
    var n := ParseFloat(price);
    if Trim(price) == [] then Some(Required)
    else if n.None? || IsBelowZero(n.value) then Some(Invalid)
    else None
  }

  /** A blank duration is required; one `parseInt` reads as NaN or as a
      number not above zero is invalid. */
  function DurationError(duration: string): (r: Option<FieldError>)
    ensures r == Some(Required) <==> IsBlank(duration)
    ensures r == Some(Invalid) <==>
      !IsBlank(duration) && (ParseInt(duration).None? || ParseInt(duration).value <= 0)
  {
    var n := ParseInt(duration);
    if Trim(duration) == [] then Some(Required)
    else if n.None? || n.value <= 0 then Some(Invalid)
    else None
  }

  function Validate(f: ServiceForm): (r: FormErrors)
    ensures r.name.None? <==> !IsBlank(f.name)
    ensures r.price.None? <==> !IsBlank(f.price) && ParseFloat(f.price).Some? && !IsBelowZero(ParseFloat(f.price).value)
    ensures r.duration.None? <==> !IsBlank(f.duration) && ParseInt(f.duration).Some? && ParseInt(f.duration).value > 0
  {
    FormErrors(NameError(f.name), PriceError(f.price), DurationError(f.duration))
  }

  /** `validateForm` returns true: the error object has no key. */
  function ValidForm(f: ServiceForm): (r: bool)
    ensures r ==> ParseFloat(f.price).Some? && ParseInt(f.duration).Some? && ParseInt(f.duration).value > 0
    ensures IsBlank(f.name) || IsBlank(f.price) || IsBlank(f.duration) ==> !r
  {
    Validate(f) == FormErrors(None, None, None)
  }

  /** The form passes exactly when the name is not blank, the price reads
      as a number not below zero and the duration as a positive integer. */
  lemma ValidFormIff(f: ServiceForm)
    ensures ValidForm(f) <==>
      && !IsBlank(f.name)
      && !IsBlank(f.price) && ParseFloat(f.price).Some? && !IsBelowZero(ParseFloat(f.price).value)
      && !IsBlank(f.duration) && ParseInt(f.duration).Some? && ParseInt(f.duration).value > 0
  {
  }

  /** The record `handleSaveService` sends. The price is whatever
      `parseFloat` read, which validation has made a number not below zero;
      empty description and image become absent; the name is sent
      untrimmed. */
  datatype ServiceDraft = ServiceDraft(id: int, name: string, description: Option<string>,
                                       price: JsNumber, durationMinutes: int, active: bool,
                                       imageUrl: Option<string>)

  datatype SaveCall = CreateService(draft: ServiceDraft) | UpdateService(id: int, draft: ServiceDraft)

  function NonEmptyOrAbsent(s: string): (r: Option<string>)
    ensures r.None? <==> s == []
    ensures r.Some? ==> r.value == s
  {
    if s == [] then None else Some(s)
  }

  /** `handleSaveService`: nothing is sent while the form has errors;
      otherwise an add dialog creates and an edit dialog updates the
      record with the selected service's id (0 without one). */
  function HandleSave(d: Dialog): (r: Option<SaveCall>)
    ensures r.None? <==> !ValidForm(d.form)
    ensures r.Some? ==> (r.value.CreateService? <==> d.mode == AddMode)
    ensures r.Some? && r.value.UpdateService? ==> r.value.id == r.value.draft.id
    ensures r.Some? ==>
      var draft := r.value.draft;
      && draft.id == (if d.selected.Some? then d.selected.value.id else 0)
      && draft.name == d.form.name
      && Some(draft.price) == ParseFloat(d.form.price) && !IsBelowZero(draft.price)
      && Some(draft.durationMinutes) == ParseInt(d.form.duration) && draft.durationMinutes > 0
      && draft.description == NonEmptyOrAbsent(d.form.description)
      && draft.imageUrl == NonEmptyOrAbsent(d.form.imageUrl)
      && draft.active == d.form.active
  {
    if !ValidForm(d.form) then None
    else
      var f := d.form;
      var id := if d.selected.Some? && d.selected.value.id != 0 then d.selected.value.id else 0;
      var draft := ServiceDraft(id, f.name, NonEmptyOrAbsent(f.description), ParseFloat(f.price).value,
                                ParseInt(f.duration).value, f.active, NonEmptyOrAbsent(f.imageUrl));
      Some(if d.mode == AddMode then CreateService(draft) else UpdateService(draft.id, draft))
  }

  /** The text of an integer is never blank. */
  lemma IntTextNotBlank(n: int)
    ensures !IsBlank(IntToString(n))
  {
    ParseIntToString(n);
    if IsBlank(IntToString(n)) { ParseOfNonNumeric(IntToString(n)); }
  }

  /** The price field filled from an integer price is invalid exactly when
      the price is below zero. */
  lemma PriceTextError(n: int)
    ensures PriceError(IntToString(n)) == if n < 0 then Some(Invalid) else None
  {
    ParseIntToString(n);
    IntTextNotBlank(n);
  }

  /** The duration field filled from an integer is invalid exactly when
      the duration is not above zero. */
  lemma DurationTextError(n: int)
    ensures DurationError(IntToString(n)) == if n <= 0 then Some(Invalid) else None
  {
    ParseIntToString(n);
    IntTextNotBlank(n);
  }

  /** The edit dialog of a service passes validation exactly when the
      service has a non-blank name, a price not below zero and a positive
      duration. */
  lemma EditedServiceValidIff(d: Dialog, s: Service)
    ensures ValidForm(EditService(d, s).form) <==> !IsBlank(s.name) && s.price >= 0 && s.durationMinutes > 0
  {
    PriceTextError(s.price);
    DurationTextError(s.durationMinutes);
  }

  /** The price text of a price not below zero reads back as that price. */
  lemma PriceRoundTrip(n: int)
    requires n >= 0
    ensures ParseFloat(IntToString(n)) == Some(Finite(false, n, 0))
  {
    ParseIntToString(n);
  }

  /** Saving an unchanged edit dialog sends the service back: same id,
      name, duration and activity, its price as a number, and description
      and image as before except that an empty one becomes absent. */
  lemma UnchangedEditRoundTrip(d: Dialog, s: Service)
    requires !IsBlank(s.name) && s.price >= 0 && s.durationMinutes > 0
    ensures var r := HandleSave(EditService(d, s));
      && r.Some? && r.value.UpdateService? && r.value.id == s.id
      && r.value.draft.id == s.id
      && r.value.draft.name == s.name
      && r.value.draft.price == Finite(false, s.price, 0)
      && r.value.draft.durationMinutes == s.durationMinutes
      && r.value.draft.active == s.active
      && r.value.draft.description == (if s.description == Some([]) then None else s.description)
      && r.value.draft.imageUrl == (if s.imageUrl == Some([]) then None else s.imageUrl)
  {
    var dlg := EditService(d, s);
    EditedServiceValidIff(d, s);
    var r := HandleSave(dlg);
    assert r.Some? && r.value.UpdateService?;
    var draft := r.value.draft;
    PriceRoundTrip(s.price);
    assert draft.price == Finite(false, s.price, 0);
  }

  /** The reset form fails on the name, the price and the duration, each
      as required. */
  lemma BlankFormInvalid()
    ensures Validate(BlankForm) == FormErrors(Some(Required), Some(Required), Some(Required))
  {
  }

  /** A service saved from the add dialog is created with id 0, whatever
      dialog came before. */
  lemma AddedServiceHasIdZero(d: Dialog, f: ServiceForm)
    ensures var r := HandleSave(AddService(d).(form := f));
      ValidForm(f) ==> r.Some? && r.value.CreateService? && r.value.draft.id == 0
  {
  }
}

=== FILE: service_selection.dfy ===
/** The list of selected services shared by the booking and editing pages
    (`pages/NewAppointmentPage.tsx`, `pages/EditAppointmentPage.tsx`): the
    toggle that adds or removes a service and the duration and price totals
    shown beside the list. */
module ServiceSelection {
  import opened Base
  import opened Domain

  /** Sum of the selected services' durations (`reduce` from 0). */
  function TotalDuration(sel: seq<Service>): (r: int)
    ensures (forall k :: 0 <= k < |sel| ==> sel[k].durationMinutes >= 0) ==> r >= 0
    ensures (forall k :: 0 <= k < |sel| ==> sel[k].durationMinutes > 0) ==> (r > 0 <==> |sel| > 0)
  {
    if |sel| == 0 then 0 else TotalDuration(sel[..|sel| - 1]) + sel[|sel| - 1].durationMinutes
  }

  /** Sum of the selected services' prices (`reduce` from 0). */
  function TotalPrice(sel: seq<Service>): (r: int)
    ensures (forall k :: 0 <= k < |sel| ==> sel[k].price >= 0) ==> r >= 0
  {
    if |sel| == 0 then 0 else TotalPrice(sel[..|sel| - 1]) + sel[|sel| - 1].price
  }

  /** Both totals add up over a split of the selection. */
  lemma {:induction false} TotalsConcat(a: seq<Service>, b: seq<Service>)
    ensures TotalDuration(a + b) == TotalDuration(a) + TotalDuration(b)
    ensures TotalPrice(a + b) == TotalPrice(a) + TotalPrice(b)
    decreases |b|
  {
    if |b| == 0 {
      assert a + b == a;
    } else {
      assert (a + b)[..|a + b| - 1] == a + b[..|b| - 1];
      TotalsConcat(a, b[..|b| - 1]);
    }
  }

  /** The selection without the services carrying this id. */
  function WithoutId(services: seq<Service>, id: int): (r: seq<Service>)
    ensures forall k :: 0 <= k < |r| ==> r[k].id != id
  {
    Filter(services, (s: Service) => s.id != id)
  }

  /** `findIndex(s => s.id === id)`, with `None` for -1. */
  function FindServiceIndex(services: seq<Service>, id: int): (r: Option<nat>)
    ensures r.Some? ==> r.value < |services| && services[r.value].id == id
    ensures r.None? <==> !HasServiceId(services, id)
  {
    if |services| == 0 then None
    else if services[0].id == id then Some(0)
    else
      match FindServiceIndex(services[1..], id)
      case None =>
        assert forall k :: 1 <= k < |services| ==> services[k] == services[1..][k - 1];
        None
      case Some(i) => Some(i + 1)
  }

  lemma FilterDropsOne(services: seq<Service>, id: int, i: nat)
    requires i < |services| && services[i].id == id
    ensures |WithoutId(services, id)| < |services|
  {
    FilterShorter(services, (s: Service) => s.id != id, i);
  }

  /** `handleServiceToggle` on the list: a service whose id is not selected
      is appended; a selected one is removed together with every entry
      sharing its id. */
  function Toggle(services: seq<Service>, service: Service): (r: seq<Service>)
    ensures !HasServiceId(services, service.id) ==> r == services + [service]
    ensures HasServiceId(services, service.id) ==>
      !HasServiceId(r, service.id) && |r| < |services|
  {
    var i := FindServiceIndex(services, service.id);
    if i.None? then services + [service]
    else
      FilterDropsOne(services, service.id, i.value);
      WithoutId(services, service.id)
  }

  /** After a toggle the toggled id is selected exactly when it was not
      before, and every other id keeps its membership. */
  lemma ToggleMembership(services: seq<Service>, service: Service, id: int)
    ensures HasServiceId(Toggle(services, service), id) <==>
      if id == service.id then !HasServiceId(services, id) else HasServiceId(services, id)
  {
    var r := Toggle(services, service);
    if !HasServiceId(services, service.id) {
      if id == service.id {
        assert r[|services|].id == id;
      } else if HasServiceId(services, id) {
        var k :| 0 <= k < |services| && services[k].id == id;
        assert r[k].id == id;
      }
    } else if id != service.id {
      var p := (s: Service) => s.id != service.id;
      if HasServiceId(services, id) {
        var k :| 0 <= k < |services| && services[k].id == id;
        FilterMembership(services, p, services[k]);
        var j :| 0 <= j < |r| && r[j] == services[k];
      }
      if HasServiceId(r, id) {
        var j :| 0 <= j < |r| && r[j].id == id;
        FilterMembership(services, p, r[j]);
        var k :| 0 <= k < |services| && services[k] == r[j];
      }
    }
  }

  lemma {:induction false} SubsequenceKeepsUnique(s: seq<Service>, p: Service -> bool)
    requires UniqueIds(s)
    ensures UniqueIds(Filter(s, p))
    ensures forall k :: 0 <= k < |Filter(s, p)| ==> HasServiceId(s, Filter(s, p)[k].id)
  {
    if |s| > 0 {
      var t := s[1..];
      assert UniqueIds(t);
      SubsequenceKeepsUnique(t, p);
      var ft := Filter(t, p);
      if p(s[0]) {
        assert Filter(s, p) == [s[0]] + ft;
        forall k | 0 <= k < |ft|
          ensures ft[k].id != s[0].id
        {
          var j :| 0 <= j < |t| && t[j].id == ft[k].id;
          assert t[j] == s[j + 1];
        }
      }
      forall k | 0 <= k < |ft|
        ensures HasServiceId(s, ft[k].id)
      {
        var j :| 0 <= j < |t| && t[j].id == ft[k].id;
        assert t[j] == s[j + 1];
      }
    }
  }

  /** Toggling preserves the uniqueness of the selected service ids. */
  lemma ToggleKeepsUniqueIds(services: seq<Service>, service: Service)
    requires UniqueIds(services)
    ensures UniqueIds(Toggle(services, service))
  {
    if HasServiceId(services, service.id) {
      SubsequenceKeepsUnique(services, (s: Service) => s.id != service.id);
    }
  }

  /** Toggling a service that is not selected, and then toggling it again,
      gives back the original list. */
  lemma ToggleTwiceRestores(services: seq<Service>, service: Service)
    requires !HasServiceId(services, service.id)
    ensures Toggle(Toggle(services, service), service) == services
  {
    var once := Toggle(services, service);
    assert HasServiceId(once, service.id) by {
      assert once[|services|].id == service.id;
    }
    var p := (s: Service) => s.id != service.id;
    FilterConcat(services, [service], p);
    FilterKeepsAll(services, p);
    assert Filter([service], p) == [];
  }

  /** With unique ids, removing the id of the service at index `k`
      removes exactly that position. */
  lemma WithoutIdSplit(s: seq<Service>, k: nat)
    requires UniqueIds(s) && k < |s|
    ensures WithoutId(s, s[k].id) == s[..k] + s[k + 1..]
  {
    FilterRemovesAt(s, (x: Service) => x.id != s[k].id, k);
  }

  /** Removing the service at index `k` from a selection with unique ids
      subtracts its duration and price from the totals. */
  lemma RemoveTotals(s: seq<Service>, k: nat)
    requires UniqueIds(s) && k < |s|
    ensures TotalDuration(WithoutId(s, s[k].id)) == TotalDuration(s) - s[k].durationMinutes
    ensures TotalPrice(WithoutId(s, s[k].id)) == TotalPrice(s) - s[k].price
  {
    var pre, post := s[..k], s[k + 1..];
    WithoutIdSplit(s, k);
    assert s == (pre + [s[k]]) + post;
    TotalsConcat(pre, post);
    TotalsConcat(pre + [s[k]], post);
    TotalsConcat(pre, [s[k]]);
    assert [s[k]][..0] == [];
  }

  /** Appending an unselected service adds its duration and price to the
      totals; removing a selected one from a selection with unique ids
      subtracts the removed service's duration and price. */
  lemma ToggleTotals(services: seq<Service>, service: Service)
    requires UniqueIds(services)
    ensures var r := Toggle(services, service);
      if !HasServiceId(services, service.id) then
        && TotalDuration(r) == TotalDuration(services) + service.durationMinutes
        && TotalPrice(r) == TotalPrice(services) + service.price
      else
        exists k :: 0 <= k < |services| && services[k].id == service.id
          && TotalDuration(r) == TotalDuration(services) - services[k].durationMinutes
          && TotalPrice(r) == TotalPrice(services) - services[k].price
  {
    var s := services;
    if !HasServiceId(s, service.id) {
      assert (s + [service])[..|s|] == s;
    } else {
      var k :| 0 <= k < |s| && s[k].id == service.id;
      RemoveTotals(s, k);
    }
  }
}

=== FILE: text.dfy ===
/** The JavaScript string primitives the client relies on: `trim`,
    `toLowerCase` and `includes`, plus the `s.trim() || undefined` idiom
    used for optional free-text fields. */
module Text {
  import opened Base

  /** The characters `String.prototype.trim` strips: the ECMAScript
      WhiteSpace and LineTerminator productions. */
  predicate IsSpace(c: char)
  {
    || c == ' ' || c == '\t' || c == '\n' || c == '\r'
    || c == '\U{000B}' || c == '\U{000C}' || c == '\U{00A0}' || c == '\U{FEFF}'
    || c == '\U{1680}' || ('\U{2000}' <= c <= '\U{200A}')
    || c == '\U{2028}' || c == '\U{2029}' || c == '\U{202F}' || c == '\U{205F}'
    || c == '\U{3000}'
  }

  /** A string that `trim` reduces to the empty (falsy) string. */
  predicate IsBlank(s: string)
  {
    forall k :: 0 <= k < |s| ==> IsSpace(s[k])
  }

  /** `trimStart`: drops the leading white space. */
  function TrimStart(s: string): (r: string)
    ensures |r| <= |s| && r == s[|s| - |r|..]
    ensures forall k :: 0 <= k < |s| - |r| ==> IsSpace(s[k])
    ensures r == [] || !IsSpace(r[0])
  {
    if |s| > 0 && IsSpace(s[0]) then TrimStart(s[1..]) else s
  }

  /** `trimEnd`: drops the trailing white space. */
  function TrimEnd(s: string): (r: string)
    ensures |r| <= |s| && r == s[..|r|]
    ensures forall k :: |r| <= k < |s| ==> IsSpace(s[k])
    ensures r == [] || !IsSpace(r[|r| - 1])
  {
    if |s| > 0 && IsSpace(s[|s| - 1]) then TrimEnd(s[..|s| - 1]) else s
  }

  /** `trim`: the result is empty exactly for blank input, otherwise it
      starts and ends with a non-space character. */
  function Trim(s: string): (r: string)
    ensures |r| <= |s|
    ensures r == [] <==> IsBlank(s)
    ensures r == [] || (!IsSpace(r[0]) && !IsSpace(r[|r| - 1]))
  {
    var t := TrimStart(s);
    BlankIffTrimmedBlank(s, t);
    TrimEnd(t)
  }

  /** `s` is blank exactly when what `TrimStart` leaves of it is blank. */
  lemma BlankIffTrimmedBlank(s: string, t: string)
    requires t == TrimStart(s)
    ensures IsBlank(s) <==> IsBlank(t)
    ensures IsBlank(t) <==> TrimEnd(t) == []
  {
    if !IsBlank(t) {
      var k :| 0 <= k < |t| && !IsSpace(t[k]);
      assert s[|s| - |t| + k] == t[k];
    }
  }

  /** Trimming is the identity on text with white space removed around it:
      padding blank text on both sides of such a core trims back to it. */
  lemma {:induction false} TrimPadded(pre: string, core: string, post: string)
    requires IsBlank(pre) && IsBlank(post)
    requires core != [] && !IsSpace(core[0]) && !IsSpace(core[|core| - 1])
    ensures Trim(pre + core + post) == core
  {
    var s := pre + core + post;
    assert TrimStart(s) == core + post by {
      assert s == pre + (core + post);
      TrimStartPadded(pre, core + post);
    }
    assert TrimEnd(core + post) == core by {
      TrimEndPadded(core, post);
    }
  }

  lemma {:induction false} TrimStartPadded(pre: string, rest: string)
    requires IsBlank(pre)
    requires rest != [] && !IsSpace(rest[0])
    ensures TrimStart(pre + rest) == rest
  {
    if pre != [] {
      assert (pre + rest)[1..] == pre[1..] + rest;
      TrimStartPadded(pre[1..], rest);
    } else {
      assert pre + rest == rest;
    }
  }

  lemma {:induction false} TrimEndPadded(core: string, post: string)
    requires IsBlank(post)
    requires core != [] && !IsSpace(core[|core| - 1])
    ensures TrimEnd(core + post) == core
  {
    if post != [] {
      var s := core + post;
      assert s[..|s| - 1] == core + post[..|post| - 1];
      TrimEndPadded(core, post[..|post| - 1]);
    } else {
      assert core + post == core;
    }
  }

  /** The idiom `s.trim() || undefined`: absent for blank input, otherwise the
      trimmed text. */
  function TrimmedOrAbsent(s: string): (r: Option<string>)
    ensures r == None <==> IsBlank(s)
    ensures r.Some? ==> r.value != [] && |r.value| <= |s| && !IsSpace(r.value[0])
  {
    var t := Trim(s);
    if t == [] then None else Some(t)
  }

  /** The capital letters `toLowerCase` maps to a single small letter
      here: ASCII, the Latin-1 capitals (not the multiplication sign), the
      case pairs of Latin Extended-A (Ă, Ş, Ţ among them; not the dotted
      capital I, whose lowercase form is two code units long), the pairs
      U+0200 to U+021F (Ș, Ț) and U+0222 to U+0233 of Latin Extended-B, and
      the basic Cyrillic capitals. In the paired blocks the capital is the
      even member, except U+0139 to U+0148 and U+0179 to U+017E where it
      is the odd one. */
  predicate IsUpper(c: char)
  {
    || ('A' <= c <= 'Z')
    || ('\U{00C0}' <= c <= '\U{00DE}' && c != '\U{00D7}')
    || ('\U{0100}' <= c <= '\U{0137}' && c != '\U{0130}' && c as int % 2 == 0)
    || ('\U{0139}' <= c <= '\U{0148}' && c as int % 2 == 1)
    || ('\U{014A}' <= c <= '\U{0177}' && c as int % 2 == 0)
    || c == '\U{0178}'
    || ('\U{0179}' <= c <= '\U{017E}' && c as int % 2 == 1)
    || ('\U{0200}' <= c <= '\U{021F}' && c as int % 2 == 0)
    || ('\U{0222}' <= c <= '\U{0233}' && c as int % 2 == 0)
    || ('\U{0400}' <= c <= '\U{042F}')
  }

  /** `toLowerCase` on one character: a capital becomes its small letter,
      which is no capital itself; every other character is kept. */
  function LowerChar(c: char): (r: char)
    ensures IsUpper(c) ==> r != c && !IsUpper(r)
    ensures !IsUpper(c) ==> r == c
    ensures 'A' <= c <= 'Z' ==> 'a' <= r <= 'z'
  {
    if !IsUpper(c) then c
    else if c == '\U{0178}' then '\U{00FF}'
    else if c <= '\U{00DE}' || '\U{0410}' <= c then (c as int + 0x20) as char
    else if '\U{0400}' <= c then (c as int + 0x50) as char
    else (c as int + 1) as char
  }

  /** The Romanian capitals, with comma and with cedilla below, lower to
      their small letters. */
  lemma RomanianLettersLower()
    ensures LowerChar('\U{0102}') == '\U{0103}'  // Ă
    ensures LowerChar('\U{00C2}') == '\U{00E2}'  // Â
    ensures LowerChar('\U{00CE}') == '\U{00EE}'  // Î
    ensures LowerChar('\U{0218}') == '\U{0219}'  // Ș
    ensures LowerChar('\U{021A}') == '\U{021B}'  // Ț
    ensures LowerChar('\U{015E}') == '\U{015F}'  // Ş
    ensures LowerChar('\U{0162}') == '\U{0163}'  // Ţ
  {
  }

  function Lower(s: string): (r: string)
    ensures |r| == |s|
    ensures forall k :: 0 <= k < |s| ==> r[k] == LowerChar(s[k])
  {
    seq(|s|, k requires 0 <= k < |s| => LowerChar(s[k]))
  }

  /** Lowering twice is lowering once. */
  lemma LowerIdempotent(s: string)
    ensures Lower(Lower(s)) == Lower(s)
  {
  }

  /** `q` occurs in `s` starting at index `i`. */
  predicate OccursAt(s: string, q: string, i: nat)
  {
    i + |q| <= |s| && s[i..i + |q|] == q
  }

  /** `String.prototype.includes`. */
  function Includes(s: string, q: string): (r: bool)
    ensures r <==> exists i: nat :: i <= |s| && OccursAt(s, q, i)
  {
    IncludesFrom(s, q, 0)
  }

  function IncludesFrom(s: string, q: string, from: nat): (r: bool)
    requires from <= |s|
    ensures r <==> exists i: nat :: from <= i <= |s| && OccursAt(s, q, i)
    decreases |s| - from
  {
    if OccursAt(s, q, from) then true
    else if from == |s| then false
    else IncludesFrom(s, q, from + 1)
  }
}

=== FILE: work_schedule.dfy ===
/** The weekly-schedule editing logic of `pages/WorkScheduleManagementPage.tsx`:
    saving an entry is an upsert keyed by `dayOfWeek` into the whole list
    that is then sent to the server, and the active switch is the same upsert
    with the flag flipped. */
module WorkScheduleManagement {
  import opened Base
  import opened Domain

  datatype SetWorkScheduleRequest = SetWorkScheduleRequest(providerId: int, scheduleEntries: seq<WorkSchedule>)

  predicate HasDay(list: seq<WorkSchedule>, day: string)
  {
    exists k :: 0 <= k < |list| && list[k].dayOfWeek == day
  }

  /** Index `k` holds the first entry for this day. */
  predicate IsFirstForDay(list: seq<WorkSchedule>, day: string, k: int)
  {
    0 <= k < |list| && list[k].dayOfWeek == day && forall j :: 0 <= j < k ==> list[j].dayOfWeek != day
  }

  /** At most one entry per day of the week. */
  predicate UniqueDays(list: seq<WorkSchedule>)
  {
    forall j, k :: 0 <= j < k < |list| ==> list[j].dayOfWeek != list[k].dayOfWeek
  }

  /** `findIndex(s => s.dayOfWeek === day)`, with `None` for -1. */
  function FindDay(list: seq<WorkSchedule>, day: string): (r: Option<nat>)
    ensures r.Some? ==> IsFirstForDay(list, day, r.value)
    ensures r.None? <==> !HasDay(list, day)
  {
    if |list| == 0 then None
    else if list[0].dayOfWeek == day then Some(0)
    else
      match FindDay(list[1..], day)
      case None =>
        assert forall k :: 1 <= k < |list| ==> list[k] == list[1..][k - 1];
        None
      case Some(i) => Some(i + 1)
  }

  /** The list built by `handleSaveSchedule`: an existing day has its first
      entry replaced in place, a new day is appended at the end, and entries
      for other days are never modified or moved. */
  function Upsert(list: seq<WorkSchedule>, e: WorkSchedule): (r: seq<WorkSchedule>)
    ensures HasDay(list, e.dayOfWeek) ==>
      && |r| == |list|
      && forall k :: 0 <= k < |list| ==> r[k] == (if IsFirstForDay(list, e.dayOfWeek, k) then e else list[k])
    ensures !HasDay(list, e.dayOfWeek) ==> |r| == |list| + 1 && r[..|list|] == list && r[|list|] == e
    ensures forall k :: 0 <= k < |list| && list[k].dayOfWeek != e.dayOfWeek ==> r[k] == list[k]
  {
    match FindDay(list, e.dayOfWeek)
    case None => list + [e]
    case Some(i) =>
      assert forall k :: 0 <= k < |list| && k != i ==> !IsFirstForDay(list, e.dayOfWeek, k);
      list[i := e]
  }

  /** With one entry per day, the upsert replaces that day's entry. */
  lemma UpsertUniqueReplaces(list: seq<WorkSchedule>, i: nat, e: WorkSchedule)
    requires UniqueDays(list) && i < |list| && list[i].dayOfWeek == e.dayOfWeek
    ensures Upsert(list, e) == list[i := e]
  {
    assert IsFirstForDay(list, e.dayOfWeek, i);
  }

  /** The upsert keeps a list at one entry per day. */
  lemma UpsertKeepsUniqueDays(list: seq<WorkSchedule>, e: WorkSchedule)
    requires UniqueDays(list)
    ensures UniqueDays(Upsert(list, e))
  {
    var r := Upsert(list, e);
    if HasDay(list, e.dayOfWeek) {
      var i :| 0 <= i < |list| && list[i].dayOfWeek == e.dayOfWeek;
      UpsertUniqueReplaces(list, i, e);
      forall j, k | 0 <= j < k < |r|
        ensures r[j].dayOfWeek != r[k].dayOfWeek
      {
        assert r[j].dayOfWeek == list[j].dayOfWeek;
        assert r[k].dayOfWeek == list[k].dayOfWeek;
      }
    } else {
      forall j, k | 0 <= j < k < |r|
        ensures r[j].dayOfWeek != r[k].dayOfWeek
      {
        if k == |list| {
          assert r[j] == list[j];
        }
      }
    }
  }

  /** Saving the same entry twice sends the same list as saving it once. */
  lemma UpsertIdempotent(list: seq<WorkSchedule>, e: WorkSchedule)
    ensures Upsert(Upsert(list, e), e) == Upsert(list, e)
  {
    var r := Upsert(list, e);
    match FindDay(list, e.dayOfWeek)
    case Some(i) =>
      assert IsFirstForDay(r, e.dayOfWeek, i);
      assert forall k :: 0 <= k < |r| && k != i ==> !IsFirstForDay(r, e.dayOfWeek, k);
    case None =>
      assert IsFirstForDay(r, e.dayOfWeek, |list|);
      assert forall k :: 0 <= k < |r| && k != |list| ==> !IsFirstForDay(r, e.dayOfWeek, k);
  }

  /** `handleSaveSchedule`: nothing is sent without a selected provider;
      a missing weekly schedule counts as an empty list. */
  function SaveSchedule(selectedProvider: Option<int>, regular: Option<seq<WorkSchedule>>, form: WorkSchedule)
    : (r: Option<SetWorkScheduleRequest>)
    ensures !IsSetId(selectedProvider) <==> r.None?
    ensures r.Some? ==>
      && r.value.providerId == selectedProvider.value
      && r.value.scheduleEntries == Upsert(if regular.Some? then regular.value else [], form)
  {
    if !IsSetId(selectedProvider) then None
    else Some(SetWorkScheduleRequest(selectedProvider.value, Upsert(if regular.Some? then regular.value else [], form)))
  }

  /** The list the active switch of one table row saves: the row with its
      flag flipped is upserted into the list. */
  function ToggledList(list: seq<WorkSchedule>, row: WorkSchedule): (r: seq<WorkSchedule>)
    ensures row.(active := !row.active) in r
    ensures |r| == |list| || |r| == |list| + 1
    ensures forall k :: 0 <= k < |list| && list[k].dayOfWeek != row.dayOfWeek ==> r[k] == list[k]
  {
    Upsert(list, row.(active := !row.active))
  }

  /** The switch's `onChange`: nothing is sent without a selected provider;
      otherwise that provider's whole schedule is sent with the row's flag
      flipped, a missing weekly schedule counting as an empty list. */
  function ToggleActive(selectedProvider: Option<int>, regular: Option<seq<WorkSchedule>>, row: WorkSchedule)
    : (r: Option<SetWorkScheduleRequest>)
    ensures r.None? <==> !IsSetId(selectedProvider)
    ensures r.Some? ==>
      && r.value.providerId == selectedProvider.value
      && row.(active := !row.active) in r.value.scheduleEntries
      && r.value.scheduleEntries == ToggledList(if regular.Some? then regular.value else [], row)
  {
    if !IsSetId(selectedProvider) then None
    else Some(SetWorkScheduleRequest(selectedProvider.value, ToggledList(if regular.Some? then regular.value else [], row)))
  }

  /** Toggling a row sends exactly what saving the form filled with that
      row, its flag flipped, would send. */
  lemma ToggleIsSave(selectedProvider: Option<int>, regular: Option<seq<WorkSchedule>>, row: WorkSchedule)
    ensures ToggleActive(selectedProvider, regular, row) == SaveSchedule(selectedProvider, regular, row.(active := !row.active))
  {
  }

  /** On a list with one entry per day, toggling row `i` flips only its
      `active` flag; id, day, start and end are kept. */
  lemma ToggleFlipsOnlyActive(list: seq<WorkSchedule>, i: nat)
    requires UniqueDays(list) && i < |list|
    ensures var r := ToggledList(list, list[i]);
      && |r| == |list|
      && r[i].active == !list[i].active
      && r[i].id == list[i].id && r[i].providerId == list[i].providerId
      && r[i].dayOfWeek == list[i].dayOfWeek
      && r[i].startTime == list[i].startTime && r[i].endTime == list[i].endTime
      && forall k :: 0 <= k < |list| && k != i ==> r[k] == list[k]
  {
    UpsertUniqueReplaces(list, i, list[i].(active := !list[i].active));
  }

  /** Toggling the same row twice restores the original list. */
  lemma ToggleTwiceRestores(list: seq<WorkSchedule>, i: nat)
    requires UniqueDays(list) && i < |list|
    ensures var once := ToggledList(list, list[i]);
      ToggledList(once, once[i]) == list
  {
    var flipped := list[i].(active := !list[i].active);
    UpsertUniqueReplaces(list, i, flipped);
    var once := list[i := flipped];
    UpsertKeepsUniqueDays(list, flipped);
    UpsertUniqueReplaces(once, i, once[i].(active := !once[i].active));
    assert once[i := list[i]] == list;
  }

  /** The table's day column: `getDayName`, mapping the seven day constants to
      their Romanian names and leaving any other string as it is. */
  const DayNames: seq<(string, string)> := [
    ("MONDAY", "Luni"),
    ("TUESDAY", "Mar\U{021B}i"),
    ("WEDNESDAY", "Miercuri"),
    ("THURSDAY", "Joi"),
    ("FRIDAY", "Vineri"),
    ("SATURDAY", "S\U{00E2}mb\U{0103}t\U{0103}"),
    ("SUNDAY", "Duminic\U{0103}")
  ]

  function LookupDay(table: seq<(string, string)>, day: string): (r: Option<string>)
    ensures r.None? <==> forall k :: 0 <= k < |table| ==> table[k].0 != day
    ensures r.Some? ==> exists k :: 0 <= k < |table| && table[k] == (day, r.value)
  {
    if |table| == 0 then None
    else if table[0].0 == day then Some(table[0].1)
    else
      var r := LookupDay(table[1..], day);
      assert forall k :: 1 <= k < |table| ==> table[k] == table[1..][k - 1];
      r
  }

  function DayName(day: string): (r: string)
    ensures (forall k :: 0 <= k < |DayNames| ==> DayNames[k].0 != day) ==> r == day
    ensures forall k :: 0 <= k < |DayNames| && DayNames[k].0 == day ==> r == DayNames[k].1
  {
    match LookupDay(DayNames, day)
    case None => day
    case Some(name) =>
      var k :| 0 <= k < |DayNames| && DayNames[k] == (day, name);
      forall j | 0 <= j < |DayNames| && j != k ensures DayNames[j].0 != day {
        DaysDistinct(j, k);
      }
      if name == [] then day else name
  }

  /** Distinct day constants get distinct names. */
  lemma DayNamesDistinct(j: nat, k: nat)
    requires j < k < |DayNames|
    ensures DayName(DayNames[j].0) != DayName(DayNames[k].0)
  {
    DayNameAt(j);
    DayNameAt(k);
    NamesDistinct(j, k);
  }

  /** The seven day constants are pairwise different. */
  lemma DaysDistinct(j: nat, k: nat)
    requires j < |DayNames| && k < |DayNames| && j != k
    ensures DayNames[j].0 != DayNames[k].0
  {
    // the first letter and the length already tell the seven days apart
    var keys := [('M', 6), ('T', 7), ('W', 9), ('T', 8), ('F', 6), ('S', 8), ('S', 6)];
    assert forall i :: 0 <= i < |DayNames| ==> (DayNames[i].0[0], |DayNames[i].0|) == keys[i];
  }

  /** The seven Romanian names are pairwise different. */
  lemma NamesDistinct(j: nat, k: nat)
    requires j < k < |DayNames|
    ensures DayNames[j].1 != DayNames[k].1
  {
    // the first letter and the length already tell the seven names apart
    var keys := [('L', 4), ('M', 5), ('M', 8), ('J', 3), ('V', 6), ('S', 7), ('D', 8)];
    assert forall i :: 0 <= i < |DayNames| ==> (DayNames[i].1[0], |DayNames[i].1|) == keys[i];
  }

  /** Each day constant gets the name the table pairs it with. */
  lemma DayNameAt(i: nat)
    requires i < |DayNames|
    ensures DayName(DayNames[i].0) == DayNames[i].1
  {
  }

  /** The exceptions table's time-range column: a range only for special
      hours with both ends present, `N/A` otherwise. */
  function ExceptionRangeText(e: ScheduleException): (r: string)
    ensures r == "N/A" <==> !(e.kind == SpecialHours && IsPresent(e.startTime) && IsPresent(e.endTime))
    ensures r != "N/A" ==> r == e.startTime.value + " - " + e.endTime.value
  {
    if e.kind == SpecialHours && IsPresent(e.startTime) && IsPresent(e.endTime) then
      var r := e.startTime.value + " - " + e.endTime.value;
      assert |r| >= 5;
      r
    else "N/A"
  }
}
